=== FILE: README.md ===
# Kindle highlights API — a Dafny model of its core

The service imports Kindle "My Clippings" files into a highlight store and
serves a "highlights of the day" endpoint. This project models the logic
that decides what it stores and what it serves. That logic falls into
three parts:

- **The daily selection** (`src/services/selection.service.js`):
  - the `xmur3` seed hash and the `mulberry32` generator, on 32-bit words;
  - the seeded Fisher-Yates `deterministicShuffle`;
  - `getWindowInfo`, which maps a local date-time to a daily or half-day window and its key;
  - `ensureDailySet`, which creates a window's set once. It starts from the highlights not served recently. When there are fewer of them than `PUBLIC_DAILY_MAX_LIMIT`, it adds every other stored highlight. It shuffles the whole candidate list by the window key, keeps at most `PUBLIC_DAILY_MAX_LIMIT` ids and stamps `lastServedAt`. So once the others are added, a highlight not served recently can still be left out of the pick: with one such highlight, twenty others and a limit of ten, the shuffle may place it eleventh or later.
- **The clippings parser** (`src/services/parser.service.js`):
  - dropping the BOM and normalising CRLF;
  - the separator-line split `/^\s*={10,}\s*$/m`, evaluated by hand;
  - the title line `Title (Author)`, the metadata line (location, page, the "Added on" text) and language detection;
  - the entry-or-error outcome of each chunk, and the `hashId` source text.
- **The request logic around them**:
  - the listing parameters of `src/controllers/highlights.controller.js`;
  - the public endpoint (limit, served prefix, reordering into selection order, cache lifetime);
  - the admin import (insert-if-absent by `hashId`), status and reset;
  - the `authenticate` / `authorize` guards.

## How the model is built

- The store is an immutable `Db`: the highlights in natural order and a map from window key to daily set. Its unique indexes (`_id`, `hashId`, the set `key`) form the invariant `Models.ValidDb`.
- Strings are sequences of Unicode scalar values. `xmur3` reads UTF-16 code units, so `Prng.CodeUnits` encodes them explicitly.
- The 32-bit operators act on `bv32`. The float draw `Math.floor(u / 2^32 * (i + 1))` is computed on exact reals and proved equal to an integer quotient.
- `toLowerCase` and the regular-expression `i` flag are modelled on ASCII. Every string they are compared with is ASCII without `k`, so non-ASCII letters cannot change the outcome of a comparison. One use goes beyond comparing: the "Added on" position found in the lower-cased text is used to slice the original text (see `ClippingsLines.DateString` under "Left out").
- These effects are parameters of the operations:
  - the clock: the local date-time `now`, the instants `nowMs` and `stamp`, and the window end `endMs`;
  - SHA-256 (`sha`);
  - calendar parsing of the "Added on" text (`dateOf`);
  - JWT verification (`verify`);
  - the ids MongoDB gives new documents (`mint`).
- Queries return rows in storage order. The bulk write runs its operations one after another.

## Model

| member | source | states |
|---|---|---|
| Prng.CodeUnits | src/services/selection.service.js:14-16 | the length `xmur3` hashes counts UTF-16 units: never fewer than the characters, equal exactly when every character is in the Basic Multilingual Plane; every unit is below 0x10000 |
| Prng.Seed | src/services/selection.service.js:13-25 | the first output of `xmur3(key)` is an unsigned 32-bit number |
| Prng.Unit | src/services/selection.service.js:31 | every `mulberry32` draw lies in [0, 1) |
| Prng.DrawIndex | src/services/selection.service.js:91 | the Fisher-Yates index `floor(rand() * (i + 1))`, with the product taken on exact reals, never exceeds `i` and equals the integer `(u * (i + 1)) >> 32` |
| Shuffle.Swap | src/services/selection.service.js:92 | positions `i` and `j` exchange their elements, every other position keeps its own, and the multiset is unchanged |
| Shuffle.DeterministicShuffle | src/services/selection.service.js:86-95 | the shuffle is a permutation of its input: same length, same multiset |
| ShuffleLoop.ShuffleCopy | src/services/selection.service.js:86-95 | the loop on a copy of the array computes exactly the functional shuffle, so its result is a permutation that depends only on the input and the key |
| Window.NextDay | src/services/selection.service.js:74 | `plus({ days: 1 })` gives a valid date after `d`, and the least such date |
| Window.ParseIsoDateOfIsoDate | src/services/selection.service.js:81 | reading back the ISO date of a valid four-digit-year date gives that date |
| Window.IsoDateOfParseIsoDate | src/services/selection.service.js:81 | any text read as an ISO date is that date's own rendering |
| Window.IsoDateInjective | src/services/selection.service.js:75-81 | two valid dates have the same ISO key exactly when they are equal |
| Window.GetWindowInfo | src/services/selection.service.js:65-83 | the window contains `now` (start at or before it, end after it) and starts at midnight or at noon of the day |
| Window.DatePartOfKey | src/services/selection.service.js:75-81 | in both modes the key up to the first `_` is the ISO date of the local day; in daily mode the key is exactly that ISO date, with no `_` |
| Window.HalfDayKeySuffix | src/services/selection.service.js:70-75 | a half-day key is 13 characters and ends in `_00` exactly when the hour is before 12, in `_12` otherwise |
| Window.WindowLength | src/services/selection.service.js:71-80 | a daily window lasts one day and a half-day window half a day, ending on the same day or the next |
| Window.KeyDeterminesWindow | src/services/selection.service.js:65-83 | two instants get the same key exactly when they get the same window |
| Selection.PreferredIds | src/services/selection.service.js:118-127 | an id is preferred exactly when some stored highlight carries it and was never served or was served before the cutoff |
| Selection.PreferredIdsExact | src/services/selection.service.js:118-123 | with unique ids, a highlight's id is preferred exactly when that highlight passes the filter |
| Selection.FallbackIds | src/services/selection.service.js:131-140 | the fallback holds exactly the stored ids that are not excluded |
| Selection.PickIds | src/services/selection.service.js:144-149 | the pick holds min(max, candidates) ids, all of them candidates, without duplicates when the candidates have none |
| Selection.MarkServed | src/services/selection.service.js:160-165 | exactly the picked highlights get `lastServedAt` stamped; order, ids and every other field are unchanged |
| Selection.EnsureDailySet | src/services/selection.service.js:104-179 | an existing set for the window key is returned and nothing is written; otherwise one new set is stored under the key with the configured zone and `limit = PUBLIC_DAILY_MAX_LIMIT`, and the picked highlights are stamped |
| Selection.CandidatesShape | src/services/selection.service.js:127-141 | the candidates are distinct stored ids; there are as many as stored highlights when the preferred ones are short of the maximum, as many as the preferred ones otherwise, so the pick always has min(max, pool size) ids |
| Selection.NewSetShape | src/services/selection.service.js:118-165 | a new set holds min(max, pool size) distinct stored ids; only preferred ones are picked when at least `max` are preferred; exactly the picked highlights are stamped; nothing changes when the pick is empty |
| Selection.EnsureIdempotent | src/services/selection.service.js:108-109 | a second call for the same window returns the same set and writes nothing, whatever its clock readings |
| Selection.EnsurePreservesValid | src/services/selection.service.js:152-157 | creating a set keeps the unique indexes of both collections |
| JsText.Trim | src/services/parser.service.js:20 | `trim` is empty exactly for all-white-space text; otherwise it starts and ends with a non-space |
| JsText.TrimIdempotent | src/services/parser.service.js:20 | trimming twice is trimming once |
| JsText.TrimOfPadded | src/services/parser.service.js:142 | `trim` removes exactly the white space around a word that neither starts nor ends with white space |
| JsText.LowerLowers | src/controllers/highlights.controller.js:8 | `toLowerCase` leaves no ASCII capital and changes nothing but capitals |
| JsText.LowerIdempotent | src/controllers/highlights.controller.js:8 | lower-casing twice is lower-casing once |
| JsText.LowerEqualsIgnoringCase | src/controllers/highlights.controller.js:8 | `s.toLowerCase() === w` for a lower-case word `w` holds exactly when `s` spells `w` in any ASCII case |
| JsText.IndexOf | src/controllers/public.controller.js:76 | the position found is the first occurrence, or the length when there is none |
| JsText.Split | src/controllers/highlights.controller.js:67-68 | the pieces contain no separator and joined with it spell the text again |
| JsText.SplitJoin | src/controllers/highlights.controller.js:67-68 | splitting a join of separator-free words gives the words back |
| JsText.TrimmedNonEmpty | src/services/parser.service.js:112-113 | the kept pieces are exactly the non-empty trims of the input pieces, each non-empty and without surrounding white space |
| JsText.TrimmedNonEmptyConcat | src/services/parser.service.js:112-113 | trimming and filtering commute with concatenation, so the kept pieces keep the order and multiplicity of their pieces |
| JsText.TrimmedNonEmptyOne | src/services/parser.service.js:112-113 | one piece gives its trim, or nothing when the trim is empty |
| JsText.TrimmedNonEmptyKeeps | src/controllers/highlights.controller.js:69-70 | pieces that are already trimmed and non-empty pass through unchanged |
| JsText.ParseInt | src/controllers/highlights.controller.js:12 | text without a digit is NaN |
| JsText.ParseIntOfIntToString | src/controllers/public.controller.js:52-55 | `parseInt` reads back `String(n)` for every integer, whatever white space precedes it and whatever non-digit text follows |
| Ordering.SortByKey | src/controllers/public.controller.js:78-81 | sorting by a numeric key yields a permutation in key order |
| Ordering.StrictlyByUnique | src/controllers/public.controller.js:76-81 | two sequences with the same elements, both strictly ordered by the same key, are equal |
| ClippingsText.NormalizeNewlines | src/services/parser.service.js:107 | replacing CRLF never lengthens the text and leaves text without CR unchanged |
| ClippingsText.NormalizeExpand | src/services/parser.service.js:107 | normalising a text written with CRLF line ends gives back the LF text, even when it held carriage returns of its own |
| ClippingsText.ChunksIgnoreBom | src/services/parser.service.js:106 | a byte-order mark in front of a file does not change its chunks |
| ClippingsText.CrlfSameChunks | src/services/parser.service.js:105-113 | a file saved with CRLF line ends has the chunks of the same file saved with LF |
| ClippingsText.EqualsRun | src/services/parser.service.js:111 | the measured run is all `=` and is followed by a character other than `=` |
| ClippingsText.SepEnd | src/services/parser.service.js:111 | every match reported starts at a line start, ends at a line end, spans at least ten characters and is white space, at least ten `=`, white space |
| ClippingsText.SepEndComplete | src/services/parser.service.js:111 | wherever a separator line starts, a match is found: the split misses no separator |
| ClippingsText.TailEnd | src/services/parser.service.js:111 | the final `\s*$` ends at a line end and covers only white space |
| ClippingsText.SeparatorsFrom | src/services/parser.service.js:110-111 | every text the split drops is a separator |
| ClippingsText.SplitReassembles | src/services/parser.service.js:110-111 | the split loses nothing: pieces and separators interleaved spell the text again |
| ClippingsLines.HasBengali | src/services/parser.service.js:10 | true exactly when some character lies in U+0980..U+09FF |
| ClippingsLines.DetectLang | src/services/parser.service.js:7-11 | the language is "bn" exactly when some character lies in the Bengali block and "en" otherwise, the empty text included |
| ClippingsLines.TitleParensSound | src/services/parser.service.js:24 | whatever the title finder reports is a match of the title pattern |
| ClippingsLines.TitleParensComplete | src/services/parser.service.js:24 | every match of the title pattern is the one the finder reports |
| ClippingsLines.TitleGroupTrim | src/services/parser.service.js:24-26 | the trimmed title does not depend on where the greedy group 1 ends |
| ClippingsLines.ParseTitleLine | src/services/parser.service.js:19-29 | a blank line gives no title and no author; any other line gives a non-empty title; without an author the title is the trimmed line |
| ClippingsLines.ParseTitleLineAuthor | src/services/parser.service.js:24-28 | an author is reported exactly when the pattern matches the trimmed line |
| ClippingsLines.ParseTitleLineMatch | src/services/parser.service.js:24-26 | for any match, title and author are the trimmed groups |
| ClippingsLines.KeywordFrom | src/services/parser.service.js:56 | a reported match of `word\s+([0-9\-–]+)` lies at or after the start, and its group cannot be extended |
| ClippingsLines.KeywordFromComplete | src/services/parser.service.js:56 | no match is missed: the reported match is leftmost and, at the same position, has the longest group |
| ClippingsLines.KeywordFromFinds | src/services/parser.service.js:56-59 | a match is reported exactly when the pattern matches somewhere |
| ClippingsLines.ReplaceFirstDash | src/services/parser.service.js:57 | only the first en dash becomes a hyphen; every other character stays |
| ClippingsLines.KeywordFromLeftmost | src/services/parser.service.js:56-59 | the match found from the start is the one the engine reports: no match starts earlier, and at its position no group is longer |
| ClippingsLines.KeywordNumber | src/services/parser.service.js:56-61 | a number is extracted exactly when the pattern matches; it is a non-empty run of digits and dashes, and it is group 1 of the match found from the start with its first en dash replaced |
| ClippingsLines.KeywordNumberValue | src/services/parser.service.js:56-61 | for the leftmost, longest match, the extracted number is its group 1 with the first en dash replaced by a hyphen |
| ClippingsLines.FindWord | src/services/parser.service.js:65 | `indexOf` finds the first occurrence at or after the start, and none exists when it reports none |
| ClippingsLines.ParseMetaLine | src/services/parser.service.js:38-97 | a blank line gives three nulls; the location is the number after "Location" and is present exactly when that pattern matches; the page is the number after "page" when there is no location, and null otherwise; a date only when the date text is non-empty, and then it is the parser's reading of it |
| ClippingsLines.KindleDateString | src/services/parser.service.js:46-72 | on Kindle's layout, a left part, a bar, then `Added on <date>`, the date text is `<date>` |
| Clippings.ContentStart | src/services/parser.service.js:135-141 | the skip passes only blank lines and stops at the first non-blank line or the end |
| Clippings.ParseChunk | src/services/parser.service.js:119-173 | a chunk fails exactly when its content is blank, with its own index and "Empty content"; otherwise the entry has that non-empty content, title and author from line 0, location, page and date from line 1, source "kindle", the detected language and `hashId` the `sha` of content, title and location joined by bars |
| Clippings.Partition | src/services/parser.service.js:144-173 | every outcome lands in exactly one list: entries are the parsed outcomes and errors the failed ones |
| Clippings.PartitionConcat | src/services/parser.service.js:118-174 | the partition commutes with concatenation, so entries and errors keep the order of their chunks |
| Clippings.PartitionOne | src/services/parser.service.js:144-173 | one outcome gives one entry or one error |
| Clippings.Collect | src/services/parser.service.js:118-174 | the loop collects exactly the partition of the outcomes, in chunk order |
| Clippings.ParseMyClippings | src/services/parser.service.js:103-177 | `entries` and `errors` together number the chunks of the file |
| Clippings.PartitionOutcomes | src/services/parser.service.js:118-174 | every entry has content and source "kindle"; a chunk is reported as an error, under its own index, exactly when its content is blank |
| Clippings.ContentSkipRedundant | src/services/parser.service.js:134-142 | skipping the blank lines before the content changes nothing, since `trim` removes them anyway |
| Clippings.KindleChunkEntry | src/services/parser.service.js:119-173 | a chunk in Kindle's layout becomes the entry built from its title line, metadata line and trimmed content lines, or an "Empty content" error at its position when the content is blank |
| Clippings.KindleChunkContent | src/services/parser.service.js:122-142 | a chunk in Kindle's layout (title, metadata, blank line, content lines) yields the trimmed content lines |
| HighlightsQuery.ParseBool | src/controllers/highlights.controller.js:6-10 | an absent value gives the default; otherwise true exactly for "1", "true" or "yes" in any case |
| HighlightsQuery.ParseIntBound | src/controllers/highlights.controller.js:11-15 | NaN gives the default; otherwise the result is at most `max`, at least `min` when `min <= max`, the value itself when it is in range, `min` for a value below `min` (when `min <= max`) and `max` for a value above `max` |
| HighlightsQuery.PagingOf | src/controllers/highlights.controller.js:53-54 | a missing page is 1 and a missing limit is 20; a given page or limit is read by `parseIntBound` with default 1 in [1, 1000000] and default 20 in [1, 100]; page in [1, 1000000], limit in [1, 100], and `skip = (page - 1) * limit >= 0` |
| HighlightsQuery.PageOf | src/controllers/highlights.controller.js:151-152 | a page is the rows from `skip` on, at most `limit` of them |
| HighlightsQuery.HasNextIffMoreRows | src/controllers/highlights.controller.js:180 | `hasNext` is true exactly when the next page holds a row |
| HighlightsQuery.PagesAdjacent | src/controllers/highlights.controller.js:128-130 | consecutive pages are adjacent: no row is skipped or served twice |
| HighlightsQuery.LangFilter | src/controllers/highlights.controller.js:66-72 | a filter is applied exactly when the parameter is present and some comma-separated piece is not blank; the list is then the pieces' trims with the empty ones dropped, in order, each non-empty, trimmed and free of commas |
| HighlightsQuery.LangFilterTrimsNames | src/controllers/highlights.controller.js:66-72 | `lang=en, bn` filters on `["en", "bn"]` |
| HighlightsQuery.LangFilterDropsEmpty | src/controllers/highlights.controller.js:66-72 | `lang=en,,bn` filters on `["en", "bn"]` |
| HighlightsQuery.KeptIffSomeNonBlank | src/controllers/highlights.controller.js:69-71 | the trimmed, non-empty list is non-empty exactly when some piece is not blank |
| HighlightsQuery.LangFilterOfList | src/controllers/highlights.controller.js:66-72 | a list of clean names written with commas is read back as that list |
| HighlightsQuery.Projection | src/controllers/highlights.controller.js:102-120 | the default fields without `select`; otherwise exactly the non-empty trimmed names it lists |
| HighlightsQuery.HighlightSort | src/controllers/highlights.controller.js:123-126 | the field is whitelisted, with "dateAdded" as fallback; ascending exactly for "asc" in any case; `_id` descending always breaks ties |
| HighlightsQuery.BooksSort | src/controllers/highlights.controller.js:264-273 | "bookTitle" and "lastAdded" are kept and anything else sorts by `count`; ascending exactly for "asc" as written |
| HighlightsQuery.SortOrderCaseDiffers | src/controllers/highlights.controller.js:264-273 | "ASC" sorts highlights ascending but books descending |
| HighlightsQuery.HighlightSortIgnoresCase | src/controllers/highlights.controller.js:125 | the highlight sort does not depend on the case of `sortOrder` |
| PublicDaily.SecondsUntil | src/controllers/public.controller.js:16-19 | the cache lifetime is never negative, and is the whole seconds left before the window end |
| PublicDaily.SecondsUntilShrinks | src/controllers/public.controller.js:16-19 | a later request never gets a longer lifetime for the same window |
| PublicDaily.EffectiveLimit | src/controllers/public.controller.js:52-59 | the limit never exceeds the maximum; an absent, empty or non-numeric parameter uses the default; a numeric one is capped at the maximum |
| PublicDaily.SliceTo | src/controllers/public.controller.js:61 | `slice(0, end)` is a prefix, of length `end` capped at the size, or the size less `-end` when `end` is negative |
| PublicDaily.ServedIdsAsWritten | src/controllers/public.controller.js:61 | the served ids, as written, are a prefix of the set |
| PublicDaily.NegativeLimitServesMost | src/controllers/public.controller.js:61 | `?limit=-2` on a set of five serves three highlights, more than a limit of at most zero allows |
| PublicDaily.ServedIds | src/controllers/public.controller.js:61 | the served ids are a prefix of the set of length min(limit, size), and none when the limit is below one |
| PublicDaily.ServedIdsAgree | src/controllers/public.controller.js:61 | for a limit that is not negative, the corrected prefix is the one the code computes |
| PublicDaily.Fetch | src/controllers/public.controller.js:77 | `$in` returns exactly the stored highlights whose id is asked for |
| PublicDaily.Reorder | src/controllers/public.controller.js:78-81 | the rows are permuted into the order of their position among the served ids |
| PublicDaily.ReorderFollowsSelection | src/controllers/public.controller.js:75-81 | with unique ids, the sorted rows are the served ids still stored, in selection order, each the stored highlight |
| PublicDaily.ItemOf | src/controllers/public.controller.js:83-91 | an item keeps the highlight's id, content and date; title, author, location and page are kept when non-empty and null otherwise |
| PublicDaily.Respond | src/controllers/public.controller.js:61-104 | key and zone as stored, date = key up to the first `_`, `count` = number of items, an empty prefix gives no items, and every item is a stored highlight whose id was served |
| PublicDaily.RespondInSelectionOrder | src/controllers/public.controller.js:75-104 | the items are the served ids still stored, in selection order, never more than the limit or the maximum |
| PublicDaily.DailyHighlights | src/controllers/public.controller.js:50-104 | the endpoint stores what `ensureDailySet` stores and answers for the current window with `count` = number of items |
| PublicDaily.DailyHighlightsShape | src/controllers/public.controller.js:50-104 | on a consistent store the date is the current local day, the store stays consistent and the items follow selection order, at most the maximum |
| Admin.UpsertAll | src/controllers/admin.controller.js:36-45 | inserted plus matched is the number of entries; stored documents are never changed or removed, only appended to |
| Admin.UpsertStoresAll | src/controllers/admin.controller.js:36-43 | afterwards every entry's `hashId` is stored, and each appended document is a fresh copy of an entry |
| Admin.AllStoredInsertsNothing | src/controllers/admin.controller.js:38-45 | entries whose hashes are all stored insert nothing and all count as matched |
| Admin.ReimportInsertsNothing | src/controllers/admin.controller.js:36-49 | importing the same entries again inserts nothing new |
| Admin.UpsertKeepsHashesUnique | src/controllers/admin.controller.js:36-43 | the import never stores a second document with a stored `hashId` |
| Admin.InsertedHashes | src/controllers/admin.controller.js:43-48 | the hashes inserted are exactly the new ones among the entries, each once |
| Admin.UpsertIdsUnique | src/controllers/admin.controller.js:43 | given fresh ids for new documents, `_id` stays unique |
| Admin.UpsertPreservesValid | src/controllers/admin.controller.js:36-43 | the import keeps the store's unique indexes |
| Admin.IsDryRun | src/controllers/admin.controller.js:12-13 | dry run exactly when the parameter is "true" in any case; absent means false |
| Admin.ImportClippings | src/controllers/admin.controller.js:12-52 | no file gives 400; no entries with some error gives 422 with the errors; a dry run writes nothing and reports the count, at most the first three entries and the errors; otherwise the upsert runs, the inserted count is the number of documents appended, and the counts add up |
| Admin.ImportTwice | src/controllers/admin.controller.js:36-49 | importing a file a second time changes nothing and reports every entry as a duplicate |
| Admin.DailyStatus | src/controllers/admin.controller.js:59-75 | the current key, whether it has a set, its size (0 without one) and the highlight total |
| Admin.StatusAfterEnsure | src/controllers/admin.controller.js:61-69 | after `ensureDailySet` the status reports the set it returned |
| Admin.DailyReset | src/controllers/admin.controller.js:78-91 | the key's set is the one built on the store without it; exactly its highlights are stamped; other sets are untouched and no other key appears |
| Admin.ResetRebuilds | src/controllers/admin.controller.js:78-91 | a reset stores a set built from the current highlights, whatever was there before, and keeps the store consistent |
| Auth.BearerToken | src/middlewares/auth.js:5-6 | a token exists exactly when the header starts with "Bearer ", and the header is "Bearer " followed by it |
| Auth.BearerTokenOf | src/middlewares/auth.js:6 | "Bearer " followed by a token gives back that token |
| Auth.Authenticate | src/middlewares/auth.js:4-15 | a missing or empty token is 401 "Missing token"; the request passes exactly with a non-empty token that verifies, with the payload's subject and roles (empty by default); a non-empty token that fails verification is 401 "Invalid or expired token" |
| Auth.SchemeIsCaseSensitive | src/middlewares/auth.js:6-7 | "bearer" in lower case, or the bare scheme, is a missing token |
| Auth.ValidTokenPasses | src/middlewares/auth.js:8-11 | a verified token in a well-formed header passes with the payload's user |
| Auth.Authorize | src/middlewares/auth.js:17-24 | the request passes exactly when some role of the user is allowed; otherwise it is 403 "Forbidden" |
| Auth.AuthorizeMonotone | src/middlewares/auth.js:20 | allowing more roles never turns a permitted request away |
| Auth.NoRolesForbidden | src/middlewares/auth.js:10 | a token without a roles claim is forbidden everywhere |

## Left out

- Time zones and calendars: Luxon's zone conversion, `startOf("day")` and the invalid-zone fallback are not modelled. `getWindowInfo` takes the local date-time already converted, and the window end in epoch milliseconds is a parameter.
- The "Added on" text is found, but reading it as a date (two Luxon formats, then `new Date`) is the parameter `dateOf`. `dateAdded` stays epoch milliseconds rather than an ISO string.
- `parseDate` and the date, text-search, regex, `hasLocation` and `hasPage` filters of the listing, and the `listBooks` aggregation: these are MongoDB query construction. The listing is represented by a page of an already filtered and sorted result.
- `getHighlightById` and the other controllers (auth, tokens, users) are not part of this model.
- SHA-256, JWT verification and ObjectId generation are the parameters `sha`, `verify` and `mint`.
- The test-mode stub of `dailyHighlights` (`public.controller.js` lines 23-49) returns fixed fake data and is not modelled.
- UTF-8 decoding of the upload is not modelled. The file is given as text.
- Query parameters given as arrays are not modelled. A parameter is absent or one string.
- `bulkWrite` with `ordered: false` is modelled as running its operations in order. Concurrent requests, and the duplicate-key error a racing `DailySet.create` would raise, are not modelled.
- `createdAt` and `updatedAt` timestamps are not modelled.
- `estimatedDocumentCount` is taken as the exact count.
- Config: `PUBLIC_DAILY_MAX_LIMIT` is a natural number; a negative or non-numeric environment value is not modelled. A non-numeric default limit (NaN) is not modelled either.
- `ensureDailySet` and `secondsUntil` read the clock separately; the model takes both readings as parameters.
- `toLowerCase` and the `i` flag are modelled on ASCII only, which decides every comparison the core makes.
- ClippingsLines.DateString: the date text of `ParseMetaLine` is cut at the position of "added on" in the ASCII-lowered text. JavaScript lowers U+0130 (capital I with dot) to two code units, so each such character before "Added on" moves the JavaScript cut one place to the right. For example, on the right part "İİ Added on Sunday", JavaScript takes "unday" and the model takes "Sunday". The model does not reproduce this drift.
- Window.GetWindowInfo: only years 0 to 9999 are modelled (`Window.InModelRange`), and every operation that reads the clock passes this requirement on. Luxon renders other years as `+YYYYYY` or with a sign, and those keys are not modelled.
- JsText.ParseInt: its own contract states only that text without a digit is NaN. What it reads from a rendered integer is stated by `JsText.ParseIntOfIntToString`, and the general grammar of `parseInt` is not restated as a contract.
- Shuffle.DeterministicShuffle: the test's check that keys "2025-09-17" and "2025-09-18" give different orders of 1..10 is not proved. It is a fact about two concrete hash values, not about the algorithm.
- Prng.DrawIndex: the product `rand() * (i + 1)` is taken on exact reals. JavaScript rounds it to a double, and the two agree only while `i + 1 <= 2^21`. For a larger pool, a product just below an integer can round up to it, which the model does not reproduce.
- Prng.Mulberry32: the state `a += 0x6d2b79f5` wraps at 2^32 here, while JavaScript keeps it as a double. The results agree while the state stays below 2^53, which is about 4.9 million draws from one generator.
- PublicDaily.Respond: it serves the corrected prefix `PublicDaily.ServedIds`, not the `slice(0, limit)` of line 61 (see Findings). The two agree whenever the effective limit is not negative (`PublicDaily.ServedIdsAgree`).
- PublicDaily.RespondInSelectionOrder: "never more than the limit" holds for the corrected prefix only. With a negative limit, the code as written serves more (`PublicDaily.NegativeLimitServesMost`).
- PublicDaily.DailyHighlights: the endpoint answers with the corrected prefix. It matches the code as written whenever the effective limit is not negative.
- PublicDaily.DailyHighlightsShape: the shape is that of the corrected endpoint. For a negative limit, the code as written lists other items and can list more of them.
- ClippingsLines.ParseMetaLine: the date part is stated only as "the reader's result on the date text", because the reader itself is a parameter.
- Clippings.ParseMyClippings: the test's concrete sample (three entries, 64-character hashes) is not proved. Its hash length depends on SHA-256, which is a parameter.

## Findings

| source | as written | input that shows it | evidently intended | confidence | as-written member | corrected member |
|---|---|---|---|---|---|---|
| src/controllers/public.controller.js:61 | `slice(0, limit)` with a limit that is only capped above; `parseInt` accepts a sign | `?limit=-2` on a set of five ids serves the first three | a limit below one serves nothing: the prefix is `min(max(limit, 0), size)` long | not executed | PublicDaily.ServedIdsAsWritten | PublicDaily.ServedIds |

The endpoint is meant to serve the first `min(L, size)` ids of the set for a limit `L`. The code instead counts a negative limit back from the end of the set. The model follows the corrected behaviour (`PublicDaily.ServedIds`). `PublicDaily.ServedIdsAsWritten` and `PublicDaily.NegativeLimitServesMost` record the code as written. `PublicDaily.ServedIdsAgree` shows the two agree for every limit that is not negative.

=== FILE: admin.dfy ===
/** The admin endpoints (`src/controllers/admin.controller.js`): importing a
    clippings file as insert-if-absent by `hashId`, the status of the
    current window, and the forced rebuild of the current window's set.
    The ids MongoDB gives new documents come from the parameter `mint`:
    the document stored at position `n` of the collection gets `mint(n)`. */
module Admin {
  import opened Wrappers
  import opened JsText
  import opened Collections
  import opened Models
  import opened Config
  import opened Window
  import opened Selection
  import opened Clippings

  // ---------------------------------------------------------------------------
  // Insert-if-absent by hashId

  datatype UpsertResult = UpsertResult(highlights: seq<Highlight>, inserted: nat, matched: nat)

  /** The stored document for a parsed entry: its fields, no `lastServedAt`. */
  function NewHighlight(e: Entry, mint: nat -> string, n: nat): (h: Highlight)
    ensures h.entry == e && h.lastServedAt.None? && h.id == mint(n)
  {
    Highlight(mint(n), e, None)
  }

  /** The bulk write of `updateOne({hashId}, {$setOnInsert: e}, upsert)`
      operations, one per entry in order: an entry whose `hashId` is stored
      matches and changes nothing, any other entry is appended. */
  function UpsertAll(hs: seq<Highlight>, entries: seq<Entry>, mint: nat -> string): (r: UpsertResult)
    ensures r.inserted + r.matched == |entries|
    ensures |r.highlights| == |hs| + r.inserted && r.highlights[..|hs|] == hs
    decreases |entries|
  {
    if |entries| == 0 then UpsertResult(hs, 0, 0)
    else
      var e := entries[0];
      if e.hashId in HashIds(hs) then
        var rest := UpsertAll(hs, entries[1..], mint);
        UpsertResult(rest.highlights, rest.inserted, rest.matched + 1)
      else
        var hs1 := hs + [NewHighlight(e, mint, |hs|)];
        var rest := UpsertAll(hs1, entries[1..], mint);
        assert rest.highlights[..|hs|] == hs1[..|hs|];
        UpsertResult(rest.highlights, rest.inserted + 1, rest.matched)
  }

  /** After the import every entry's `hashId` is stored, and each appended
      document is a fresh copy of one of the entries. */
  lemma UpsertStoresAll(hs: seq<Highlight>, entries: seq<Entry>, mint: nat -> string)
    ensures var r := UpsertAll(hs, entries, mint);
            forall k | 0 <= k < |entries| :: entries[k].hashId in HashIds(r.highlights)
    ensures var r := UpsertAll(hs, entries, mint);
            forall i | |hs| <= i < |r.highlights| ::
              r.highlights[i] == NewHighlight(r.highlights[i].entry, mint, i) && r.highlights[i].entry in entries
  {
    UpsertStoresHashes(hs, entries, mint);
    UpsertAppendsCopies(hs, entries, mint);
  }

  /** The database after the first operation of the bulk write. */
  function AfterFirst(hs: seq<Highlight>, e: Entry, mint: nat -> string): seq<Highlight> {
    if e.hashId in HashIds(hs) then hs else hs + [NewHighlight(e, mint, |hs|)]
  }

  lemma UpsertStep(hs: seq<Highlight>, entries: seq<Entry>, mint: nat -> string)
    requires |entries| > 0
    ensures UpsertAll(hs, entries, mint).highlights == UpsertAll(AfterFirst(hs, entries[0], mint), entries[1..], mint).highlights
    ensures entries[0].hashId in HashIds(AfterFirst(hs, entries[0], mint))
  {
    var e := entries[0];
    if e.hashId !in HashIds(hs) {
      assert HashIds(AfterFirst(hs, e, mint))[|hs|] == e.hashId;
    }
  }

  lemma {:induction false} UpsertStoresHashes(hs: seq<Highlight>, entries: seq<Entry>, mint: nat -> string)
    ensures var r := UpsertAll(hs, entries, mint);
            forall k | 0 <= k < |entries| :: entries[k].hashId in HashIds(r.highlights)
    decreases |entries|
  {
    if |entries| > 0 {
      var hs1 := AfterFirst(hs, entries[0], mint);
      var r := UpsertAll(hs, entries, mint);
      UpsertStep(hs, entries, mint);
      UpsertStoresHashes(hs1, entries[1..], mint);
      HashIdsOfPrefix(hs1, r.highlights);
      forall k | 1 <= k < |entries|
        ensures entries[k].hashId in HashIds(r.highlights)
      {
        assert entries[k] == entries[1..][k - 1];
      }
    }
  }

  lemma {:induction false} UpsertAppendsCopies(hs: seq<Highlight>, entries: seq<Entry>, mint: nat -> string)
    ensures var r := UpsertAll(hs, entries, mint);
            forall i | |hs| <= i < |r.highlights| ::
              r.highlights[i] == NewHighlight(r.highlights[i].entry, mint, i) && r.highlights[i].entry in entries
    decreases |entries|
  {
    if |entries| > 0 {
      var hs1 := AfterFirst(hs, entries[0], mint);
      var r := UpsertAll(hs, entries, mint);
      UpsertStep(hs, entries, mint);
      UpsertAppendsCopies(hs1, entries[1..], mint);
      forall i | |hs| <= i < |r.highlights|
        ensures r.highlights[i] == NewHighlight(r.highlights[i].entry, mint, i) && r.highlights[i].entry in entries
      {
        if i < |hs1| {
          assert r.highlights[i] == hs1[i];
        } else {
          assert r.highlights[i].entry in entries[1..];
        }
      }
    }
  }

  /** Appending documents keeps every stored `hashId`. */
  lemma HashIdsOfPrefix(a: seq<Highlight>, b: seq<Highlight>)
    requires |a| <= |b| && b[..|a|] == a
    ensures forall x | x in HashIds(a) :: x in HashIds(b)
  {
    forall x | x in HashIds(a)
      ensures x in HashIds(b)
    {
      var k :| 0 <= k < |a| && HashIds(a)[k] == x;
      assert b[k] == a[k];
      assert HashIds(b)[k] == x;
    }
  }

  /** Importing entries that are all stored already inserts nothing and
      counts every entry as a duplicate. */
  lemma {:induction false} AllStoredInsertsNothing(hs: seq<Highlight>, entries: seq<Entry>, mint: nat -> string)
    requires forall k | 0 <= k < |entries| :: entries[k].hashId in HashIds(hs)
    ensures UpsertAll(hs, entries, mint) == UpsertResult(hs, 0, |entries|)
    decreases |entries|
  {
    if |entries| > 0 {
      AllStoredInsertsNothing(hs, entries[1..], mint);
      assert forall k | 0 <= k < |entries[1..]| :: entries[1..][k] == entries[k + 1];
    }
  }

  /** Re-importing the same entries inserts nothing new. */
  lemma ReimportInsertsNothing(hs: seq<Highlight>, entries: seq<Entry>, mint: nat -> string, mint2: nat -> string)
    ensures var first := UpsertAll(hs, entries, mint);
            UpsertAll(first.highlights, entries, mint2) == UpsertResult(first.highlights, 0, |entries|)
  {
    UpsertStoresAll(hs, entries, mint);
    AllStoredInsertsNothing(UpsertAll(hs, entries, mint).highlights, entries, mint2);
  }

  /** The import never stores a second document with a stored `hashId`. */
  lemma {:induction false} UpsertKeepsHashesUnique(hs: seq<Highlight>, entries: seq<Entry>, mint: nat -> string)
    requires Distinct(HashIds(hs))
    ensures Distinct(HashIds(UpsertAll(hs, entries, mint).highlights))
    decreases |entries|
  {
    if |entries| > 0 {
      var e := entries[0];
      var found := e.hashId in HashIds(hs);
      var hs1 := if found then hs else hs + [NewHighlight(e, mint, |hs|)];
      if !found {
        HashIdsAppend(hs, [NewHighlight(e, mint, |hs|)]);
        DistinctConcat(HashIds(hs), [e.hashId]);
      }
      UpsertKeepsHashesUnique(hs1, entries[1..], mint);
      assert UpsertAll(hs, entries, mint).highlights == UpsertAll(hs1, entries[1..], mint).highlights;
    }
  }

  /** The `hashId`s inserted are exactly the new ones among the entries,
      each inserted once. */
  lemma InsertedHashes(hs: seq<Highlight>, entries: seq<Entry>, mint: nat -> string)
    requires Distinct(HashIds(hs))
    ensures var r := UpsertAll(hs, entries, mint);
            var added := HashIds(r.highlights[|hs|..]);
            && Distinct(added)
            && forall x :: x in added <==>
                 x !in HashIds(hs) && exists k | 0 <= k < |entries| :: entries[k].hashId == x
  {
    var r := UpsertAll(hs, entries, mint);
    UpsertKeepsHashesUnique(hs, entries, mint);
    UpsertStoresAll(hs, entries, mint);
    SuffixDistinct(HashIds(r.highlights), |hs|);
    assert HashIds(r.highlights)[|hs|..] == HashIds(r.highlights[|hs|..]);
    forall x
      ensures x in HashIds(r.highlights[|hs|..]) <==>
                x !in HashIds(hs) && exists k | 0 <= k < |entries| :: entries[k].hashId == x
    {
      if x in HashIds(r.highlights[|hs|..]) {
        AddedIsNew(hs, entries, mint, x);
      }
      if x !in HashIds(hs) && exists k | 0 <= k < |entries| :: entries[k].hashId == x {
        var k :| 0 <= k < |entries| && entries[k].hashId == x;
        NewIsAdded(hs, entries, mint, k);
      }
    }
  }

  lemma SuffixDistinct<T>(s: seq<T>, n: nat)
    requires Distinct(s) && n <= |s|
    ensures Distinct(s[n..])
  {
    assert forall p | 0 <= p < |s| - n :: s[n..][p] == s[n + p];
  }

  lemma AddedIsNew(hs: seq<Highlight>, entries: seq<Entry>, mint: nat -> string, x: string)
    requires Distinct(HashIds(UpsertAll(hs, entries, mint).highlights))
    requires var r := UpsertAll(hs, entries, mint);
             forall i | |hs| <= i < |r.highlights| :: r.highlights[i].entry in entries
    requires x in HashIds(UpsertAll(hs, entries, mint).highlights[|hs|..])
    ensures x !in HashIds(hs) && exists k | 0 <= k < |entries| :: entries[k].hashId == x
  {
    var r := UpsertAll(hs, entries, mint);
    var all := HashIds(r.highlights);
    var added := HashIds(r.highlights[|hs|..]);
    var i :| 0 <= i < |added| && added[i] == x;
    assert all[|hs| + i] == x;
    var e := r.highlights[|hs| + i].entry;
    assert e in entries;
    var k :| 0 <= k < |entries| && entries[k] == e;
    assert entries[k].hashId == x;
    forall j | 0 <= j < |hs|
      ensures HashIds(hs)[j] != x
    {
      assert all[j] == HashIds(hs)[j];
    }
  }

  lemma NewIsAdded(hs: seq<Highlight>, entries: seq<Entry>, mint: nat -> string, k: nat)
    requires k < |entries|
    requires entries[k].hashId in HashIds(UpsertAll(hs, entries, mint).highlights)
    requires entries[k].hashId !in HashIds(hs)
    ensures entries[k].hashId in HashIds(UpsertAll(hs, entries, mint).highlights[|hs|..])
  {
    var r := UpsertAll(hs, entries, mint);
    var all := HashIds(r.highlights);
    var x := entries[k].hashId;
    var i :| 0 <= i < |all| && all[i] == x;
    forall j | 0 <= j < |hs|
      ensures all[j] != x
    {
      assert r.highlights[j] == hs[j];
      assert all[j] == HashIds(hs)[j];
    }
    assert HashIds(r.highlights[|hs|..])[i - |hs|] == x;
  }

  lemma HashIdsAppend(a: seq<Highlight>, b: seq<Highlight>)
    ensures HashIds(a + b) == HashIds(a) + HashIds(b)
  {
    assert forall i | 0 <= i < |a + b| :: HashIds(a + b)[i] == (HashIds(a) + HashIds(b))[i];
  }

  /** New documents get fresh, distinct ids. */
  lemma UpsertIdsUnique(hs: seq<Highlight>, entries: seq<Entry>, mint: nat -> string)
    requires Distinct(Ids(hs))
    requires forall n: nat | |hs| <= n :: mint(n) !in Ids(hs)
    requires forall m: nat, n: nat | |hs| <= m < n :: mint(m) != mint(n)
    ensures Distinct(Ids(UpsertAll(hs, entries, mint).highlights))
  {
    var r := UpsertAll(hs, entries, mint);
    var ids := Ids(r.highlights);
    UpsertStoresAll(hs, entries, mint);
    forall p, q | 0 <= p < q < |ids|
      ensures ids[p] != ids[q]
    {
      if q >= |hs| {
        assert ids[q] == mint(q);
        if p < |hs| {
          assert ids[p] == Ids(hs)[p];
        } else {
          assert ids[p] == mint(p);
        }
      } else {
        assert r.highlights[p] == hs[p] && r.highlights[q] == hs[q];
        assert ids[p] == Ids(hs)[p] && ids[q] == Ids(hs)[q];
      }
    }
  }

  /** The import keeps the unique indexes, given fresh document ids. */
  lemma UpsertPreservesValid(db: Db, entries: seq<Entry>, mint: nat -> string)
    requires ValidDb(db)
    requires forall n: nat | |db.highlights| <= n :: mint(n) !in Ids(db.highlights)
    requires forall m: nat, n: nat | |db.highlights| <= m < n :: mint(m) != mint(n)
    ensures ValidDb(Db(UpsertAll(db.highlights, entries, mint).highlights, db.sets))
  {
    UpsertKeepsHashesUnique(db.highlights, entries, mint);
    UpsertIdsUnique(db.highlights, entries, mint);
  }

  // ---------------------------------------------------------------------------
  // importClippings

  datatype ImportReply =
    | NoFile
    | AllFailed(errors: seq<ParseError>)
    | DryRun(parsedCount: nat, sample: seq<Entry>, errors: seq<ParseError>)
    | Imported(parsedCount: nat, insertedCount: nat, duplicateCount: nat, errorCount: nat, errors: seq<ParseError>)

  /** The HTTP status of a reply. */
  function Status(r: ImportReply): int {
    match r
    case NoFile => 400
    case AllFailed(_) => 422
    case _ => 200
  }

  /** `String(req.query.dryRun || "false").toLowerCase() === "true"`. */
  function IsDryRun(param: Option<string>): (dry: bool)
    ensures dry <==> param.Some? && EqualsIgnoringCase(param.value, "true")
  {
    if param.None? || param.value == [] then
      assert Lower("false")[0] == 'f';
      Lower("false") == "true"
    else
      Lower(param.value) == "true"
  }

  /** `importClippings`: the file is the uploaded text (`None` when there is
      no upload); the result is the database afterwards and the reply. */
  function ImportClippings(db: Db, file: Option<string>, dryRunParam: Option<string>,
                           dateOf: string -> Option<int>, sha: string -> string, mint: nat -> string): (out: (Db, ImportReply))
    ensures file.None? ==> out == (db, NoFile)
    ensures Status(out.1) == 400 <==> file.None?
    ensures Status(out.1) == 422 <==> out.1.AllFailed?
    ensures file.Some? ==>
              var parsed := ParseClippings(file.value, dateOf, sha);
              && (out.1.AllFailed? <==> parsed.entries == [] && parsed.errors != [])
              && (out.1.AllFailed? ==> out.1.errors == parsed.errors)
              && (out.1.DryRun? <==> !out.1.AllFailed? && IsDryRun(dryRunParam))
              && (out.1.DryRun? ==> out.1.parsedCount == |parsed.entries|
                                    && out.1.sample == parsed.entries[..Min(3, |parsed.entries|)]
                                    && out.1.errors == parsed.errors)
              && (out.1.Imported? ==> out.1.parsedCount == out.1.insertedCount + out.1.duplicateCount
                                      && out.1.insertedCount == |out.0.highlights| - |db.highlights|
                                      && out.1.errors == parsed.errors
                                      && out.1.parsedCount == |parsed.entries|
                                      && out.1.errorCount == |parsed.errors|
                                      && out.0.highlights == UpsertAll(db.highlights, parsed.entries, mint).highlights)
    ensures !out.1.Imported? ==> out.0 == db
    ensures out.0.sets == db.sets
    ensures out.0.highlights[..|db.highlights|] == db.highlights
  {
    if file.None? then (db, NoFile)
    else
      var parsed := ParseClippings(file.value, dateOf, sha);
      if parsed.entries == [] && parsed.errors != [] then (db, AllFailed(parsed.errors))
      else if IsDryRun(dryRunParam) then
        (db, DryRun(|parsed.entries|, parsed.entries[..Min(3, |parsed.entries|)], parsed.errors))
      else
        var r := UpsertAll(db.highlights, parsed.entries, mint);
        (Db(r.highlights, db.sets),
         Imported(|parsed.entries|, r.inserted, r.matched, |parsed.errors|, parsed.errors))
  }

  /** Importing the same file twice: the second import inserts nothing and
      reports every entry as a duplicate. */
  lemma ImportTwice(db: Db, text: string, dateOf: string -> Option<int>, sha: string -> string,
                    mint: nat -> string, mint2: nat -> string)
    ensures var (db1, r1) := ImportClippings(db, Some(text), None, dateOf, sha, mint);
            var (db2, r2) := ImportClippings(db1, Some(text), None, dateOf, sha, mint2);
            && db2 == db1
            && (r2.Imported? ==> r2.insertedCount == 0 && r2.duplicateCount == r2.parsedCount)
  {
    var parsed := ParseClippings(text, dateOf, sha);
    if !(parsed.entries == [] && parsed.errors != []) {
      ReimportInsertsNothing(db.highlights, parsed.entries, mint, mint2);
    }
  }

  // ---------------------------------------------------------------------------
  // dailyStatus and dailyReset

  datatype StatusReply = StatusReply(
    key: string,
    timezone: string,
    window: WindowInfo,
    hasDailySet: bool,
    dailySetSize: nat,
    totalHighlights: nat)

  /** `dailyStatus`: whether the current window has a set, and its size. */
  function DailyStatus(db: Db, s: Settings, now: LocalDateTime): (r: StatusReply)
    requires InModelRange(now)
    ensures r.key == GetWindowInfo(s.mode, now).key && r.window == GetWindowInfo(s.mode, now)
    ensures r.hasDailySet <==> r.key in db.sets
    ensures !r.hasDailySet ==> r.dailySetSize == 0
    ensures r.hasDailySet ==> r.dailySetSize == |db.sets[r.key].highlightIds|
    ensures r.totalHighlights == |db.highlights|
  {
    var w := GetWindowInfo(s.mode, now);
    var size := if w.key in db.sets then |db.sets[w.key].highlightIds| else 0;
    StatusReply(w.key, s.tz, w, w.key in db.sets, size, |db.highlights|)
  }

  /** After `ensureDailySet` the status reports the set that was returned. */
  lemma StatusAfterEnsure(db: Db, s: Settings, now: LocalDateTime, nowMs: int, stamp: int)
    requires InModelRange(now)
    requires ValidDb(db)
    ensures var e := EnsureDailySet(db, s, now, nowMs, stamp);
            var st := DailyStatus(e.db, s, now);
            st.hasDailySet && st.dailySetSize == |e.doc.highlightIds|
  {
  }

  datatype ResetReply = ResetReply(message: string, key: string, size: nat)

  /** `dailyReset`: delete the current window's set, then build it again. */
  function DailyReset(db: Db, s: Settings, now: LocalDateTime, nowMs: int, stamp: int): (out: (Db, ResetReply))
    requires InModelRange(now)
    ensures var key := GetWindowInfo(s.mode, now).key;
            && key in out.0.sets
            && out.1.key == key
            && out.1.size == |out.0.sets[key].highlightIds|
            && out.0.sets[key] == EnsureDailySet(Db(db.highlights, db.sets - {key}), s, now, nowMs, stamp).doc
            && out.0.highlights == MarkServed(db.highlights, out.0.sets[key].highlightIds, stamp)
            && (forall k | k in db.sets && k != key :: k in out.0.sets && out.0.sets[k] == db.sets[k])
            && (forall k | k in out.0.sets :: k in db.sets || k == key)
  {
    var key := GetWindowInfo(s.mode, now).key;
    var cleared := Db(db.highlights, db.sets - {key});
    var e := EnsureDailySet(cleared, s, now, nowMs, stamp);
    (e.db, ResetReply("Daily set regenerated", e.doc.key, |e.doc.highlightIds|))
  }

  /** A reset on a consistent database stores a set built from the
      highlights as they are, whatever set the window had before, and the
      database stays consistent. */
  lemma ResetRebuilds(db: Db, s: Settings, now: LocalDateTime, nowMs: int, stamp: int)
    requires InModelRange(now)
    requires ValidDb(db)
    ensures var key := GetWindowInfo(s.mode, now).key;
            var (db2, r) := DailyReset(db, s, now, nowMs, stamp);
            && db2.sets[key] == BuildSet(db.highlights, s, key, nowMs)
            && ValidDb(db2)
            && DailyStatus(db2, s, now).dailySetSize == r.size
  {
    var key := GetWindowInfo(s.mode, now).key;
    var cleared := Db(db.highlights, db.sets - {key});
    assert ValidDb(cleared) by {
      assert forall k | k in cleared.sets :: cleared.sets[k] == db.sets[k];
    }
    EnsurePreservesValid(cleared, s, now, nowMs, stamp);
  }
}

=== FILE: auth.dfy ===
/** The request guards of `src/middlewares/auth.js`: `authenticate` takes
    the bearer token from the `Authorization` header and lets a request
    through when the token verifies; `authorize` lets it through when the
    user holds one of the allowed roles. JWT verification is the parameter
    `verify`, which yields the token's payload or fails. */
module Auth {
  import opened Wrappers
  import opened JsText

  /** The verified payload: the subject and the `roles` claim, `None` when
      the token carries none. */
  datatype Payload = Payload(sub: string, roles: Option<seq<string>>)

  /** `req.user`. */
  datatype User = User(id: string, roles: seq<string>)

  /** Either the next handler runs, with the user for `authenticate`, or the
      request ends with a status and an error message. */
  datatype Outcome = Next(user: Option<User>) | Reject(status: int, error: string)

  const BearerPrefix: string := "Bearer "
  const MissingToken: string := "Missing token"
  const InvalidToken: string := "Invalid or expired token"
  const Forbidden: string := "Forbidden"

  /** `auth.startsWith("Bearer ") ? auth.slice(7) : null`, where an absent
      header reads as "". */
  function BearerToken(header: Option<string>): (token: Option<string>)
    ensures token.Some? <==> header.Some? && StartsWith(header.value, BearerPrefix)
    ensures token.Some? ==> header.value == BearerPrefix + token.value
  {
    var auth := header.GetOr("");
    if StartsWith(auth, BearerPrefix) then
      assert auth == auth[..7] + auth[7..];
      Some(auth[7..])
    else None
  }

  /** A header written as "Bearer " and a token gives back that token. */
  lemma BearerTokenOf(token: string)
    ensures BearerToken(Some(BearerPrefix + token)) == Some(token)
  {
    assert (BearerPrefix + token)[..7] == BearerPrefix;
    assert (BearerPrefix + token)[7..] == token;
  }

  /** `authenticate`. */
  function Authenticate(header: Option<string>, verify: string -> Option<Payload>): (r: Outcome)
    ensures r.Reject? ==> r.status == 401
    ensures BearerToken(header).None? || BearerToken(header) == Some("") ==> r == Reject(401, MissingToken)
    ensures r.Next? <==> exists t | BearerToken(header) == Some(t) :: t != "" && verify(t).Some?
    ensures r.Next? ==>
              var p := verify(BearerToken(header).value).value;
              r.user == Some(User(p.sub, p.roles.GetOr([])))
    ensures BearerToken(header).Some? && BearerToken(header).value != "" && verify(BearerToken(header).value).None? ==>
              r == Reject(401, InvalidToken)
    ensures r.Reject? && r.error == InvalidToken ==>
              BearerToken(header).Some? && BearerToken(header).value != "" && verify(BearerToken(header).value).None?
  {
    match BearerToken(header)
    case None => Reject(401, MissingToken)
    case Some(token) =>
      if token == "" then Reject(401, MissingToken)
      else
        match verify(token)
        case None => Reject(401, InvalidToken)
        case Some(p) => Next(Some(User(p.sub, p.roles.GetOr([]))))
  }

  /** The scheme name is matched exactly: "bearer" in lower case, or the
      token without its scheme, is a missing token. */
  lemma SchemeIsCaseSensitive(token: string, verify: string -> Option<Payload>)
    ensures Authenticate(Some("bearer " + token), verify) == Reject(401, MissingToken)
    ensures Authenticate(Some("Bearer"), verify) == Reject(401, MissingToken)
  {
    assert ("bearer " + token)[..7] != BearerPrefix by {
      assert ("bearer " + token)[0] == 'b';
    }
  }

  /** A valid token in a well-formed header lets the request through with
      the payload's subject and roles. */
  lemma ValidTokenPasses(token: string, verify: string -> Option<Payload>)
    requires token != "" && verify(token).Some?
    ensures Authenticate(Some(BearerPrefix + token), verify)
            == Next(Some(User(verify(token).value.sub, verify(token).value.roles.GetOr([]))))
  {
    BearerTokenOf(token);
  }

  /** `authorize(...allowed)`: some role of the user is allowed; a missing
      user has no roles. */
  function Authorize(user: Option<User>, allowed: seq<string>): (r: Outcome)
    ensures r.Next? <==> user.Some? && exists k | 0 <= k < |user.value.roles| :: user.value.roles[k] in allowed
    ensures r.Reject? ==> r == Reject(403, Forbidden)
    ensures r.Next? ==> r.user == user
  {
    var roles := if user.Some? then user.value.roles else [];
    if exists k | 0 <= k < |roles| :: roles[k] in allowed then Next(user)
    else Reject(403, Forbidden)
  }

  /** Allowing more roles never turns a permitted request away. */
  lemma AuthorizeMonotone(user: Option<User>, allowed: seq<string>, more: seq<string>)
    requires forall x | x in allowed :: x in more
    ensures Authorize(user, allowed).Next? ==> Authorize(user, more).Next?
  {
  }

  /** An authenticated user whose token carries no roles claim is
      forbidden everywhere. */
  lemma NoRolesForbidden(header: Option<string>, verify: string -> Option<Payload>, allowed: seq<string>)
    requires var r := Authenticate(header, verify);
             r.Next? && verify(BearerToken(header).value).value.roles.None?
    ensures Authorize(Authenticate(header, verify).user, allowed) == Reject(403, Forbidden)
  {
  }
}

=== FILE: clippings.dfy ===
/** `parseMyClippings` (`src/services/parser.service.js`): each chunk of a
    clippings file becomes an entry, or an "Empty content" error carrying
    the chunk's position. SHA-256 and the calendar parsing of dates are
    parameters. */
module Clippings {
  import opened Wrappers
  import opened JsText
  import opened Models
  import opened ClippingsText
  import opened ClippingsLines

  datatype ParseError = ParseError(index: nat, reason: string, titleLine: string, metaLine: string)

  datatype ParseResult = ParseResult(entries: seq<Entry>, errors: seq<ParseError>)

  datatype ChunkOutcome = Parsed(entry: Entry) | Failed(error: ParseError)

  const EmptyContent: string := "Empty content"
  const Kindle: string := "kindle"

  /** `lines[i] || ""`. */
  function LineAt(lines: seq<string>, i: nat): string {
    if i < |lines| then lines[i] else ""
  }

  /** `lines.slice(j)`. */
  function SliceFrom(lines: seq<string>, j: nat): seq<string> {
    if j < |lines| then lines[j..] else []
  }

  /** The loop that skips blank lines: the first index at or after `i`
      holding a non-blank line, `i` itself when `i` is past the end. */
  function ContentStart(lines: seq<string>, i: nat): (j: nat)
    ensures i <= j
    ensures j == i || j <= |lines|
    ensures forall k | i <= k < j :: IsBlank(lines[k])
    ensures j < |lines| ==> !IsBlank(lines[j])
    decreases |lines| - i
  {
    if i < |lines| && IsBlank(lines[i]) then ContentStart(lines, i + 1) else i
  }

  /** `lines.slice(firstContentIdx).join("\n").trim()`. */
  function ContentOf(lines: seq<string>): string {
    Trim(Join(SliceFrom(lines, ContentStart(lines, 2)), "\n"))
  }

  /** The text hashed for de-duplication: content, title and location
      separated by `|`, a missing or empty title or location written as "". */
  function HashSource(content: string, bookTitle: Option<string>, location: Option<string>): string {
    content + "|" + bookTitle.GetOr("") + "|" + location.GetOr("")
  }

  /** A chunk whose content is blank once the title and metadata lines are
      set aside. */
  predicate EmptyChunk(block: string) {
    ContentOf(Split(block, '\n')) == []
  }

  /** One iteration of the loop over chunks. */
  function ParseChunk(block: string, index: nat, dateOf: string -> Option<int>, sha: string -> string): (r: ChunkOutcome)
    ensures r.Failed? <==> EmptyChunk(block)
    ensures r.Failed? ==> r.error.index == index && r.error.reason == EmptyContent
    ensures r.Parsed? ==>
              && r.entry.content == ContentOf(Split(block, '\n'))
              && r.entry.content != []
              && r.entry.source == Kindle
              && (r.entry.lang == "bn" <==> exists i | 0 <= i < |r.entry.content| :: IsBengali(r.entry.content[i]))
              && r.entry.hashId == sha(HashSource(r.entry.content, r.entry.bookTitle, r.entry.location))
    ensures r.Parsed? ==>
              var lines := Split(block, '\n');
              var ta := ParseTitleLine(LineAt(lines, 0));
              var mi := ParseMetaLine(LineAt(lines, 1), dateOf);
              && r.entry.bookTitle == ta.bookTitle && r.entry.author == ta.author
              && r.entry.location == mi.location && r.entry.page == mi.page
              && r.entry.dateAdded == mi.dateAdded
  {
    var lines := Split(block, '\n');
    var titleLine := LineAt(lines, 0);
    var metaLine := LineAt(lines, 1);
    var ta := ParseTitleLine(titleLine);
    var mi := ParseMetaLine(metaLine, dateOf);
    var content := ContentOf(lines);
    if content == [] then
      Failed(ParseError(index, EmptyContent, titleLine, metaLine))
    else
      var hashId := sha(HashSource(content, ta.bookTitle, mi.location));
      Parsed(Entry(ta.bookTitle, ta.author, mi.location, mi.page, mi.dateAdded,
                   content, DetectLang(content), Kindle, hashId))
  }

  /** The outcome of every chunk, by position. */
  function Outcomes(chunks: seq<string>, dateOf: string -> Option<int>, sha: string -> string): (outs: seq<ChunkOutcome>)
    ensures |outs| == |chunks|
  {
    seq(|chunks|, i requires 0 <= i < |chunks| => ParseChunk(chunks[i], i, dateOf, sha))
  }

  /** Entries and errors in the order of their chunks. */
  function Partition(outs: seq<ChunkOutcome>): (r: ParseResult)
    ensures |r.entries| + |r.errors| == |outs|
    ensures forall e :: e in r.entries <==> Parsed(e) in outs
    ensures forall err :: err in r.errors <==> Failed(err) in outs
  {
    if |outs| == 0 then ParseResult([], [])
    else
      var prev := Partition(outs[..|outs| - 1]);
      var o := outs[|outs| - 1];
      assert outs == outs[..|outs| - 1] + [o];
      if o.Parsed? then ParseResult(prev.entries + [o.entry], prev.errors)
      else ParseResult(prev.entries, prev.errors + [o.error])
  }

  /** The partition works outcome by outcome: it commutes with
      concatenation, so entries and errors keep the order of their chunks. */
  lemma {:induction false} PartitionConcat(a: seq<ChunkOutcome>, b: seq<ChunkOutcome>)
    ensures Partition(a + b) ==
              ParseResult(Partition(a).entries + Partition(b).entries, Partition(a).errors + Partition(b).errors)
    decreases |b|
  {
    if |b| == 0 {
      assert a + b == a;
    } else {
      var b' := b[..|b| - 1];
      assert (a + b)[..|a + b| - 1] == a + b';
      assert b[..|b| - 1] == b';
      PartitionConcat(a, b');
    }
  }

  /** One outcome gives one entry or one error. */
  lemma PartitionOne(o: ChunkOutcome)
    ensures Partition([o]) == if o.Parsed? then ParseResult([o.entry], []) else ParseResult([], [o.error])
  {
    assert [o][..0] == [];
  }

  /** The whole file. */
  function ParseClippings(textRaw: string, dateOf: string -> Option<int>, sha: string -> string): ParseResult {
    Partition(Outcomes(Chunks(textRaw), dateOf, sha))
  }

  /** `parseMyClippings`. */
  method ParseMyClippings(textRaw: string, dateOf: string -> Option<int>, sha: string -> string)
    returns (entries: seq<Entry>, errors: seq<ParseError>)
    ensures ParseResult(entries, errors) == ParseClippings(textRaw, dateOf, sha)
    ensures |entries| + |errors| == |Chunks(textRaw)|
  {
    entries, errors := Collect(Outcomes(Chunks(textRaw), dateOf, sha));
  }

  /** The loop over chunks, pushing each outcome to `entries` or `errors`. */
  method Collect(outs: seq<ChunkOutcome>) returns (entries: seq<Entry>, errors: seq<ParseError>)
    ensures ParseResult(entries, errors) == Partition(outs)
  {
    entries := [];
    errors := [];
    var i := 0;
    while i < |outs|
      invariant i <= |outs|
      invariant ParseResult(entries, errors) == Partition(outs[..i])
    {
      var o := outs[i];
      assert outs[..i + 1][..i] == outs[..i];
      if o.Parsed? {
        entries := entries + [o.entry];
      } else {
        errors := errors + [o.error];
      }
      i := i + 1;
    }
    assert outs[..i] == outs;
  }

  /** What `ParseChunk` says about the outcome at position `j`. */
  lemma OutcomeAt(chunks: seq<string>, j: nat, dateOf: string -> Option<int>, sha: string -> string)
    requires j < |chunks|
    ensures var o := Outcomes(chunks, dateOf, sha)[j];
            && (o.Failed? <==> EmptyChunk(chunks[j]))
            && (o.Failed? ==> o.error.index == j)
            && (o.Parsed? ==> o.entry.content != [] && o.entry.source == Kindle)
  {
    assert Outcomes(chunks, dateOf, sha)[j] == ParseChunk(chunks[j], j, dateOf, sha);
  }

  /** Every entry has content, and the errors are exactly the chunks with
      blank content, each reported with its own position. */
  lemma PartitionOutcomes(chunks: seq<string>, dateOf: string -> Option<int>, sha: string -> string)
    ensures var r := Partition(Outcomes(chunks, dateOf, sha));
            forall k | 0 <= k < |r.entries| :: r.entries[k].content != [] && r.entries[k].source == Kindle
    ensures var r := Partition(Outcomes(chunks, dateOf, sha));
            forall j | 0 <= j < |chunks| :: EmptyChunk(chunks[j]) <==> Reported(r.errors, j)
  {
    var outs := Outcomes(chunks, dateOf, sha);
    forall m | 0 <= m < |outs|
      ensures WellNumbered(outs, m)
    {
      OutcomeAt(chunks, m, dateOf, sha);
    }
    EntriesOfPartition(outs);
    forall j | 0 <= j < |chunks|
      ensures EmptyChunk(chunks[j]) <==> outs[j].Failed?
    {
      OutcomeAt(chunks, j, dateOf, sha);
    }
    forall j | 0 <= j < |outs|
      ensures outs[j].Failed? <==> Reported(Partition(outs).errors, j)
    {
      ErrorsOfPartition(outs, j);
    }
  }

  /** The outcome at position `m` reports failures with that position and
      keeps only entries with content. */
  predicate WellNumbered(outs: seq<ChunkOutcome>, m: nat)
    requires m < |outs|
  {
    && (outs[m].Failed? ==> outs[m].error.index == m)
    && (outs[m].Parsed? ==> outs[m].entry.content != [] && outs[m].entry.source == Kindle)
  }

  lemma EntriesOfPartition(outs: seq<ChunkOutcome>)
    requires forall m | 0 <= m < |outs| :: WellNumbered(outs, m)
    ensures var r := Partition(outs);
            forall k | 0 <= k < |r.entries| :: r.entries[k].content != [] && r.entries[k].source == Kindle
  {
    var r := Partition(outs);
    forall k | 0 <= k < |r.entries|
      ensures r.entries[k].content != [] && r.entries[k].source == Kindle
    {
      assert r.entries[k] in r.entries;
      var j :| 0 <= j < |outs| && outs[j] == Parsed(r.entries[k]);
      assert WellNumbered(outs, j);
    }
  }

  /** Some error reports position `j`. */
  predicate Reported(errors: seq<ParseError>, j: nat) {
    exists k | 0 <= k < |errors| :: errors[k].index == j
  }

  lemma ErrorsOfPartition(outs: seq<ChunkOutcome>, j: nat)
    requires j < |outs|
    requires forall m | 0 <= m < |outs| :: WellNumbered(outs, m)
    ensures outs[j].Failed? <==> Reported(Partition(outs).errors, j)
  {
    assert WellNumbered(outs, j);
    if outs[j].Failed? {
      FailedIsReported(outs, j);
    }
    if Reported(Partition(outs).errors, j) {
      ReportedIsFailed(outs, j);
    }
  }

  lemma FailedIsReported(outs: seq<ChunkOutcome>, j: nat)
    requires j < |outs| && outs[j].Failed? && outs[j].error.index == j
    ensures Reported(Partition(outs).errors, j)
  {
    var r := Partition(outs);
    assert Failed(outs[j].error) in outs;
    var k :| 0 <= k < |r.errors| && r.errors[k] == outs[j].error;
    assert r.errors[k].index == j;
  }

  lemma ReportedIsFailed(outs: seq<ChunkOutcome>, j: nat)
    requires j < |outs|
    requires forall m | 0 <= m < |outs| :: WellNumbered(outs, m)
    requires Reported(Partition(outs).errors, j)
    ensures outs[j].Failed?
  {
    var r := Partition(outs);
    var k :| 0 <= k < |r.errors| && r.errors[k].index == j;
    assert r.errors[k] in r.errors;
    var m :| 0 <= m < |outs| && outs[m] == Failed(r.errors[k]);
    assert WellNumbered(outs, m);
  }

  // ---------------------------------------------------------------------------
  // Properties

  /** The blank-line skip changes nothing: `trim` removes the skipped blank
      lines anyway. */
  lemma {:induction false} ContentSkipRedundant(lines: seq<string>)
    ensures ContentOf(lines) == Trim(Join(SliceFrom(lines, 2), "\n"))
  {
    SkipFrom(lines, 2);
  }

  lemma {:induction false} SkipFrom(lines: seq<string>, i: nat)
    ensures Trim(Join(SliceFrom(lines, ContentStart(lines, i)), "\n")) == Trim(Join(SliceFrom(lines, i), "\n"))
    decreases |lines| - i
  {
    if i < |lines| && IsBlank(lines[i]) {
      SkipFrom(lines, i + 1);
      DropBlankLine(lines[i], SliceFrom(lines, i + 1));
      assert SliceFrom(lines, i) == [lines[i]] + SliceFrom(lines, i + 1);
    }
  }

  /** A blank first line does not change the trimmed join. */
  lemma DropBlankLine(b: string, rest: seq<string>)
    requires IsBlank(b)
    ensures Trim(Join([b] + rest, "\n")) == Trim(Join(rest, "\n"))
  {
    assert AllSpace(b);
    if |rest| == 0 {
      assert Join([b], "\n") == b;
    } else {
      var ws := [b] + rest;
      assert ws[1..] == rest;
      assert Join(ws, "\n") == (b + "\n") + Join(rest, "\n");
      assert AllSpace(b + "\n");
      TrimIgnoresLeadingSpace(b + "\n", Join(rest, "\n"));
    }
  }

  /** A chunk in Kindle's layout, title line, metadata line, blank line and
      the content lines, yields the trimmed content lines. */
  lemma KindleChunkContent(title: string, meta: string, body: seq<string>)
    requires '\n' !in title && '\n' !in meta
    requires forall k | 0 <= k < |body| :: '\n' !in body[k]
    ensures ContentOf(Split(Join([title, meta, ""] + body, "\n"), '\n')) == Trim(Join(body, "\n"))
  {
    var ls := [title, meta, ""] + body;
    KindleLines(title, meta, body);
    ContentSkipRedundant(ls);
    KindleBody(title, meta, body);
    DropBlankLine("", body);
  }

  /** A chunk in Kindle's layout becomes the entry built from its parts:
      title and author from the title line, location, page and date from the
      metadata line, the trimmed content lines, their language, the source
      "kindle" and the hash of content, title and location; an error at its
      own position when the content lines are blank. */
  lemma KindleChunkEntry(title: string, meta: string, body: seq<string>, index: nat,
                         dateOf: string -> Option<int>, sha: string -> string)
    requires '\n' !in title && '\n' !in meta
    requires forall k | 0 <= k < |body| :: '\n' !in body[k]
    ensures var content := Trim(Join(body, "\n"));
            var ta := ParseTitleLine(title);
            var mi := ParseMetaLine(meta, dateOf);
            ParseChunk(Join([title, meta, ""] + body, "\n"), index, dateOf, sha) ==
              if content == [] then Failed(ParseError(index, EmptyContent, title, meta))
              else Parsed(Entry(ta.bookTitle, ta.author, mi.location, mi.page, mi.dateAdded, content,
                                DetectLang(content), Kindle, sha(HashSource(content, ta.bookTitle, mi.location))))
  {
    var block := Join([title, meta, ""] + body, "\n");
    KindleChunkContent(title, meta, body);
    KindleLines(title, meta, body);
    var lines := Split(block, '\n');
    assert LineAt(lines, 0) == title && LineAt(lines, 1) == meta;
  }

  lemma KindleBody(title: string, meta: string, body: seq<string>)
    ensures SliceFrom([title, meta, ""] + body, 2) == [""] + body
  {
    assert ([title, meta, ""] + body)[2..] == [""] + body;
  }

  lemma KindleLines(title: string, meta: string, body: seq<string>)
    requires '\n' !in title && '\n' !in meta
    requires forall k | 0 <= k < |body| :: '\n' !in body[k]
    ensures Split(Join([title, meta, ""] + body, "\n"), '\n') == [title, meta, ""] + body
  {
    NoNewline(title, meta, body);
    SplitJoin([title, meta, ""] + body, '\n');
  }

  lemma NoNewline(title: string, meta: string, body: seq<string>)
    requires '\n' !in title && '\n' !in meta
    requires forall k | 0 <= k < |body| :: '\n' !in body[k]
    ensures forall k | 0 <= k < |[title, meta, ""] + body| :: '\n' !in ([title, meta, ""] + body)[k]
  {
  }
}

=== FILE: clippings_lines.dfy ===
/** The per-line helpers of the clippings parser (`src/services/parser.service.js`):
    language detection, the title line `Title (Author)` and the metadata line
    `- Your Highlight on Location 1091-1094 | Added on …`. The regular
    expressions are modelled by declarative match predicates, and each
    finder is proved to return exactly the match the JavaScript regular
    expression engine returns. */
module ClippingsLines {
  import opened Wrappers
  import opened JsText

  // ---------------------------------------------------------------------------
  // Language

  /** The Unicode Bengali block U+0980..U+09FF. */
  predicate IsBengali(c: char) {
    '\U{0980}' <= c <= '\U{09FF}'
  }

  function HasBengali(s: string): (b: bool)
    ensures b <==> exists i | 0 <= i < |s| :: IsBengali(s[i])
  {
    if |s| == 0 then false
    else if IsBengali(s[0]) then true
    else
      assert forall i | 1 <= i < |s| :: s[i] == s[1..][i - 1];
      HasBengali(s[1..])
  }

  /** `detectLang`: "bn" when some character is in the Bengali block, "en"
      otherwise (the empty string included). */
  function DetectLang(s: string): (lang: string)
    ensures lang == "bn" || lang == "en"
    ensures lang == "bn" <==> exists i | 0 <= i < |s| :: IsBengali(s[i])
  {
    if s == [] then "en"
    else if HasBengali(s) then "bn" else "en"
  }

  // ---------------------------------------------------------------------------
  // Title line: /^(.*)\s+\(([^()]+)\)\s*$/ on the trimmed line

  predicate IsParen(c: char) {
    c == '(' || c == ')'
  }

  /** The pattern matches `line` with group 1 = `line[..k]`, the white space
      `line[k..o]`, the parenthesis at `o`, group 2 = `line[o+1..c]`, the
      closing parenthesis at `c` and white space up to the end. `.` does not
      match line terminators. */
  predicate TitleMatch(line: string, k: nat, o: nat, c: nat) {
    && k < o && o + 1 < c < |line|
    && (forall i | 0 <= i < k :: !IsLineTerminator(line[i]))
    && (forall i | k <= i < o :: IsSpace(line[i]))
    && line[o] == '(' && line[c] == ')'
    && (forall i | o < i < c :: !IsParen(line[i]))
    && (forall i | c < i < |line| :: IsSpace(line[i]))
  }

  /** Position of the last parenthesis of `s`. */
  function LastParen(s: string): (k: Option<nat>)
    ensures k.Some? ==> k.value < |s| && IsParen(s[k.value])
    ensures k.Some? ==> forall i | k.value < i < |s| :: !IsParen(s[i])
    ensures k.None? ==> forall i | 0 <= i < |s| :: !IsParen(s[i])
  {
    if |s| == 0 then None
    else if IsParen(s[|s| - 1]) then Some(|s| - 1)
    else LastParen(s[..|s| - 1])
  }

  /** Position of the first line terminator of `s`, `|s|` if there is none. */
  function FirstLineTerminator(s: string): (k: nat)
    ensures k <= |s|
    ensures k < |s| ==> IsLineTerminator(s[k])
    ensures forall i | 0 <= i < k :: !IsLineTerminator(s[i])
  {
    if |s| == 0 || IsLineTerminator(s[0]) then 0 else 1 + FirstLineTerminator(s[1..])
  }

  /** The positions `(o, c)` of the author's parentheses when the pattern
      matches: `c` must be the last non-space character, `o` the last
      parenthesis before it, and some white space before `o` must be
      reachable from the start without crossing a line terminator. */
  function TitleParens(line: string): (r: Option<(nat, nat)>)
    ensures r.Some? ==> 0 < r.value.0 && r.value.0 + 1 < r.value.1 < |line|
  {
    var n := |line| - TrailingSpaces(line);
    if n == 0 || line[n - 1] != ')' then None
    else
      var c := n - 1;
      match LastParen(line[..c])
      case None => None
      case Some(o) =>
        if line[o] != '(' || o + 1 >= c || o == 0 || !IsSpace(line[o - 1]) then None
        else
          var lt := FirstLineTerminator(line);
          if lt + 1 >= o || AllSpace(line[lt..o]) then Some((o, c)) else None
  }

  /** Whatever `TitleParens` returns is a match of the pattern. */
  lemma TitleParensSound(line: string)
    requires TitleParens(line).Some?
    ensures exists k: nat :: TitleMatch(line, k, TitleParens(line).value.0, TitleParens(line).value.1)
  {
    var (o, c) := TitleParens(line).value;
    var n := |line| - TrailingSpaces(line);
    assert c == n - 1;
    var lt := FirstLineTerminator(line);
    var k := if lt + 1 >= o then o - 1 else lt;
    assert forall i | o < i < c :: line[i] == line[..c][i];
    if lt + 1 < o {
      assert forall i | lt <= i < o :: line[i] == line[lt..o][i - lt];
    }
    assert TitleMatch(line, k, o, c);
  }

  /** Every match of the pattern is found by `TitleParens`: the parentheses
      of a match are unique. */
  lemma TitleParensComplete(line: string, k: nat, o: nat, c: nat)
    requires TitleMatch(line, k, o, c)
    ensures TitleParens(line) == Some((o, c))
  {
    var t := TrailingSpaces(line);
    assert !IsSpace(line[c]);
    assert t == |line| - 1 - c;
    var u := line[..c];
    assert IsParen(u[o]);
    assert forall i | o < i < |u| :: !IsParen(u[i]);
    var lp := LastParen(u);
    assert lp == Some(o);
    var lt := FirstLineTerminator(line);
    assert lt >= k;
    if lt + 1 < o {
      assert AllSpace(line[lt..o]) by {
        assert forall i | 0 <= i < o - lt :: line[lt..o][i] == line[lt + i];
      }
    }
  }

  /** Group 1, once trimmed, is the same for every match: the greedy `(.*)`
      only moves white space between group 1 and `\s+`. */
  lemma TitleGroupTrim(line: string, k: nat, o: nat, c: nat)
    requires TitleMatch(line, k, o, c)
    ensures Trim(line[..k]) == Trim(line[..o])
  {
    assert line[..o] == line[..k] + line[k..o];
    assert AllSpace(line[k..o]) by {
      assert forall i | 0 <= i < o - k :: line[k..o][i] == line[k + i];
    }
    TrimIgnoresTrailingSpace(line[..k], line[k..o]);
  }

  lemma PrefixNotBlank(line: string, o: nat)
    requires 0 < o <= |line| && !IsSpace(line[0])
    ensures Trim(line[..o]) != []
  {
    assert line[..o][0] == line[0];
  }

  datatype TitleAuthor = TitleAuthor(bookTitle: Option<string>, author: Option<string>)

  /** `parseTitleLine`: a blank line gives no title and no author; a line
      the pattern matches gives the trimmed groups (`ParseTitleLineMatch`);
      any other line is the title without an author. */
  function ParseTitleLine(lineRaw: string): (r: TitleAuthor)
    ensures Trim(lineRaw) == [] ==> r == TitleAuthor(None, None)
    ensures Trim(lineRaw) != [] ==> r.bookTitle.Some? && r.bookTitle.value != []
    ensures r.author.None? ==> r.bookTitle == if Trim(lineRaw) == [] then None else Some(Trim(lineRaw))
  {
    var line := Trim(lineRaw);
    if line == [] then TitleAuthor(None, None)
    else
      match TitleParens(line)
      case None =>
        TitleAuthor(Some(line), None)
      case Some(oc) =>
        var title := Trim(line[..oc.0]);
        assert title != [] by {
          assert !IsSpace(line[0]);
          PrefixNotBlank(line, oc.0);
        }
        TitleAuthor(Some(title), Some(Trim(line[oc.0 + 1..oc.1])))
  }

  /** An author is reported exactly when the pattern matches the trimmed
      line. */
  lemma ParseTitleLineAuthor(lineRaw: string)
    ensures ParseTitleLine(lineRaw).author.Some? <==>
              exists k: nat, o: nat, c: nat :: TitleMatch(Trim(lineRaw), k, o, c)
  {
    var line := Trim(lineRaw);
    if TitleParens(line).Some? {
      TitleParensSound(line);
      var k: nat :| TitleMatch(line, k, TitleParens(line).value.0, TitleParens(line).value.1);
      assert line != [];
    }
    if exists k: nat, o: nat, c: nat :: TitleMatch(line, k, o, c) {
      var k: nat, o: nat, c: nat :| TitleMatch(line, k, o, c);
      TitleParensComplete(line, k, o, c);
      assert line != [];
    }
  }

  /** For any match of the pattern, title and author are its trimmed groups. */
  lemma ParseTitleLineMatch(lineRaw: string, k: nat, o: nat, c: nat)
    requires TitleMatch(Trim(lineRaw), k, o, c)
    ensures ParseTitleLine(lineRaw) ==
              TitleAuthor(Some(Trim(Trim(lineRaw)[..k])), Some(Trim(Trim(lineRaw)[o + 1..c])))
  {
    var line := Trim(lineRaw);
    TitleParensComplete(line, k, o, c);
    TitleGroupTrim(line, k, o, c);
    ParseTitleLineOf(lineRaw, o, c);
  }

  lemma ParseTitleLineOf(lineRaw: string, o: nat, c: nat)
    requires TitleParens(Trim(lineRaw)) == Some((o, c))
    ensures ParseTitleLine(lineRaw) ==
              TitleAuthor(Some(Trim(Trim(lineRaw)[..o])), Some(Trim(Trim(lineRaw)[o + 1..c])))
  {
  }

  // ---------------------------------------------------------------------------
  // Metadata line: /Location\s+([0-9\-–]+)/i and /page\s+([0-9\-–]+)/i

  /** The class `[0-9\-–]`: digits, hyphen and en dash. */
  predicate IsRangeChar(c: char) {
    IsDigit(c) || c == '-' || c == '\U{2013}'
  }

  /** `word` (lower case) occurs at `p`, ignoring ASCII case. */
  predicate WordAt(s: string, word: string, p: nat) {
    p + |word| <= |s| && forall i | 0 <= i < |word| :: LowerChar(s[p + i]) == word[i]
  }

  /** The pattern `word\s+([0-9\-–]+)` matches at `p` with the white space
      `s[p+|word|..d]` and group 1 = `s[d..f]`. */
  predicate KeywordMatch(s: string, word: string, p: nat, d: nat, f: nat) {
    && WordAt(s, word, p)
    && p + |word| < d < f <= |s|
    && (forall i | p + |word| <= i < d :: IsSpace(s[i]))
    && (forall i | d <= i < f :: IsRangeChar(s[i]))
  }

  ghost predicate HasKeyword(s: string, word: string) {
    exists p: nat, d: nat, f: nat :: KeywordMatch(s, word, p, d, f)
  }

  /** End of the white-space run starting at `q`. */
  function SpaceEnd(s: string, q: nat): (d: nat)
    requires q <= |s|
    ensures q <= d <= |s|
    ensures forall i | q <= i < d :: IsSpace(s[i])
    ensures d < |s| ==> !IsSpace(s[d])
    decreases |s| - q
  {
    if q < |s| && IsSpace(s[q]) then SpaceEnd(s, q + 1) else q
  }

  /** End of the run of class characters starting at `d`. */
  function RangeEnd(s: string, d: nat): (f: nat)
    requires d <= |s|
    ensures d <= f <= |s|
    ensures forall i | d <= i < f :: IsRangeChar(s[i])
    ensures f < |s| ==> !IsRangeChar(s[f])
    decreases |s| - d
  {
    if d < |s| && IsRangeChar(s[d]) then RangeEnd(s, d + 1) else d
  }

  /** A match position and its group 1 `s[start..end]`. */
  datatype Capture = Capture(at: nat, start: nat, end: nat)

  /** The leftmost match at or after `p`, with greedy `\s+` and greedy class
      run, as the regular expression engine finds it. */
  function KeywordFrom(s: string, word: string, p: nat): (r: Option<Capture>)
    ensures r.Some? ==> p <= r.value.at && KeywordMatch(s, word, r.value.at, r.value.start, r.value.end)
    ensures r.Some? ==> r.value.end == |s| || !IsRangeChar(s[r.value.end])
    decreases |s| - p
  {
    if p + |word| >= |s| then None
    else
      var d := SpaceEnd(s, p + |word|);
      var f := RangeEnd(s, d);
      if WordAt(s, word, p) && p + |word| < d < f then Some(Capture(p, d, f))
      else KeywordFrom(s, word, p + 1)
  }

  lemma SpaceEndExact(s: string, q: nat, d: nat)
    requires q <= d < |s|
    requires forall i | q <= i < d :: IsSpace(s[i])
    requires !IsSpace(s[d])
    ensures SpaceEnd(s, q) == d
    decreases d - q
  {
    if q < d {
      SpaceEndExact(s, q + 1, d);
    }
  }

  /** Every match at or after `p` is found: `KeywordFrom` returns a match no
      later than it, and at the same position a group 1 that starts at the
      same place and extends at least as far. */
  lemma {:induction false} KeywordFromComplete(s: string, word: string, p: nat, k: nat, d: nat, f: nat)
    requires p <= k
    requires KeywordMatch(s, word, k, d, f)
    ensures KeywordFrom(s, word, p).Some?
    ensures KeywordFrom(s, word, p).value.at <= k
    ensures KeywordFrom(s, word, p).value.at == k ==>
              KeywordFrom(s, word, p).value.start == d && f <= KeywordFrom(s, word, p).value.end
    decreases k - p
  {
    var q := p + |word|;
    if p == k {
      assert IsRangeChar(s[d]);
      SpaceEndExact(s, q, d);
      assert RangeEnd(s, d) >= f;
    } else {
      var r := SpaceEnd(s, q);
      if !(WordAt(s, word, p) && q < r < RangeEnd(s, r)) {
        KeywordFromComplete(s, word, p + 1, k, d, f);
      }
    }
  }

  /** The match the regular expression engine reports: no match starts
      earlier, and at the same position no group is longer. */
  ghost predicate LeftmostLongest(s: string, word: string, p: nat, d: nat, f: nat) {
    && KeywordMatch(s, word, p, d, f)
    && forall p': nat, d': nat, f': nat | KeywordMatch(s, word, p', d', f') ::
         p <= p' && (p' == p ==> d' == d && f' <= f)
  }

  /** What `KeywordFrom` finds from the start of the text is the match the
      engine reports. */
  lemma KeywordFromLeftmost(s: string, word: string)
    requires KeywordFrom(s, word, 0).Some?
    ensures var m := KeywordFrom(s, word, 0).value;
            LeftmostLongest(s, word, m.at, m.start, m.end)
  {
    forall p': nat, d': nat, f': nat | KeywordMatch(s, word, p', d', f')
      ensures var m := KeywordFrom(s, word, 0).value;
              m.at <= p' && (p' == m.at ==> d' == m.start && f' <= m.end)
    {
      KeywordFromComplete(s, word, 0, p', d', f');
    }
  }

  /** The pattern matches somewhere exactly when `KeywordFrom` finds a
      match. */
  lemma KeywordFromFinds(s: string, word: string)
    ensures KeywordFrom(s, word, 0).Some? <==> HasKeyword(s, word)
  {
    if HasKeyword(s, word) {
      var p: nat, d: nat, f: nat :| KeywordMatch(s, word, p, d, f);
      KeywordFromComplete(s, word, 0, p, d, f);
    }
  }

  predicate AllRange(g: string) {
    forall i | 0 <= i < |g| :: IsRangeChar(g[i])
  }

  lemma GroupIsRange(s: string, word: string, m: Capture)
    requires KeywordMatch(s, word, m.at, m.start, m.end)
    ensures AllRange(ReplaceFirstDash(s[m.start..m.end]))
  {
    var g := s[m.start..m.end];
    assert forall i | 0 <= i < |g| :: g[i] == s[m.start + i];
  }

  /** Class characters are not white space, so `trim` leaves a group as it
      is. */
  lemma RangeTrim(g: string)
    requires g != [] && AllRange(g)
    ensures Trim(g) == g
  {
    assert IsRangeChar(g[0]) && IsRangeChar(g[|g| - 1]);
    TrimOfPadded([], g, []);
    assert [] + g + [] == g;
  }

  /** `String(m[1]).replace("–", "-")`: only the first en dash becomes a
      hyphen. */
  function ReplaceFirstDash(s: string): (r: string)
    ensures |r| == |s|
    ensures forall i | 0 <= i < |s| && i != IndexOf(s, '\U{2013}') :: r[i] == s[i]
    ensures IndexOf(s, '\U{2013}') < |s| ==> r[IndexOf(s, '\U{2013}')] == '-'
  {
    var i := IndexOf(s, '\U{2013}');
    if i == |s| then s else s[..i] + "-" + s[i + 1..]
  }

  /** Group 1 of the leftmost match, with its first en dash replaced and
      trimmed, or `None` when the pattern does not match. */
  function KeywordNumber(s: string, word: string): (r: Option<string>)
    ensures r.Some? <==> HasKeyword(s, word)
    ensures r.Some? ==> r.value != [] && AllRange(r.value)
    ensures r.Some? ==>
              && KeywordFrom(s, word, 0).Some?
              && var m := KeywordFrom(s, word, 0).value;
                 r.value == ReplaceFirstDash(s[m.start..m.end])
  {
    assert KeywordFrom(s, word, 0).Some? <==> HasKeyword(s, word) by {
      KeywordFromFinds(s, word);
    }
    match KeywordFrom(s, word, 0)
    case None => None
    case Some(m) =>
      var g := ReplaceFirstDash(s[m.start..m.end]);
      assert AllRange(g) by {
        GroupIsRange(s, word, m);
      }
      assert Trim(g) == g by {
        RangeTrim(g);
      }
      Some(Trim(g))
  }

  /** The value is group 1 of the match the engine reports, its first en
      dash replaced by a hyphen. */
  lemma KeywordNumberValue(s: string, word: string, p: nat, d: nat, f: nat)
    requires LeftmostLongest(s, word, p, d, f)
    ensures KeywordNumber(s, word) == Some(ReplaceFirstDash(s[d..f]))
  {
    KeywordFromComplete(s, word, 0, p, d, f);
    var m := KeywordFrom(s, word, 0).value;
    assert KeywordMatch(s, word, m.at, m.start, m.end);
    assert m.at == p && m.start == d && m.end == f;
    var r := KeywordNumber(s, word);
    assert HasKeyword(s, word);
    assert r.Some?;
    assert r.value == ReplaceFirstDash(s[m.start..m.end]);
  }

  /** `word` (lower case) occurs in `s` at `i`. */
  predicate OccursAt(s: string, word: string, i: nat) {
    i + |word| <= |s| && s[i..i + |word|] == word
  }

  /** `indexOf(word)` from `p` on: the first occurrence, `None` for -1. */
  function FindWord(s: string, word: string, p: nat): (r: Option<nat>)
    ensures r.Some? ==> p <= r.value && OccursAt(s, word, r.value)
    ensures r.Some? ==> forall j | p <= j < r.value :: !OccursAt(s, word, j)
    ensures r.None? ==> forall j | p <= j :: !OccursAt(s, word, j)
    decreases |s| - p
  {
    if p + |word| > |s| then None
    else if s[p..p + |word|] == word then Some(p)
    else FindWord(s, word, p + 1)
  }

  const AddedOn: string := "added on"

  /** The `|`-separated parts after the first, each trimmed, joined with
      " | ". */
  function RightPart(meta: string): string {
    var parts := Split(meta, '|');
    Join(seq(|parts| - 1, i requires 0 <= i < |parts| - 1 => Trim(parts[i + 1])), " | ")
  }

  /** The date text of a trimmed metadata line: what follows the first
      "added on" (any ASCII case) after the first `|`, else what follows the
      first "added on" of the whole line, trimmed; `None` when neither part
      has one. */
  function DateString(meta: string): (r: Option<string>)
  {
    var right := RightPart(meta);
    match FindWord(Lower(right), AddedOn, 0)
    case Some(i) => Some(Trim(right[i + |AddedOn|..]))
    case None =>
      match FindWord(Lower(meta), AddedOn, 0)
      case Some(i) => Some(Trim(meta[i + |AddedOn|..]))
      case None => None
  }

  /** The fields `parseMetaLine` extracts; `None` is `null`. */
  datatype MetaInfo = MetaInfo(location: Option<string>, page: Option<string>, dateAdded: Option<int>)

  /** `parseMetaLine`. The calendar parsing of the date text (two Luxon
      formats, then `new Date`) is the parameter `dateOf`, applied only to a
      non-empty date text. */
  function ParseMetaLine(metaRaw: string, dateOf: string -> Option<int>): (r: MetaInfo)
    ensures Trim(metaRaw) == [] ==> r == MetaInfo(None, None, None)
    ensures r.location.Some? <==> Trim(metaRaw) != [] && HasKeyword(Trim(metaRaw), "location")
    ensures r.page.Some? <==>
              Trim(metaRaw) != [] && !HasKeyword(Trim(metaRaw), "location") && HasKeyword(Trim(metaRaw), "page")
    ensures !(r.location.Some? && r.page.Some?)
    ensures r.location == KeywordNumber(Trim(metaRaw), "location")
    ensures r.page == if r.location.None? then KeywordNumber(Trim(metaRaw), "page") else None
    ensures r.location.Some? ==> r.location.value != []
    ensures r.page.Some? ==> r.page.value != []
    ensures r.dateAdded.Some? ==>
              && DateString(Trim(metaRaw)).Some?
              && DateString(Trim(metaRaw)).value != []
              && r.dateAdded == dateOf(DateString(Trim(metaRaw)).value)
  {
    var meta := Trim(metaRaw);
    if meta == [] then MetaInfo(None, None, None)
    else
      var location := KeywordNumber(meta, "location");
      var pageMatch := KeywordNumber(meta, "page");
      var page := if (location.None? || location.value == []) && pageMatch.Some? then pageMatch else None;
      var dateStr := DateString(meta);
      var dateAdded := if dateStr.Some? && dateStr.value != [] then dateOf(dateStr.value) else None;
      MetaInfo(location, page, dateAdded)
  }

  /** The Kindle layout `left | Added on <date>`: the date text is `<date>`
      whatever `left` holds, provided neither part has a `|`. */
  lemma KindleDateString(left: string, date: string)
    requires '|' !in left && '|' !in date
    requires date != [] && Trim(date) == date
    ensures DateString(left + " | Added on " + date) == Some(date)
  {
    var meta := left + " | Added on " + date;
    var right := "Added on " + date;
    KindleRightPart(left, date);
    assert FindWord(Lower(right), AddedOn, 0) == Some(0) by {
      assert Lower(right)[..|AddedOn|] == AddedOn;
      assert OccursAt(Lower(right), AddedOn, 0);
    }
    assert right[|AddedOn|..] == " " + date;
    TrimIgnoresLeadingSpace(" ", date);
  }

  lemma KindleRightPart(left: string, date: string)
    requires '|' !in left && '|' !in date
    requires date != [] && Trim(date) == date
    ensures RightPart(left + " | Added on " + date) == "Added on " + date
  {
    var parts := Split(left + " | Added on " + date, '|');
    KindleParts(left, date);
    KindleRight(date);
    var ps := seq(|parts| - 1, i requires 0 <= i < |parts| - 1 => Trim(parts[i + 1]));
    assert ps == [Trim(" Added on " + date)];
  }

  lemma KindleParts(left: string, date: string)
    requires '|' !in left && '|' !in date
    ensures Split(left + " | Added on " + date, '|') == [left + " ", " Added on " + date]
  {
    var tail := " Added on " + date;
    assert left + " | Added on " + date == Join([left + " ", tail], "|");
    assert '|' !in left + " " && '|' !in tail;
    SplitJoin([left + " ", tail], '|');
  }

  lemma KindleRight(date: string)
    requires date != [] && Trim(date) == date
    ensures Trim(" Added on " + date) == "Added on " + date
  {
    var right := "Added on " + date;
    LastNotSpace(date);
    assert right[|right| - 1] == date[|date| - 1];
    TrimOfPadded(" ", right, []);
    assert " " + right + [] == " Added on " + date;
  }

  /** A string equal to its own non-empty trim ends in a non-space. */
  lemma LastNotSpace(t: string)
    requires t != [] && Trim(t) == t
    ensures !IsSpace(t[|t| - 1])
  {
    assert !AllSpace(t);
  }
}

=== FILE: clippings_text.dfy ===
/** The first steps of `parseMyClippings`: drop a leading byte-order mark,
    turn CRLF into LF, and split the text at separator lines with
    `text.split(/^\s*={10,}\s*$/m)`, keeping the trimmed non-empty chunks.

    The separator regular expression is evaluated here by hand. With the `m`
    flag, `^` holds at the start of the text or after a line terminator and
    `$` at the end of the text or before a line terminator; `\s` also
    matches line terminators, so one separator can span several blank lines.
    At a line start the first `\s*` must take the whole white-space run
    (backing off leaves white space where `=` is needed), `={10,}` must take
    the whole run of `=` (backing off leaves `=` where `\s*$` is needed), and
    the last `\s*` takes the whole white-space run when that reaches the end
    of the text, and otherwise backs off to just before the last line
    terminator inside the run. */
module ClippingsText {
  import opened Wrappers
  import opened JsText

  const Bom: char := '\U{FEFF}'

  /** `if (text.charCodeAt(0) === 0xfeff) text = text.slice(1)`. */
  function DropBom(s: string): string {
    if |s| > 0 && s[0] == Bom then s[1..] else s
  }

  /** `text.replace(/\r\n/g, "\n")`: matches are found left to right and do
      not overlap. */
  function NormalizeNewlines(s: string): (r: string)
    ensures |r| <= |s|
    ensures '\r' !in s ==> r == s
  {
    if |s| >= 2 && s[0] == '\r' && s[1] == '\n' then "\n" + NormalizeNewlines(s[2..])
    else if |s| == 0 then ""
    else [s[0]] + NormalizeNewlines(s[1..])
  }

  /** Writes every LF as CRLF: what a Windows copy of a text holds. */
  function ExpandNewlines(t: string): string {
    if |t| == 0 then ""
    else if t[0] == '\n' then "\r\n" + ExpandNewlines(t[1..])
    else [t[0]] + ExpandNewlines(t[1..])
  }

  /** Normalising a text written with CRLF line ends gives back the text,
      whatever carriage returns it held of its own. */
  lemma {:induction false} NormalizeExpand(t: string)
    ensures NormalizeNewlines(ExpandNewlines(t)) == t
  {
    if |t| > 0 {
      NormalizeExpand(t[1..]);
      var e := ExpandNewlines(t);
      if t[0] == '\n' {
        assert e[2..] == ExpandNewlines(t[1..]);
      } else {
        assert e[1..] == ExpandNewlines(t[1..]);
        if t[0] == '\r' {
          ExpandStartsRight(t[1..]);
        }
        assert t == [t[0]] + t[1..];
      }
    }
  }

  /** An expanded text never starts with LF. */
  lemma ExpandStartsRight(t: string)
    ensures ExpandNewlines(t) == [] || ExpandNewlines(t)[0] != '\n'
  {
  }

  // ---------------------------------------------------------------------------
  // Separator lines

  predicate AllEquals(s: string) {
    forall i | 0 <= i < |s| :: s[i] == '='
  }

  /** Length of the run of `=` at the front of `s`. */
  function EqualsRun(s: string): (n: nat)
    ensures n <= |s|
    ensures AllEquals(s[..n])
    ensures n < |s| ==> s[n] != '='
  {
    if |s| > 0 && s[0] == '=' then
      var n := 1 + EqualsRun(s[1..]);
      assert s[..n] == [s[0]] + s[1..][..n - 1];
      n
    else 0
  }

  /** Index of the last line terminator in `s`, if any. */
  function LastLineTerminator(s: string): (k: Option<nat>)
    ensures k.Some? ==> k.value < |s| && IsLineTerminator(s[k.value])
    ensures k.Some? ==> forall i | k.value < i < |s| :: !IsLineTerminator(s[i])
    ensures k.None? ==> forall i | 0 <= i < |s| :: !IsLineTerminator(s[i])
  {
    if |s| == 0 then None
    else if IsLineTerminator(s[|s| - 1]) then Some(|s| - 1)
    else LastLineTerminator(s[..|s| - 1])
  }

  predicate AtLineStart(s: string, q: nat)
    requires q <= |s|
  {
    q == 0 || IsLineTerminator(s[q - 1])
  }

  predicate AtLineEnd(s: string, e: nat)
    requires e <= |s|
  {
    e == |s| || IsLineTerminator(s[e])
  }

  /** A separator match: white space, at least ten `=`, white space. */
  predicate IsSeparatorText(t: string) {
    exists a, b | 0 <= a <= b <= |t| ::
      && b - a >= 10
      && AllSpace(t[..a]) && AllEquals(t[a..b]) && AllSpace(t[b..])
  }

  /** The end of the `=` run of a separator starting at `q`: `q` begins a
      line, and white space then at least ten `=` follow. */
  function EqualsEnd(s: string, q: nat): (eq: Option<nat>)
    requires q <= |s|
    ensures eq.Some? ==> q + 10 <= eq.value <= |s|
  {
    if !AtLineStart(s, q) then None
    else
      var w := q + LeadingSpaces(s[q..]);
      var eq := w + EqualsRun(s[w..]);
      if eq - w < 10 then None else Some(eq)
  }

  /** The end of the separator match starting at `q`, if one starts there. */
  function SepEnd(s: string, q: nat): (e: Option<nat>)
    requires q <= |s|
    ensures e.Some? ==> q + 10 <= e.value <= |s|
    ensures e.Some? ==> AtLineStart(s, q) && AtLineEnd(s, e.value)
    ensures e.Some? ==> IsSeparatorText(s[q..e.value])
  {
    match EqualsEnd(s, q)
    case None => None
    case Some(eq) =>
      SeparatorMatch(s, q, eq);
      TailEnd(s, eq)
  }

  lemma SeparatorMatch(s: string, q: nat, eq: nat)
    requires q <= |s|
    requires EqualsEnd(s, q) == Some(eq)
    ensures AtLineStart(s, q)
    ensures var e := TailEnd(s, eq);
            e.Some? ==> q + 10 <= e.value <= |s| && AtLineEnd(s, e.value) && IsSeparatorText(s[q..e.value])
  {
    var w := q + LeadingSpaces(s[q..]);
    SeparatorRuns(s, q);
    var e := TailEnd(s, eq);
    if e.Some? {
      SeparatorShape(s, q, w, eq, e.value);
    }
  }

  /** The white space and the `=` run that `SepEnd` measures from `q`. */
  lemma SeparatorRuns(s: string, q: nat)
    requires q <= |s|
    ensures var w := q + LeadingSpaces(s[q..]);
            && w <= |s|
            && (forall i | q <= i < w :: IsSpace(s[i]))
            && (forall i | w <= i < w + EqualsRun(s[w..]) :: s[i] == '=')
  {
    var w := q + LeadingSpaces(s[q..]);
    var eq := w + EqualsRun(s[w..]);
    assert forall i | q <= i < w :: s[i] == s[q..][i - q];
    assert forall i | w <= i < eq :: s[i] == s[w..][..eq - w][i - w];
  }

  /** The end of the final `\s*$` when it starts at `eq`: the whole
      white-space run if it reaches the end of the text, otherwise the
      position of the last line terminator inside the run. */
  function TailEnd(s: string, eq: nat): (e: Option<nat>)
    requires eq <= |s|
    ensures e.Some? ==> eq <= e.value <= |s| && AtLineEnd(s, e.value)
    ensures e.Some? ==> forall i | eq <= i < e.value :: IsSpace(s[i])
  {
    var ws := eq + LeadingSpaces(s[eq..]);
    assert forall i | eq <= i < ws :: IsSpace(s[i]) by {
      assert forall i | eq <= i < ws :: s[i] == s[eq..][i - eq];
    }
    if ws == |s| then Some(|s|)
    else
      match LastLineTerminator(s[eq..ws])
      case Some(k) =>
        assert s[eq..ws][k] == s[eq + k];
        Some(eq + k)
      case None => None
  }

  lemma SeparatorShape(s: string, q: nat, w: nat, eq: nat, e: nat)
    requires q <= w <= eq <= e <= |s|
    requires eq - w >= 10
    requires forall i | q <= i < w :: IsSpace(s[i])
    requires forall i | w <= i < eq :: s[i] == '='
    requires forall i | eq <= i < e :: IsSpace(s[i])
    ensures IsSeparatorText(s[q..e])
  {
    var t := s[q..e];
    var a, b := w - q, eq - q;
    assert forall i | 0 <= i < a :: t[..a][i] == s[q + i];
    assert forall i | 0 <= i < b - a :: t[a..b][i] == s[w + i];
    assert forall i | 0 <= i < |t| - b :: t[b..][i] == s[eq + i];
    assert AllSpace(t[..a]) && AllEquals(t[a..b]) && AllSpace(t[b..]);
  }

  /** Conversely, wherever a separator line starts, `SepEnd` finds a match:
      the regular expression misses no separator. */
  lemma SepEndComplete(s: string, q: nat, e: nat)
    requires q <= e <= |s|
    requires AtLineStart(s, q) && AtLineEnd(s, e)
    requires IsSeparatorText(s[q..e])
    ensures SepEnd(s, q).Some?
  {
    var t := s[q..e];
    var a, b :| 0 <= a <= b <= |t| && b - a >= 10
                && AllSpace(t[..a]) && AllEquals(t[a..b]) && AllSpace(t[b..]);
    var w := q + a;
    var eq := q + b;
    SeparatorIndices(s, q, e, a, b);
    LeadingSpacesExact(s, q, w);
    EqualsRunExact(s, w, eq, e);
    TailEndComplete(s, eq, e);
    SepEndFound(s, q, w, eq);
  }

  lemma SeparatorIndices(s: string, q: nat, e: nat, a: nat, b: nat)
    requires q <= e <= |s| && a <= b <= e - q
    requires AllSpace(s[q..e][..a]) && AllEquals(s[q..e][a..b]) && AllSpace(s[q..e][b..])
    ensures forall i | q <= i < q + a :: IsSpace(s[i])
    ensures forall i | q + a <= i < q + b :: s[i] == '='
    ensures forall i | q + b <= i < e :: IsSpace(s[i])
  {
    var t := s[q..e];
    assert forall i | q <= i < q + a :: s[i] == t[..a][i - q];
    assert forall i | q + a <= i < q + b :: s[i] == t[a..b][i - q - a];
    assert forall i | q + b <= i < e :: s[i] == t[b..][i - q - b];
  }

  lemma SepEndFound(s: string, q: nat, w: nat, eq: nat)
    requires q <= w <= eq <= |s|
    requires AtLineStart(s, q)
    requires q + LeadingSpaces(s[q..]) == w
    requires w + EqualsRun(s[w..]) == eq
    requires eq - w >= 10
    requires TailEnd(s, eq).Some?
    ensures SepEnd(s, q).Some?
  {
    assert EqualsEnd(s, q) == Some(eq);
  }

  lemma TailEndComplete(s: string, eq: nat, e: nat)
    requires eq <= e <= |s|
    requires forall i | eq <= i < e :: IsSpace(s[i])
    requires AtLineEnd(s, e)
    ensures TailEnd(s, eq).Some?
  {
    var ws := eq + LeadingSpaces(s[eq..]);
    SpacesReach(s, eq, e);
    if ws < |s| {
      assert e < |s|;
      assert s[eq..ws][e - eq] == s[e];
    }
  }

  lemma LeadingSpacesExact(s: string, q: nat, w: nat)
    requires q <= w < |s|
    requires forall i | q <= i < w :: IsSpace(s[i])
    requires s[w] == '='
    ensures q + LeadingSpaces(s[q..]) == w
  {
    var x := s[q..];
    assert forall i | 0 <= i < w - q :: IsSpace(x[i]) by {
      assert forall i | 0 <= i < w - q :: x[i] == s[q + i];
    }
    assert x[w - q] == '=';
  }

  lemma EqualsRunExact(s: string, w: nat, eq: nat, e: nat)
    requires w <= eq <= e <= |s|
    requires forall i | w <= i < eq :: s[i] == '='
    requires eq < e ==> IsSpace(s[eq])
    requires eq == e ==> AtLineEnd(s, e)
    ensures w + EqualsRun(s[w..]) == eq
  {
    var x := s[w..];
    assert forall i | 0 <= i < eq - w :: x[i] == '=' by {
      assert forall i | 0 <= i < eq - w :: x[i] == s[w + i];
    }
    assert eq - w < |x| ==> x[eq - w] == s[eq];
  }

  lemma SpacesReach(s: string, eq: nat, e: nat)
    requires eq <= e <= |s|
    requires forall i | eq <= i < e :: IsSpace(s[i])
    requires AtLineEnd(s, e)
    ensures eq + LeadingSpaces(s[eq..]) >= e
    ensures e < |s| ==> eq + LeadingSpaces(s[eq..]) > e
  {
    var x := s[eq..];
    assert forall i | 0 <= i < e - eq :: IsSpace(x[i]) by {
      assert forall i | 0 <= i < e - eq :: x[i] == s[eq + i];
    }
    assert e < |s| ==> x[e - eq] == s[e];
  }

  /** The pieces `split` produces from position `p` on, the next match being
      searched from `q`. */
  function SplitFrom(s: string, p: nat, q: nat): (pieces: seq<string>)
    requires p <= q <= |s|
    ensures |pieces| >= 1
    decreases |s| - q
  {
    if q == |s| then [s[p..]]
    else
      match SepEnd(s, q)
      case None => SplitFrom(s, p, q + 1)
      case Some(e) => [s[p..q]] + SplitFrom(s, e, e)
  }

  /** The separator texts `split` drops, in order. */
  function SeparatorsFrom(s: string, p: nat, q: nat): (seps: seq<string>)
    requires p <= q <= |s|
    ensures forall k | 0 <= k < |seps| :: IsSeparatorText(seps[k])
    decreases |s| - q
  {
    if q == |s| then []
    else
      match SepEnd(s, q)
      case None => SeparatorsFrom(s, p, q + 1)
      case Some(e) => [s[q..e]] + SeparatorsFrom(s, e, e)
  }

  /** `pieces[0] + seps[0] + pieces[1] + ... + pieces[n]`. */
  function Interleave(pieces: seq<string>, seps: seq<string>): string
    requires |pieces| == |seps| + 1
    decreases |seps|
  {
    if |seps| == 0 then pieces[0]
    else pieces[0] + seps[0] + Interleave(pieces[1..], seps[1..])
  }

  /** `split` loses nothing: the pieces with the separators between them
      spell the text again. */
  lemma {:induction false} SplitReassembles(s: string, p: nat, q: nat)
    requires p <= q <= |s|
    ensures |SplitFrom(s, p, q)| == |SeparatorsFrom(s, p, q)| + 1
    ensures Interleave(SplitFrom(s, p, q), SeparatorsFrom(s, p, q)) == s[p..]
    decreases |s| - q
  {
    if q < |s| {
      var m := SepEnd(s, q);
      if m.None? {
        assert SplitFrom(s, p, q) == SplitFrom(s, p, q + 1);
        assert SeparatorsFrom(s, p, q) == SeparatorsFrom(s, p, q + 1);
        SplitReassembles(s, p, q + 1);
      } else {
        var e := m.value;
        SplitReassembles(s, e, e);
        var rest := SplitFrom(s, e, e);
        var restSeps := SeparatorsFrom(s, e, e);
        assert SplitFrom(s, p, q) == [s[p..q]] + rest;
        assert SeparatorsFrom(s, p, q) == [s[q..e]] + restSeps;
        InterleaveCons(s[p..q], s[q..e], rest, restSeps);
        SliceThree(s, p, q, e);
      }
    }
  }

  lemma SliceThree(s: string, p: nat, q: nat, e: nat)
    requires p <= q <= e <= |s|
    ensures s[p..] == s[p..q] + s[q..e] + s[e..]
  {
  }

  lemma InterleaveCons(piece: string, sep: string, pieces: seq<string>, seps: seq<string>)
    requires |pieces| == |seps| + 1
    ensures Interleave([piece] + pieces, [sep] + seps) == piece + sep + Interleave(pieces, seps)
  {
    assert ([piece] + pieces)[1..] == pieces;
    assert ([sep] + seps)[1..] == seps;
  }

  function SplitSeparators(s: string): seq<string> {
    SplitFrom(s, 0, 0)
  }

  /** The chunks of a clippings file. */
  function Chunks(textRaw: string): seq<string> {
    TrimmedNonEmpty(SplitSeparators(NormalizeNewlines(DropBom(textRaw))))
  }

  /** A byte-order mark in front of a file does not change its chunks. */
  lemma ChunksIgnoreBom(t: string)
    requires t == [] || t[0] != Bom
    ensures Chunks([Bom] + t) == Chunks(t)
  {
    assert ([Bom] + t)[1..] == t;
  }

  /** A file saved with CRLF line ends has the chunks of the same file saved
      with LF line ends. */
  lemma CrlfSameChunks(t: string)
    requires '\r' !in t
    ensures Chunks(ExpandNewlines(t)) == Chunks(t)
  {
    ExpandDropBom(t);
    NormalizeExpand(DropBom(t));
    assert '\r' !in DropBom(t);
  }

  /** Writing LF as CRLF commutes with dropping the byte-order mark. */
  lemma ExpandDropBom(t: string)
    ensures DropBom(ExpandNewlines(t)) == ExpandNewlines(DropBom(t))
  {
    if |t| > 0 && t[0] == Bom {
      assert ExpandNewlines(t) == [Bom] + ExpandNewlines(t[1..]);
      assert ([Bom] + ExpandNewlines(t[1..]))[1..] == ExpandNewlines(t[1..]);
    } else if |t| > 0 {
      assert ExpandNewlines(t)[0] != Bom;
    }
  }
}

=== FILE: collections.dfy ===
/** Facts about sequences of identifiers shared by the selection and the
    controllers: duplicate freedom and how it survives permutation, slicing
    and concatenation. */
module Collections {

  predicate Distinct<T(==)>(s: seq<T>) {
    forall p, q | 0 <= p < q < |s| :: s[p] != s[q]
  }

  function Min(a: int, b: int): (m: int)
    ensures m <= a && m <= b
    ensures m == a || m == b
  {
    if a <= b then a else b
  }

  function Max(a: int, b: int): (m: int)
    ensures m >= a && m >= b
    ensures m == a || m == b
  {
    if a >= b then a else b
  }

  /** A permutation of a duplicate-free sequence is duplicate-free. */
  lemma PermutationKeepsDistinct<T>(a: seq<T>, b: seq<T>)
    requires multiset(a) == multiset(b)
    requires Distinct(a)
    ensures Distinct(b)
  {
    forall p, q | 0 <= p < q < |b|
      ensures b[p] != b[q]
    {
      if b[p] == b[q] {
        var x := b[p];
        assert multiset(b)[x] >= 2 by {
          assert b == b[..q] + [b[q]] + b[q + 1..];
          assert b[p] in multiset(b[..q]);
        }
        DistinctCountsOne(a, x);
        assert false;
      }
    }
  }

  lemma DistinctCountsOne<T>(a: seq<T>, x: T)
    requires Distinct(a)
    ensures multiset(a)[x] <= 1
  {
    if |a| > 0 {
      assert a == [a[0]] + a[1..];
      DistinctCountsOne(a[1..], x);
      if a[0] == x {
        assert x !in a[1..];
      }
    }
  }

  /** Two duplicate-free sequences with no common element concatenate to a
      duplicate-free sequence. */
  lemma DistinctConcat<T>(a: seq<T>, b: seq<T>)
    requires Distinct(a) && Distinct(b)
    requires forall k | 0 <= k < |b| :: b[k] !in a
    ensures Distinct(a + b)
  {
    var c := a + b;
    forall p, q | 0 <= p < q < |c|
      ensures c[p] != c[q]
    {
      if p < |a| && q >= |a| {
        assert c[q] == b[q - |a|];
        assert c[p] in a;
      }
    }
  }
}

=== FILE: config.dfy ===
/** The settings the core reads from the environment (`src/config/index.js`),
    with their defaults. `parseInt` of a non-numeric `NO_REPEAT_DAYS` gives
    NaN, modelled as `None`. */
module Config {
  import opened Wrappers
  import opened Window

  datatype Settings = Settings(
    tz: string,
    mode: WindowMode,
    defaultLimit: int,
    maxLimit: nat,
    noRepeatDays: Option<int>)

  /** The values used when no environment variable is set. */
  const Defaults: Settings :=
    Settings("Asia/Dhaka", ModeOf("daily"), 5, 10, Some(15))
}

=== FILE: highlights_query.dfy ===
/** The request-parameter logic of the admin listing endpoints
    (`src/controllers/highlights.controller.js`): boolean and bounded
    integer parsing, page arithmetic and `hasNext`, the language list, the
    projection and the two sort specifications. A query parameter is
    `None` when it is absent (`undefined`). The MongoDB queries themselves
    are represented by the page of an already filtered and sorted result. */
module HighlightsQuery {
  import opened Wrappers
  import opened JsText
  import opened Collections

  // ---------------------------------------------------------------------------
  // parseBool and parseIntBound

  /** `parseBool(v, def)`. */
  function ParseBool(v: Option<string>, def: bool): (b: bool)
    ensures v.None? ==> b == def
    ensures v.Some? ==>
              (b <==> v.value == "1" || EqualsIgnoringCase(v.value, "true") || EqualsIgnoringCase(v.value, "yes"))
  {
    match v
    case None => def
    case Some(s) =>
      var t := Lower(s);
      assert t == "1" <==> s == "1" by {
        if |s| == 1 {
          assert LowerChar(s[0]) == '1' <==> s[0] == '1';
        }
      }
      assert t == "true" <==> EqualsIgnoringCase(s, "true");
      assert t == "yes" <==> EqualsIgnoringCase(s, "yes");
      t == "1" || t == "true" || t == "yes"
  }

  /** `parseInt(v, 10)` of a query parameter: an absent one is NaN. */
  function ParseParam(v: Option<string>): Option<int> {
    match v
    case None => None
    case Some(s) => ParseInt(s)
  }

  /** `parseIntBound(v, def, min, max)`: the default when the value does not
      parse, otherwise the value clamped into `[min, max]`. */
  function ParseIntBound(v: Option<string>, def: int, min: int, max: int): (n: int)
    ensures ParseParam(v).None? ==> n == def
    ensures ParseParam(v).Some? ==> n <= max
    ensures ParseParam(v).Some? && min <= max ==> min <= n
    ensures ParseParam(v).Some? && min <= ParseParam(v).value <= max ==> n == ParseParam(v).value
    ensures ParseParam(v).Some? && min <= max && ParseParam(v).value < min ==> n == min
    ensures ParseParam(v).Some? && ParseParam(v).value > max ==> n == max
  {
    match ParseParam(v)
    case None => def
    case Some(p) => Min(Max(p, min), max)
  }

  // ---------------------------------------------------------------------------
  // Pagination

  datatype Paging = Paging(page: int, limit: int, skip: int)

  const MaxPage: int := 1_000_000
  const MaxLimit: int := 100

  /** `pageNum`, `limitNum` and `skip`, with the defaults "1" and "20" for
      absent parameters. */
  function PagingOf(page: Option<string>, limit: Option<string>): (p: Paging)
    ensures 1 <= p.page <= MaxPage
    ensures 1 <= p.limit <= MaxLimit
    ensures p.skip == (p.page - 1) * p.limit && p.skip >= 0
    ensures page.None? ==> p.page == 1
    ensures limit.None? ==> p.limit == 20
    ensures page.Some? ==> p.page == ParseIntBound(page, 1, 1, MaxPage)
    ensures limit.Some? ==> p.limit == ParseIntBound(limit, 20, 1, MaxLimit)
  {
    DefaultsParse();
    var pageNum := ParseIntBound(Some(page.GetOr("1")), 1, 1, MaxPage);
    var limitNum := ParseIntBound(Some(limit.GetOr("20")), 20, 1, MaxLimit);
    assert 1 <= pageNum && 1 <= limitNum;
    ProductNonNegative(pageNum - 1, limitNum);
    Paging(pageNum, limitNum, (pageNum - 1) * limitNum)
  }

  lemma ProductNonNegative(a: int, b: int)
    requires a >= 0 && b >= 0
    ensures a * b >= 0
  {
  }

  /** The rows a query returns after `.skip(skip).limit(limit)`. */
  function PageOf<T>(rows: seq<T>, skip: nat, limit: nat): (page: seq<T>)
    ensures |page| == Min(limit, Max(|rows| - skip, 0))
    ensures forall i | 0 <= i < |page| :: page[i] == rows[skip + i]
  {
    if skip >= |rows| then [] else rows[skip..Min(skip + limit, |rows|)]
  }

  /** `hasNext: skip + items.length < total`. */
  predicate HasNext(skip: int, returned: int, total: int) {
    skip + returned < total
  }

  /** With a positive page size, `hasNext` is true exactly when the next
      page holds at least one row. */
  lemma HasNextIffMoreRows<T>(rows: seq<T>, skip: nat, limit: nat)
    requires limit >= 1
    ensures HasNext(skip, |PageOf(rows, skip, limit)|, |rows|) <==> PageOf(rows, skip + limit, limit) != []
  {
    var n := |PageOf(rows, skip, limit)|;
    if skip + limit < |rows| {
      assert n == limit;
      assert |PageOf(rows, skip + limit, limit)| >= 1;
    } else {
      assert skip + n >= |rows|;
    }
  }

  /** Consecutive pages are adjacent slices of the result: no row is
      skipped or served twice. */
  lemma PagesAdjacent<T>(rows: seq<T>, skip: nat, limit: nat)
    ensures PageOf(rows, skip, limit) + PageOf(rows, skip + limit, limit) == PageOf(rows, skip, 2 * limit)
  {
    var a := PageOf(rows, skip, limit);
    var b := PageOf(rows, skip + limit, limit);
    var c := PageOf(rows, skip, 2 * limit);
    assert |a| + |b| == |c|;
    forall i | 0 <= i < |c|
      ensures (a + b)[i] == c[i]
    {
      if i >= |a| {
        assert |a| == limit;
        assert b[i - |a|] == rows[skip + limit + (i - |a|)];
      }
    }
  }

  // ---------------------------------------------------------------------------
  // Language list and projection

  /** The `lang` filter: the comma-separated, trimmed, non-empty names, or
      no filter when there are none. */
  function LangFilter(lang: Option<string>): (r: Option<seq<string>>)
    ensures r.Some? <==> lang.Some? && exists k | 0 <= k < |Split(lang.value, ',')| :: Trim(Split(lang.value, ',')[k]) != []
    ensures r.Some? ==> r.value == TrimmedNonEmpty(Split(lang.value, ','))
    ensures r.Some? ==> |r.value| > 0
    ensures r.Some? ==> forall k | 0 <= k < |r.value| ::
              r.value[k] != [] && ',' !in r.value[k] && Trim(r.value[k]) == r.value[k]
  {
    if lang.None? then None
    else if lang.value == [] then
      assert Split(lang.value, ',') == [[]];
      None
    else
      var pieces := Split(lang.value, ',');
      KeptIffSomeNonBlank(pieces);
      var langs := TrimmedNonEmpty(pieces);
      if |langs| == 0 then None
      else
        assert forall k | 0 <= k < |langs| :: ',' !in langs[k] && Trim(langs[k]) == langs[k] by {
          forall k | 0 <= k < |langs|
            ensures ',' !in langs[k] && Trim(langs[k]) == langs[k]
          {
            assert langs[k] in langs;
            var j :| 0 <= j < |pieces| && Trim(pieces[j]) == langs[k];
            TrimKeepsAbsent(pieces[j], ',');
            TrimIdempotent(pieces[j]);
          }
        }
        Some(langs)
  }

  /** The filter keeps something exactly when some piece is not blank. */
  lemma KeptIffSomeNonBlank(pieces: seq<string>)
    ensures TrimmedNonEmpty(pieces) != [] <==> exists k | 0 <= k < |pieces| :: Trim(pieces[k]) != []
  {
    var kept := TrimmedNonEmpty(pieces);
    if kept != [] {
      assert kept[0] in kept;
    }
    if exists k | 0 <= k < |pieces| :: Trim(pieces[k]) != [] {
      var k :| 0 <= k < |pieces| && Trim(pieces[k]) != [];
      assert Trim(pieces[k]) in kept;
    }
  }

  /** `parseInt` reads the defaults "1" and "20" as 1 and 20. */
  lemma DefaultsParse()
    ensures ParseParam(Some("1")) == Some(1)
    ensures ParseParam(Some("20")) == Some(20)
  {
    assert IntToString(1) == "1";
    ParseIntOfIntToString("", 1, "");
    assert "" + IntToString(1) + "" == "1";
    assert IntToString(20) == Decimal(2) + [DigitChar(0)];
    assert IntToString(20) == "20";
    ParseIntOfIntToString("", 20, "");
    assert "" + IntToString(20) + "" == "20";
  }

  /** Trimming removes characters, it never adds them. */
  lemma TrimKeepsAbsent(s: string, c: char)
    requires c !in s
    ensures c !in Trim(s)
  {
    var x, y := TrimParts(s);
    assert forall i | 0 <= i < |Trim(s)| :: Trim(s)[i] == s[|x| + i];
  }

  /** A list of clean language names written with commas is read back as
      the same list. */
  lemma LangFilterOfList(langs: seq<string>)
    requires |langs| > 0
    requires forall k | 0 <= k < |langs| :: langs[k] != [] && ',' !in langs[k] && Trim(langs[k]) == langs[k]
    ensures LangFilter(Some(Join(langs, ","))) == Some(langs)
  {
    var s := Join(langs, ",");
    assert s != [] by {
      JoinStartsWithFirst(langs, ",");
    }
    SplitJoin(langs, ',');
    assert "," == [','];
    TrimmedNonEmptyKeeps(langs);
  }

  /** White space around a name is dropped: "en, bn" filters on
      `["en", "bn"]`. */
  lemma LangFilterTrimsNames()
    ensures LangFilter(Some("en, bn")) == Some(["en", "bn"])
  {
    SplitEnBn();
    KeptEnBn();
  }

  /** Empty entries are dropped: "en,,bn" filters on `["en", "bn"]`. */
  lemma LangFilterDropsEmpty()
    ensures LangFilter(Some("en,,bn")) == Some(["en", "bn"])
  {
    SplitEnEmptyBn();
    KeptEnEmptyBn();
  }

  lemma SplitEnBn()
    ensures Split("en, bn", ',') == ["en", " bn"]
  {
    assert Join(["en", " bn"], ",") == "en, bn";
    SplitJoin(["en", " bn"], ',');
  }

  lemma SplitEnEmptyBn()
    ensures Split("en,,bn", ',') == ["en", "", "bn"]
  {
    assert Join(["en", "", "bn"], ",") == "en,,bn";
    SplitJoin(["en", "", "bn"], ',');
  }

  /** A name without white space at either end is kept as it is. */
  lemma KeptClean(w: string)
    requires w != [] && !IsSpace(w[0]) && !IsSpace(w[|w| - 1])
    ensures TrimmedNonEmpty([w]) == [w]
  {
    TrimOfPadded([], w, []);
    assert [] + w + [] == w;
    TrimmedNonEmptyOne(w);
  }

  /** A name after one space is kept without the space. */
  lemma KeptAfterSpace(w: string)
    requires w != [] && !IsSpace(w[0]) && !IsSpace(w[|w| - 1])
    ensures TrimmedNonEmpty([" " + w]) == [w]
  {
    TrimOfPadded(" ", w, []);
    assert " " + w + [] == " " + w;
    TrimmedNonEmptyOne(" " + w);
  }

  lemma KeptEnBn()
    ensures TrimmedNonEmpty(["en", " bn"]) == ["en", "bn"]
  {
    KeptClean("en");
    KeptAfterSpace("bn");
    TrimmedNonEmptyConcat(["en"], [" bn"]);
    assert ["en"] + [" bn"] == ["en", " bn"];
  }

  lemma KeptEnEmptyBn()
    ensures TrimmedNonEmpty(["en", "", "bn"]) == ["en", "bn"]
  {
    KeptClean("en");
    KeptClean("bn");
    TrimmedNonEmptyOne("");
    TrimmedNonEmptyConcat([""], ["bn"]);
    assert [""] + ["bn"] == ["", "bn"];
    TrimmedNonEmptyConcat(["en"], ["", "bn"]);
    assert ["en"] + ["", "bn"] == ["en", "", "bn"];
  }

  lemma JoinStartsWithFirst(ws: seq<string>, sep: string)
    requires |ws| > 0
    ensures |Join(ws, sep)| >= |ws[0]|
  {
  }

  /** The fields returned by default. */
  const DefaultProjection: set<string> :=
    {"bookTitle", "author", "content", "location", "page", "dateAdded", "lang", "lastServedAt", "createdAt"}

  /** The projection: the default fields, or exactly the trimmed non-empty
      names listed in `select`. */
  function Projection(select: Option<string>): (fields: set<string>)
    ensures select.None? || select.value == [] ==> fields == DefaultProjection
    ensures select.Some? && select.value != [] ==>
              forall f :: f in fields <==>
                f != [] && exists k | 0 <= k < |Split(select.value, ',')| :: Trim(Split(select.value, ',')[k]) == f
  {
    if select.None? || select.value == [] then DefaultProjection
    else
      var names := TrimmedNonEmpty(Split(select.value, ','));
      set f | f in names
  }

  // ---------------------------------------------------------------------------
  // Sorting

  datatype SortKey = SortKey(field: string, order: int)

  const AllowedSort: set<string> := {"dateAdded", "createdAt", "lastServedAt"}

  /** The sort of `listHighlights`: a whitelisted field (default
      `dateAdded`), ascending only for "asc" in any case, then `_id`
      descending. */
  function HighlightSort(sortBy: Option<string>, sortOrder: Option<string>): (keys: seq<SortKey>)
    ensures |keys| == 2
    ensures keys[0].field in AllowedSort
    ensures sortBy.Some? && sortBy.value in AllowedSort ==> keys[0].field == sortBy.value
    ensures keys[0].field != "dateAdded" ==> sortBy == Some(keys[0].field)
    ensures keys[0].order == 1 || keys[0].order == -1
    ensures keys[0].order == 1 <==> sortOrder.Some? && EqualsIgnoringCase(sortOrder.value, "asc")
    ensures keys[1] == SortKey("_id", -1)
  {
    var wanted := sortBy.GetOr("dateAdded");
    var field := if wanted in AllowedSort then wanted else "dateAdded";
    var ord := Lower(sortOrder.GetOr("desc"));
    assert sortOrder.None? ==> ord == "desc";
    assert sortOrder.Some? ==> (ord == "asc" <==> EqualsIgnoringCase(sortOrder.value, "asc"));
    [SortKey(field, if ord == "asc" then 1 else -1), SortKey("_id", -1)]
  }

  /** The sort of `listBooks`: "bookTitle" and "lastAdded" are recognised,
      anything else sorts by `count`; ascending only for exactly "asc". */
  function BooksSort(sortBy: Option<string>, sortOrder: Option<string>): (key: SortKey)
    ensures key.field == "bookTitle" || key.field == "lastAdded" || key.field == "count"
    ensures key.field != "count" ==> sortBy == Some(key.field)
    ensures sortBy == Some("bookTitle") || sortBy == Some("lastAdded") ==> key.field == sortBy.value
    ensures key.order == 1 <==> sortOrder == Some("asc")
    ensures key.order == 1 || key.order == -1
  {
    var wanted := sortBy.GetOr("count");
    var field := if wanted == "bookTitle" || wanted == "lastAdded" then wanted else "count";
    var ord := sortOrder.GetOr("desc");
    SortKey(field, if ord == "asc" then 1 else -1)
  }

  /** The two endpoints disagree on "ASC": the highlight listing ascends,
      the book listing descends. */
  lemma SortOrderCaseDiffers()
    ensures HighlightSort(None, Some("ASC"))[0].order == 1
    ensures BooksSort(None, Some("ASC")).order == -1
  {
    assert EqualsIgnoringCase("ASC", "asc");
  }

  /** The highlight sort does not depend on the case of `sortOrder`. */
  lemma HighlightSortIgnoresCase(sortBy: Option<string>, s: string, t: string)
    requires Lower(s) == Lower(t)
    ensures HighlightSort(sortBy, Some(s)) == HighlightSort(sortBy, Some(t))
  {
    assert EqualsIgnoringCase(s, "asc") <==> EqualsIgnoringCase(t, "asc") by {
      assert forall i | 0 <= i < |s| :: LowerChar(s[i]) == Lower(s)[i];
      assert forall i | 0 <= i < |t| :: LowerChar(t[i]) == Lower(t)[i];
    }
  }
}

=== FILE: js_text.dfy ===
/** The JavaScript string primitives the services rely on: ECMAScript white
    space, `trim`, `split` on one character, `join`, ASCII `toLowerCase`,
    `startsWith` and `parseInt(v, 10)`. Strings are sequences of Unicode
    scalar values. */
module JsText {
  import opened Wrappers

  /** ECMAScript LineTerminator: LF, CR, LINE SEPARATOR, PARAGRAPH SEPARATOR. */
  predicate IsLineTerminator(c: char) {
    c == '\n' || c == '\r' || c == '\U{2028}' || c == '\U{2029}'
  }

  /** ECMAScript WhiteSpace or LineTerminator: what `trim` strips, what
      `parseInt` skips and what the regular-expression class `\s` matches. */
  predicate IsSpace(c: char) {
    || IsLineTerminator(c)
    || c == '\t' || c == '\U{000B}' || c == '\U{000C}' || c == ' '
    || c == '\U{00A0}' || c == '\U{FEFF}' || c == '\U{1680}'
    || ('\U{2000}' <= c <= '\U{200A}')
    || c == '\U{202F}' || c == '\U{205F}' || c == '\U{3000}'
  }

  predicate AllSpace(s: string) {
    forall i | 0 <= i < |s| :: IsSpace(s[i])
  }

  /** Number of white-space characters at the front of `s`. */
  function LeadingSpaces(s: string): (n: nat)
    ensures n <= |s|
    ensures forall i | 0 <= i < n :: IsSpace(s[i])
    ensures n < |s| ==> !IsSpace(s[n])
  {
    if |s| > 0 && IsSpace(s[0]) then 1 + LeadingSpaces(s[1..]) else 0
  }

  /** Number of white-space characters at the end of `s`. */
  function TrailingSpaces(s: string): (n: nat)
    ensures n <= |s|
    ensures forall i | |s| - n <= i < |s| :: IsSpace(s[i])
    ensures n < |s| ==> !IsSpace(s[|s| - 1 - n])
  {
    if |s| > 0 && IsSpace(s[|s| - 1]) then 1 + TrailingSpaces(s[..|s| - 1]) else 0
  }

  function TrimStart(s: string): string {
    s[LeadingSpaces(s)..]
  }

  function TrimEnd(s: string): string {
    s[..|s| - TrailingSpaces(s)]
  }

  /** `String.prototype.trim`: the infix left after removing white space from
      both ends. It is empty exactly when `s` is all white space. */
  function Trim(s: string): (r: string)
    ensures r == [] <==> AllSpace(s)
    ensures r != [] ==> !IsSpace(r[0]) && !IsSpace(r[|r| - 1])
  {
    TrimEnd(TrimStart(s))
  }

  lemma TrimIdempotent(s: string)
    ensures Trim(Trim(s)) == Trim(s)
  {
    var r := Trim(s);
    if r != [] {
      assert LeadingSpaces(r) == 0;
      assert TrailingSpaces(r) == 0;
    }
  }

  lemma {:induction false} TrailingSpacesOfSuffix(rest: string, ws: string)
    requires AllSpace(ws)
    requires rest == [] || !IsSpace(rest[|rest| - 1])
    ensures TrailingSpaces(rest + ws) == |ws|
  {
    if |ws| > 0 {
      var s := rest + ws;
      assert s[..|s| - 1] == rest + ws[..|ws| - 1];
      TrailingSpacesOfSuffix(rest, ws[..|ws| - 1]);
    } else {
      assert rest + ws == rest;
    }
  }

  /** `trim` removes exactly the white space around a word that neither
      starts nor ends with white space. */
  lemma TrimOfPadded(x: string, r: string, y: string)
    requires AllSpace(x) && AllSpace(y)
    requires r != [] && !IsSpace(r[0]) && !IsSpace(r[|r| - 1])
    ensures Trim(x + r + y) == r
  {
    var s := x + r + y;
    assert s == x + (r + y);
    LeadingSpacesOfPrefix(x, r + y);
    assert TrimStart(s) == r + y;
    TrailingSpacesOfSuffix(r, y);
    assert (r + y)[..|r|] == r;
  }

  lemma AllSpaceConcat(a: string, b: string)
    requires AllSpace(a) && AllSpace(b)
    ensures AllSpace(a + b)
  {
  }

  /** A string is its trim with white space on either side. */
  lemma TrimParts(s: string) returns (x: string, y: string)
    ensures s == x + Trim(s) + y
    ensures AllSpace(x) && AllSpace(y)
  {
    var a := LeadingSpaces(s);
    var r := Trim(s);
    x := s[..a];
    y := s[a + |r|..];
    assert s[a..a + |r|] == r;
    assert s == x + s[a..a + |r|] + y;
  }

  /** White space appended to a string does not change its trim. */
  lemma TrimIgnoresTrailingSpace(a: string, w: string)
    requires AllSpace(w)
    ensures Trim(a + w) == Trim(a)
  {
    if AllSpace(a) {
      AllSpaceConcat(a, w);
    } else {
      var r := Trim(a);
      var x, y := TrimParts(a);
      AllSpaceConcat(y, w);
      RegroupEnd(x, r, y, w);
      TrimOfPadded(x, r, y + w);
    }
  }

  /** White space prepended to a string does not change its trim. */
  lemma TrimIgnoresLeadingSpace(w: string, a: string)
    requires AllSpace(w)
    ensures Trim(w + a) == Trim(a)
  {
    if AllSpace(a) {
      AllSpaceConcat(w, a);
    } else {
      var r := Trim(a);
      var x, y := TrimParts(a);
      AllSpaceConcat(w, x);
      Regroup(w, x, r, y);
      TrimOfPadded(w + x, r, y);
    }
  }

  lemma RegroupEnd(x: string, r: string, y: string, w: string)
    ensures (x + r + y) + w == x + r + (y + w)
  {
  }

  lemma Regroup(w: string, x: string, r: string, y: string)
    ensures w + (x + r + y) == (w + x) + r + y
  {
  }

  /** JavaScript truthiness of `s.trim()`: false exactly for blank strings. */
  predicate IsBlank(s: string) {
    Trim(s) == []
  }

  /** ASCII `toLowerCase`. */
  function LowerChar(c: char): char {
    if 'A' <= c <= 'Z' then (c as int + 32) as char else c
  }

  function Lower(s: string): (r: string)
    ensures |r| == |s|
    ensures forall i | 0 <= i < |s| :: r[i] == LowerChar(s[i])
  {
    seq(|s|, i requires 0 <= i < |s| => LowerChar(s[i]))
  }

  predicate IsUpper(c: char) {
    'A' <= c <= 'Z'
  }

  /** No ASCII capital letter. */
  predicate NoUpper(s: string) {
    forall i | 0 <= i < |s| :: !IsUpper(s[i])
  }

  /** `s` spells the lower-case ASCII `word` in any case. */
  predicate EqualsIgnoringCase(s: string, word: string) {
    |s| == |word| && forall i | 0 <= i < |s| :: LowerChar(s[i]) == word[i]
  }

  /** `toLowerCase` leaves no ASCII capital, changes only capitals, and maps
      each capital to the letter 32 code points later. */
  lemma LowerLowers(s: string)
    ensures NoUpper(Lower(s))
    ensures forall i | 0 <= i < |s| && !IsUpper(s[i]) :: Lower(s)[i] == s[i]
    ensures forall i | 0 <= i < |s| && IsUpper(s[i]) :: Lower(s)[i] as int == s[i] as int + 32
  {
  }

  /** Lower-casing twice is lower-casing once. */
  lemma LowerIdempotent(s: string)
    ensures Lower(Lower(s)) == Lower(s)
  {
    LowerLowers(s);
    LowerOfLower(Lower(s));
  }

  /** Text without capitals is its own lower-case form. */
  lemma LowerOfLower(w: string)
    requires NoUpper(w)
    ensures Lower(w) == w
  {
  }

  /** Comparing `s.toLowerCase()` with a lower-case word is a comparison
      ignoring ASCII case. */
  lemma LowerEqualsIgnoringCase(s: string, w: string)
    requires NoUpper(w)
    ensures Lower(s) == w <==> EqualsIgnoringCase(s, w)
  {
    if EqualsIgnoringCase(s, w) {
      assert forall i | 0 <= i < |s| :: Lower(s)[i] == w[i];
    }
  }

  predicate StartsWith(s: string, prefix: string) {
    |prefix| <= |s| && s[..|prefix|] == prefix
  }

  /** Position of the first `c` in `s`, or `|s|` when there is none. */
  function IndexOf<T(==)>(s: seq<T>, c: T): (i: nat)
    ensures i <= |s|
    ensures i < |s| ==> s[i] == c
    ensures forall k | 0 <= k < i :: s[k] != c
  {
    if |s| == 0 || s[0] == c then 0 else 1 + IndexOf(s[1..], c)
  }

  /** `Array.prototype.join(sep)`. */
  function Join(ws: seq<string>, sep: string): string
  {
    if |ws| == 0 then ""
    else if |ws| == 1 then ws[0]
    else ws[0] + sep + Join(ws[1..], sep)
  }

  /** `String.prototype.split(sep)` for a one-character separator: the
      pieces between consecutive occurrences of `sep`. Joining the pieces
      back with `sep` gives `s` again. */
  function Split(s: string, sep: char): (pieces: seq<string>)
    ensures |pieces| >= 1
    ensures forall k | 0 <= k < |pieces| :: sep !in pieces[k]
    ensures Join(pieces, [sep]) == s
    decreases |s|
  {
    var i := IndexOf(s, sep);
    if i == |s| then
      assert s[..i] == s;
      [s]
    else
      var rest := Split(s[i + 1..], sep);
      assert s == s[..i] + [sep] + s[i + 1..];
      [s[..i]] + rest
  }

  /** `.map((c) => c.trim()).filter(Boolean)`: the non-empty trimmed pieces,
      in order. */
  function TrimmedNonEmpty(pieces: seq<string>): (chunks: seq<string>)
    ensures |chunks| <= |pieces|
    ensures forall k | 0 <= k < |chunks| ::
              chunks[k] != [] && !IsSpace(chunks[k][0]) && !IsSpace(chunks[k][|chunks[k]| - 1])
    ensures forall x :: x in chunks <==> x != [] && exists k | 0 <= k < |pieces| :: Trim(pieces[k]) == x
  {
    if |pieces| == 0 then []
    else
      var c := Trim(pieces[0]);
      var rest := TrimmedNonEmpty(pieces[1..]);
      assert forall k | 1 <= k < |pieces| :: pieces[k] == pieces[1..][k - 1];
      (if c == [] then [] else [c]) + rest
  }

  /** The filter works piece by piece: it commutes with concatenation, so
      the chunks keep the order and the multiplicity of their pieces. */
  lemma {:induction false} TrimmedNonEmptyConcat(p: seq<string>, q: seq<string>)
    ensures TrimmedNonEmpty(p + q) == TrimmedNonEmpty(p) + TrimmedNonEmpty(q)
  {
    if |p| > 0 {
      assert (p + q)[0] == p[0];
      assert (p + q)[1..] == p[1..] + q;
      TrimmedNonEmptyConcat(p[1..], q);
    } else {
      assert p + q == q;
    }
  }

  /** One piece gives its trim, or nothing when the trim is empty. */
  lemma TrimmedNonEmptyOne(piece: string)
    ensures TrimmedNonEmpty([piece]) == if Trim(piece) == [] then [] else [Trim(piece)]
  {
    assert [piece][1..] == [];
  }

  /** Pieces that are already trimmed and non-empty pass through unchanged. */
  lemma {:induction false} TrimmedNonEmptyKeeps(pieces: seq<string>)
    requires forall k | 0 <= k < |pieces| :: pieces[k] != [] && Trim(pieces[k]) == pieces[k]
    ensures TrimmedNonEmpty(pieces) == pieces
  {
    if |pieces| > 0 {
      TrimmedNonEmptyKeeps(pieces[1..]);
      assert [pieces[0]] + pieces[1..] == pieces;
    }
  }

  /** The other direction of the round trip: splitting a join of
      separator-free words gives the words back. */
  lemma {:induction false} SplitJoin(ws: seq<string>, sep: char)
    requires |ws| >= 1
    requires forall k | 0 <= k < |ws| :: sep !in ws[k]
    ensures Split(Join(ws, [sep]), sep) == ws
  {
    if |ws| == 1 {
      assert IndexOf(ws[0], sep) == |ws[0]|;
    } else {
      var s := Join(ws, [sep]);
      var w := ws[0];
      assert s == w + [sep] + Join(ws[1..], [sep]);
      var i := IndexOf(s, sep);
      assert s[|w|] == sep;
      assert forall k | 0 <= k < |w| :: s[k] == w[k];
      assert i == |w|;
      assert s[..i] == w;
      assert s[i + 1..] == Join(ws[1..], [sep]);
      SplitJoin(ws[1..], sep);
    }
  }

  // ---------------------------------------------------------------------------
  // Decimal digits and parseInt

  predicate IsDigit(c: char) {
    '0' <= c <= '9'
  }

  predicate AllDigits(s: string) {
    forall i | 0 <= i < |s| :: IsDigit(s[i])
  }

  function DigitValue(c: char): nat
    requires IsDigit(c)
  {
    c as int - '0' as int
  }

  function DigitChar(d: nat): (c: char)
    requires d < 10
    ensures IsDigit(c) && DigitValue(c) == d
  {
    ('0' as int + d) as char
  }

  /** The number written by a run of decimal digits, most significant first. */
  function DigitsValue(ds: string): nat
    requires AllDigits(ds)
  {
    if |ds| == 0 then 0 else 10 * DigitsValue(ds[..|ds| - 1]) + DigitValue(ds[|ds| - 1])
  }

  /** Length of the longest run of digits at the front of `s`. */
  function DigitRun(s: string): (n: nat)
    ensures n <= |s|
    ensures AllDigits(s[..n])
    ensures n < |s| ==> !IsDigit(s[n])
  {
    if |s| > 0 && IsDigit(s[0]) then
      var n := 1 + DigitRun(s[1..]);
      assert s[..n] == [s[0]] + s[1..][..n - 1];
      n
    else 0
  }

  /** The shortest decimal rendering of `n`. */
  function Decimal(n: nat): (r: string)
    ensures |r| >= 1
    ensures AllDigits(r)
    ensures DigitsValue(r) == n
    ensures r[0] == '0' ==> n == 0
  {
    if n < 10 then [DigitChar(n)]
    else
      var r := Decimal(n / 10) + [DigitChar(n % 10)];
      assert r[..|r| - 1] == Decimal(n / 10);
      r
  }

  /** `String(n)` for an integer. */
  function IntToString(n: int): string {
    if n < 0 then "-" + Decimal(-n) else Decimal(n)
  }

  /** `parseInt(s, 10)`: skip leading white space, read an optional sign and
      the longest run of decimal digits; `None` (NaN) when there is no digit.
      Any text after the digits is ignored. */
  function ParseInt(s: string): (r: Option<int>)
    ensures (forall i | 0 <= i < |s| :: !IsDigit(s[i])) ==> r.None?
  {
    var t := TrimStart(s);
    assert forall k | 0 <= k < |t| :: t[k] == s[|s| - |t| + k];
    ParseSigned(t)
  }

  /** `parseInt` after the leading white space. */
  function ParseSigned(t: string): (r: Option<int>)
    ensures r.Some? ==> exists k | 0 <= k < |t| :: IsDigit(t[k])
  {
    if |t| > 0 && t[0] == '-' then
      match ParseUnsigned(t[1..])
      case Some(v) => Some(-(v as int))
      case None => None
    else if |t| > 0 && t[0] == '+' then ParseUnsigned(t[1..])
    else ParseUnsigned(t)
  }

  /** The value of the run of digits at the front of `t`, if there is one. */
  function ParseUnsigned(t: string): (r: Option<nat>)
    ensures r.Some? <==> |t| > 0 && IsDigit(t[0])
  {
    var n := DigitRun(t);
    if n == 0 then None else Some(DigitsValue(t[..n]))
  }

  /** `parseInt` reads back what `String(n)` writes, whatever white space
      precedes it and whatever non-digit text follows it. */
  lemma ParseIntOfIntToString(ws: string, n: int, rest: string)
    requires AllSpace(ws)
    requires rest == [] || !IsDigit(rest[0])
    ensures ParseInt(ws + IntToString(n) + rest) == Some(n)
  {
    var t := IntToString(n) + rest;
    assert ws + IntToString(n) + rest == ws + t;
    LeadingSpacesOfPrefix(ws, t);
    assert TrimStart(ws + t) == t;
    ParseSignedOfIntToString(n, rest);
  }

  lemma ParseSignedOfIntToString(n: int, rest: string)
    requires rest == [] || !IsDigit(rest[0])
    ensures ParseSigned(IntToString(n) + rest) == Some(n)
  {
    if n < 0 {
      NegativeOfIntToString(n, rest);
    } else {
      var d := Decimal(n);
      assert IntToString(n) + rest == d + rest;
      ParseUnsignedOfDecimal(d, rest);
      assert IsDigit((d + rest)[0]);
    }
  }

  lemma NegativeOfIntToString(n: int, rest: string)
    requires n < 0
    requires rest == [] || !IsDigit(rest[0])
    ensures ParseSigned(IntToString(n) + rest) == Some(n)
  {
    var d := Decimal(-n);
    var t := IntToString(n) + rest;
    SignThenDigits(d, rest);
    ParseUnsignedOfDecimal(d, rest);
    NegativeSign(t, DigitsValue(d));
  }

  lemma SignThenDigits(d: string, rest: string)
    ensures ("-" + d + rest)[0] == '-' && ("-" + d + rest)[1..] == d + rest
  {
  }

  /** A leading minus sign negates the value of the digits after it. */
  lemma NegativeSign(t: string, v: nat)
    requires |t| > 0 && t[0] == '-'
    requires ParseUnsigned(t[1..]) == Some(v)
    ensures ParseSigned(t) == Some(-(v as int))
  {
  }

  lemma ParseUnsignedOfDecimal(d: string, rest: string)
    requires AllDigits(d) && |d| > 0
    requires rest == [] || !IsDigit(rest[0])
    ensures ParseUnsigned(d + rest) == Some(DigitsValue(d))
  {
    DigitRunOfDigits(d, rest);
    assert (d + rest)[..|d|] == d;
  }

  lemma LeadingSpacesOfPrefix(ws: string, rest: string)
    requires AllSpace(ws)
    requires rest == [] || !IsSpace(rest[0])
    ensures LeadingSpaces(ws + rest) == |ws|
  {
    if |ws| > 0 {
      assert (ws + rest)[1..] == ws[1..] + rest;
      LeadingSpacesOfPrefix(ws[1..], rest);
    } else {
      assert ws + rest == rest;
    }
  }

  lemma DigitRunOfDigits(d: string, rest: string)
    requires AllDigits(d)
    requires rest == [] || !IsDigit(rest[0])
    ensures DigitRun(d + rest) == |d|
  {
    if |d| > 0 {
      assert (d + rest)[1..] == d[1..] + rest;
      DigitRunOfDigits(d[1..], rest);
    } else {
      assert d + rest == rest;
    }
  }
}

=== FILE: models.dfy ===
/** The stored records: a highlight (`src/models/Highlight.js`) and a daily
    set (`src/models/DailySet.js`), and the database that holds them. The
    database's unique indexes (`_id`, `hashId` and the daily-set `key`) are
    the invariant `ValidDb`. Dates are milliseconds since the epoch. */
module Models {
  import opened Wrappers
  import opened Collections

  /** What the clippings parser extracts for one highlight; `None` is `null`. */
  datatype Entry = Entry(
    bookTitle: Option<string>,
    author: Option<string>,
    location: Option<string>,
    page: Option<string>,
    dateAdded: Option<int>,
    content: string,
    lang: string,
    source: string,
    hashId: string)

  /** A stored highlight: its `_id`, its fields and `lastServedAt`, which is
      absent until a daily set first picks it. */
  datatype Highlight = Highlight(id: string, entry: Entry, lastServedAt: Option<int>)

  /** A daily set; `highlightIds` is in serving order. */
  datatype DailySet = DailySet(key: string, tz: string, limit: nat, highlightIds: seq<string>)

  /** The `highlights` collection in natural order, and the `dailysets`
      collection keyed by its unique `key`. */
  datatype Db = Db(highlights: seq<Highlight>, sets: map<string, DailySet>)

  function Ids(hs: seq<Highlight>): (ids: seq<string>)
    ensures |ids| == |hs|
    ensures forall i | 0 <= i < |hs| :: ids[i] == hs[i].id
  {
    if |hs| == 0 then [] else [hs[0].id] + Ids(hs[1..])
  }

  function HashIds(hs: seq<Highlight>): (hids: seq<string>)
    ensures |hids| == |hs|
    ensures forall i | 0 <= i < |hs| :: hids[i] == hs[i].entry.hashId
  {
    if |hs| == 0 then [] else [hs[0].entry.hashId] + HashIds(hs[1..])
  }

  /** The unique indexes of the two collections. */
  predicate ValidDb(db: Db) {
    && Distinct(Ids(db.highlights))
    && Distinct(HashIds(db.highlights))
    && forall k | k in db.sets :: db.sets[k].key == k
  }
}

=== FILE: ordering.dfy ===
/** Ordering a sequence by an integer key, the way `Array.prototype.sort`
    with a numeric comparator does, and the fact that makes the result
    unique: two sequences strictly ordered by the same key and holding the
    same elements are the same sequence. */
module Ordering {

  predicate SortedBy<T>(s: seq<T>, key: T -> int) {
    forall i, j | 0 <= i < j < |s| :: key(s[i]) <= key(s[j])
  }

  predicate StrictlyBy<T>(s: seq<T>, key: T -> int) {
    forall i, j | 0 <= i < j < |s| :: key(s[i]) < key(s[j])
  }

  /** `x` placed before the first element with a larger key. */
  function Insert<T>(x: T, s: seq<T>, key: T -> int): (r: seq<T>)
    requires SortedBy(s, key)
    ensures SortedBy(r, key)
    ensures multiset(r) == multiset(s) + multiset{x}
    decreases |s|
  {
    if |s| == 0 then [x]
    else if key(x) <= key(s[0]) then [x] + s
    else
      var rest := Insert(x, s[1..], key);
      assert s == [s[0]] + s[1..];
      forall i | 0 <= i < |rest|
        ensures key(s[0]) <= key(rest[i])
      {
        assert rest[i] in multiset(rest);
      }
      [s[0]] + rest
  }

  /** Insertion sort: a permutation of `s` in key order, equal keys kept in
      their original order. */
  function SortByKey<T>(s: seq<T>, key: T -> int): (r: seq<T>)
    ensures SortedBy(r, key)
    ensures multiset(r) == multiset(s)
    ensures |r| == |s|
  {
    if |s| == 0 then []
    else
      assert s == [s[0]] + s[1..];
      Insert(s[0], SortByKey(s[1..], key), key)
  }

  /** A sequence strictly ordered by a key is determined by its elements. */
  lemma {:induction false} StrictlyByUnique<T>(a: seq<T>, b: seq<T>, key: T -> int)
    requires StrictlyBy(a, key) && StrictlyBy(b, key)
    requires forall x :: x in a <==> x in b
    ensures a == b
    decreases |a|
  {
    if |a| > 0 {
      assert a[0] in b;
    }
    if |b| > 0 {
      assert b[0] in a;
    }
    if |a| > 0 {
      var j :| 0 <= j < |b| && b[j] == a[0];
      var i :| 0 <= i < |a| && a[i] == b[0];
      assert key(b[0]) <= key(b[j]);
      assert key(a[0]) <= key(a[i]);
      assert i == 0;
      forall x
        ensures x in a[1..] <==> x in b[1..]
      {
        if x in a[1..] {
          var k :| 1 <= k < |a| && a[k] == x;
          assert key(a[0]) < key(x);
          assert x in b;
        }
        if x in b[1..] {
          var k :| 1 <= k < |b| && b[k] == x;
          assert key(b[0]) < key(x);
          assert x in a;
        }
      }
      StrictlyByUnique(a[1..], b[1..], key);
      assert a == [a[0]] + a[1..];
      assert b == [b[0]] + b[1..];
    }
  }
}

=== FILE: prng.dfy ===
/** The seeded generator behind the daily shuffle: the `xmur3` string hash,
    which turns a window key into a 32-bit seed, and the `mulberry32`
    generator, which turns the seed into a stream of draws in [0, 1).
    JavaScript's 32-bit operators (`Math.imul`, `^`, `|`, `<<`, `>>>`) act
    on the low 32 bits of their operands, so the state is a `bv32`. */
module Prng {

  const TwoTo32: nat := 0x1_0000_0000

  /** A JavaScript number produced by `>>> 0`: an unsigned 32-bit integer. */
  type Uint32 = x: nat | x < TwoTo32

  /** The UTF-16 code units of `s`: what `str.length` counts and what
      `str.charCodeAt(i)` reads. Characters outside the Basic Multilingual
      Plane take two units (a surrogate pair). */
  function CodeUnits(s: string): (us: seq<nat>)
    ensures forall k | 0 <= k < |us| :: us[k] < 0x1_0000
    ensures |us| >= |s|
    ensures |us| == |s| <==> forall i | 0 <= i < |s| :: (s[i] as int) < 0x1_0000
  {
    if |s| == 0 then []
    else
      var c := s[0] as int;
      var head := if c < 0x1_0000 then [c]
                  else [0xD800 + (c - 0x1_0000) / 0x400, 0xDC00 + (c - 0x1_0000) % 0x400];
      head + CodeUnits(s[1..])
  }

  /** `Math.imul`: the low 32 bits of the product. */
  function Imul(a: bv32, b: bv32): bv32 {
    a * b
  }

  /** The loop of `xmur3`: each code unit is xor-ed in, multiplied by
      3432918353 and the state rotated left by 13. */
  function Xmur3Absorb(h: bv32, us: seq<nat>): bv32
    requires forall k | 0 <= k < |us| :: us[k] < 0x1_0000
    decreases |us|
  {
    if |us| == 0 then h
    else
      var m := Imul(h ^ (us[0] as bv32), 3432918353);
      Xmur3Absorb((m << 13) | (m >> 19), us[1..])
  }

  /** The body of the closure `xmur3` returns, on its first call. */
  function Xmur3Finish(h: bv32): bv32 {
    var h1 := Imul(h ^ (h >> 16), 2246822507);
    var h2 := Imul(h1 ^ (h1 >> 13), 3266489909);
    h2 ^ (h2 >> 16)
  }

  /** `xmur3(key)()`: the first output of the hash of `key`, read as an
      unsigned number by the final `>>> 0`. */
  function Seed(key: string): (r: nat)
    ensures r < TwoTo32
  {
    var us := CodeUnits(key);
    var h0 := 1779033703 ^ ((|us| % TwoTo32) as bv32);
    Xmur3Finish(Xmur3Absorb(h0, us)) as nat
  }

  /** One call of the closure `mulberry32` returns: the advanced state and
      the unsigned output `u` of `>>> 0`, which the closure divides by 2^32. */
  datatype Draw = Draw(state: bv32, u: Uint32)

  function Mulberry32(a: bv32): Draw {
    var next := a + 0x6d2b79f5;
    var t1 := Imul(next ^ (next >> 15), next | 1);
    var t2 := t1 ^ (t1 + Imul(t1 ^ (t1 >> 7), t1 | 61));
    Draw(next, (t2 ^ (t2 >> 14)) as int)
  }

  /** The number a draw returns: `u / 4294967296`. */
  function Unit(u: Uint32): (x: real)
    ensures 0.0 <= x < 1.0
  {
    u as real / 4294967296.0
  }

  /** `Math.floor(rand() * (i + 1))`: the Fisher-Yates index for position
      `i`. It never exceeds `i`, and equals the integer `(u * (i + 1)) >> 32`. */
  function DrawIndex(u: Uint32, i: nat): (j: nat)
    ensures j <= i
    ensures j == u * (i + 1) / TwoTo32
  {
    var n := i + 1;
    CastProduct(u, n);
    DivScale(u as real, n as real);
    FloorOfQuotient(u * n);
    QuotientBound(u, n);
    (Unit(u) * n as real).Floor
  }

  lemma CastProduct(v: nat, n: nat)
    ensures ((v * n) as real) == (v as real) * (n as real)
  {
  }

  lemma DivScale(r: real, m: real)
    ensures (r / 4294967296.0) * m == (r * m) / 4294967296.0
  {
  }

  lemma FloorOfQuotient(p: nat)
    ensures ((p as real) / 4294967296.0).Floor == p / TwoTo32
  {
    var q := p / TwoTo32;
    assert q * TwoTo32 <= p < (q + 1) * TwoTo32;
    var x := (p as real) / 4294967296.0;
    assert (q as real) <= x < (q as real) + 1.0;
  }

  lemma QuotientBound(v: nat, n: nat)
    requires v < TwoTo32
    requires n >= 1
    ensures v * n / TwoTo32 < n
  {
    var d: nat := TwoTo32 - 1 - v;
    assert d * n >= 0;
    assert v * n + d * n == (TwoTo32 - 1) * n;
    var q := v * n / TwoTo32;
    assert q * TwoTo32 <= v * n;
  }
}

=== FILE: public_daily.dfy ===
/** The public endpoint `dailyHighlights` (`src/controllers/public.controller.js`):
    make sure the current window has a set, take the first `limit` ids of
    it, fetch those highlights and return them in selection order, with a
    cache lifetime that runs to the end of the window. The clock is the
    parameter `nowMs`, and the window's end in epoch milliseconds is the
    parameter `endMs`. */
module PublicDaily {
  import opened Wrappers
  import opened JsText
  import opened Collections
  import opened Models
  import opened Config
  import opened Window
  import opened Selection
  import opened Ordering

  // ---------------------------------------------------------------------------
  // Cache lifetime

  /** `secondsUntil(end)`: whole seconds left in the window, never negative. */
  function SecondsUntil(endMs: int, nowMs: int): (secs: nat)
    ensures secs * 1000 <= Max(endMs - nowMs, 0) < secs * 1000 + 1000
  {
    var q := (endMs - nowMs) / 1000;
    if q < 0 then 0 else q
  }

  /** A later request never gets a longer cache lifetime for the same window. */
  lemma SecondsUntilShrinks(endMs: int, earlier: int, later: int)
    requires earlier <= later
    ensures SecondsUntil(endMs, later) <= SecondsUntil(endMs, earlier)
  {
    var a := SecondsUntil(endMs, earlier);
    var b := SecondsUntil(endMs, later);
    assert Max(endMs - later, 0) <= Max(endMs - earlier, 0);
    assert b * 1000 < a * 1000 + 1000;
  }

  // ---------------------------------------------------------------------------
  // The limit

  /** `req.query.limit || "${PUBLIC_DAILY_DEFAULT_LIMIT}"`. */
  function LimitText(param: Option<string>, defaultLimit: int): string {
    if param.None? || param.value == [] then IntToString(defaultLimit) else param.value
  }

  /** The number of ids asked for: the parameter when it parses, the
      configured default otherwise, capped at the configured maximum but
      not bounded below. */
  function EffectiveLimit(param: Option<string>, s: Settings): (limit: int)
    ensures limit <= s.maxLimit
    ensures param.None? || param.value == [] ==> limit == Min(s.defaultLimit, s.maxLimit)
    ensures param.Some? && ParseInt(param.value).Some? ==> limit == Min(ParseInt(param.value).value, s.maxLimit)
    ensures param.Some? && ParseInt(param.value).None? ==> limit == Min(s.defaultLimit, s.maxLimit)
  {
    var text := LimitText(param, s.defaultLimit);
    assert param.None? || param.value == [] ==> ParseInt(text) == Some(s.defaultLimit) by {
      assert IntToString(s.defaultLimit) == [] + IntToString(s.defaultLimit) + [];
      ParseIntOfIntToString([], s.defaultLimit, []);
    }
    var asked := ParseInt(text);
    Min(asked.GetOr(s.defaultLimit), s.maxLimit)
  }

  // ---------------------------------------------------------------------------
  // The served ids

  /** `ids.slice(0, end)`: a negative end counts back from the end. */
  function SliceTo<T>(ids: seq<T>, end: int): (r: seq<T>)
    ensures 0 <= end ==> |r| == Min(end, |ids|)
    ensures end < 0 ==> |r| == Max(|ids| + end, 0)
    ensures |r| <= |ids| && r == ids[..|r|]
  {
    if end < 0 then ids[..Max(|ids| + end, 0)] else ids[..Min(end, |ids|)]
  }

  /** The ids served, as the endpoint computes them: `slice(0, limit)`. */
  function ServedIdsAsWritten(ids: seq<string>, limit: int): (r: seq<string>)
    ensures |r| <= |ids| && r == ids[..|r|]
  {
    SliceTo(ids, limit)
  }

  /** `?limit=-2` on a set of five serves three highlights instead of none. */
  lemma NegativeLimitServesMost()
    ensures |ServedIdsAsWritten(["a", "b", "c", "d", "e"], -2)| == 3
    ensures |ServedIdsAsWritten(["a", "b", "c", "d", "e"], -2)| > Max(-2, 0)
  {
  }

  /** The ids served: the first `limit` of the set, none for a limit below
      one, the whole set for a limit beyond its size. */
  function ServedIds(ids: seq<string>, limit: int): (r: seq<string>)
    ensures |r| <= |ids| && r == ids[..|r|]
    ensures |r| <= Max(limit, 0)
    ensures limit <= 0 ==> r == []
    ensures 0 <= limit <= |ids| ==> |r| == limit
    ensures |ids| <= limit ==> r == ids
  {
    SliceTo(ids, Max(limit, 0))
  }

  /** The correction changes nothing for a limit that is not negative. */
  lemma ServedIdsAgree(ids: seq<string>, limit: int)
    requires limit >= 0
    ensures ServedIds(ids, limit) == ServedIdsAsWritten(ids, limit)
  {
  }

  // ---------------------------------------------------------------------------
  // Fetching in selection order

  /** `Highlight.find({ _id: { $in: ids } })`: the stored highlights asked
      for, in storage order. */
  function Fetch(hs: seq<Highlight>, ids: seq<string>): (rows: seq<Highlight>)
    ensures |rows| <= |hs|
    ensures forall h :: h in rows <==> h in hs && h.id in ids
  {
    if |hs| == 0 then []
    else
      assert hs == [hs[0]] + hs[1..];
      (if hs[0].id in ids then [hs[0]] else []) + Fetch(hs[1..], ids)
  }

  /** The comparator key `mapIndex.get(r._id)`: the row's position in the
      served ids. The map keeps the last position of a repeated id and this
      key the first; the two differ only when an id repeats, and a set built
      by `ensureDailySet` never repeats one (`Selection.NewSetShape`). */
  function RowRank(ids: seq<string>): Highlight -> int {
    (h: Highlight) => IndexOf(ids, h.id)
  }

  function IdRank(ids: seq<string>): string -> int {
    (x: string) => IndexOf(ids, x)
  }

  /** `rows.sort(...)` by position in the served ids. */
  function Reorder(rows: seq<Highlight>, ids: seq<string>): (sorted: seq<Highlight>)
    ensures multiset(sorted) == multiset(rows)
    ensures SortedBy(sorted, RowRank(ids))
  {
    SortByKey(rows, RowRank(ids))
  }

  /** The reference order: the served ids that are still stored, in the
      order of the set. */
  function Present(ids: seq<string>, stored: seq<string>): seq<string> {
    PresentFrom(ids, stored, 0)
  }

  function PresentFrom(ids: seq<string>, stored: seq<string>, i: nat): (r: seq<string>)
    requires i <= |ids|
    ensures forall x :: x in r <==> x in stored && exists k | i <= k < |ids| :: ids[k] == x
    decreases |ids| - i
  {
    if i == |ids| then []
    else (if ids[i] in stored then [ids[i]] else []) + PresentFrom(ids, stored, i + 1)
  }

  lemma IndexOfMember<T>(s: seq<T>, k: nat)
    requires Distinct(s) && k < |s|
    ensures IndexOf(s, s[k]) == k
  {
  }

  lemma {:induction false} PresentFromStrict(ids: seq<string>, stored: seq<string>, i: nat)
    requires Distinct(ids) && i <= |ids|
    ensures StrictlyBy(PresentFrom(ids, stored, i), IdRank(ids))
    ensures forall x | x in PresentFrom(ids, stored, i) :: i <= IndexOf(ids, x)
    decreases |ids| - i
  {
    if i < |ids| {
      PresentFromStrict(ids, stored, i + 1);
      IndexOfMember(ids, i);
      var rest := PresentFrom(ids, stored, i + 1);
      forall x | x in PresentFrom(ids, stored, i)
        ensures i <= IndexOf(ids, x)
      {
        var k :| i <= k < |ids| && ids[k] == x;
        IndexOfMember(ids, k);
      }
      forall k | 0 <= k < |rest|
        ensures i < IndexOf(ids, rest[k])
      {
        assert rest[k] in rest;
      }
    }
  }

  /** Two rows of a table with unique ids and the same id are the same row. */
  lemma IdDeterminesRow(hs: seq<Highlight>, x: Highlight, y: Highlight)
    requires Distinct(Ids(hs))
    requires x in hs && y in hs && x.id == y.id
    ensures x == y
  {
    var i :| 0 <= i < |hs| && hs[i] == x;
    var j :| 0 <= j < |hs| && hs[j] == y;
    assert Ids(hs)[i] == Ids(hs)[j];
  }

  lemma {:induction false} FetchDistinct(hs: seq<Highlight>, ids: seq<string>)
    requires Distinct(Ids(hs))
    ensures Distinct(Fetch(hs, ids))
  {
    if |hs| > 0 {
      assert Ids(hs[1..]) == Ids(hs)[1..];
      FetchDistinct(hs[1..], ids);
      assert hs[0] !in hs[1..] by {
        assert forall k | 1 <= k < |hs| :: Ids(hs)[k] != Ids(hs)[0];
      }
      DistinctConcat(if hs[0].id in ids then [hs[0]] else [], Fetch(hs[1..], ids));
    }
  }

  /** The fetched rows, sorted, are the served ids that are still stored,
      in the order the set gives them, each row the stored highlight. */
  lemma ReorderFollowsSelection(hs: seq<Highlight>, ids: seq<string>)
    requires Distinct(Ids(hs)) && Distinct(ids)
    ensures var sorted := Reorder(Fetch(hs, ids), ids);
            && Ids(sorted) == Present(ids, Ids(hs))
            && forall h :: h in sorted <==> h in hs && h.id in ids
  {
    var rows := Fetch(hs, ids);
    var sorted := Reorder(rows, ids);
    FetchDistinct(hs, ids);
    PermutationKeepsDistinct(rows, sorted);
    SameMembers(rows, sorted);
    SortedIdsStrict(hs, ids, sorted);
    SortedIdsMembers(hs, ids, sorted);
    PresentFromStrict(ids, Ids(hs), 0);
    StrictlyByUnique(Ids(sorted), Present(ids, Ids(hs)), IdRank(ids));
  }

  lemma SameMembers<T>(a: seq<T>, b: seq<T>)
    requires multiset(a) == multiset(b)
    ensures forall x :: x in a <==> x in b
  {
    forall x
      ensures x in a <==> x in b
    {
      assert x in a <==> x in multiset(a);
      assert x in b <==> x in multiset(b);
    }
  }

  /** Rows of one table, in rank order and each present once, have ids in
      strictly increasing rank. */
  lemma SortedIdsStrict(hs: seq<Highlight>, ids: seq<string>, sorted: seq<Highlight>)
    requires Distinct(Ids(hs)) && Distinct(sorted)
    requires forall h | h in sorted :: h in hs && h.id in ids
    requires SortedBy(sorted, RowRank(ids))
    ensures StrictlyBy(Ids(sorted), IdRank(ids))
  {
    var got := Ids(sorted);
    forall i, j | 0 <= i < j < |got|
      ensures IndexOf(ids, got[i]) < IndexOf(ids, got[j])
    {
      assert sorted[i] in sorted && sorted[j] in sorted;
      if got[i] == got[j] {
        IdDeterminesRow(hs, sorted[i], sorted[j]);
      }
      assert RowRank(ids)(sorted[i]) <= RowRank(ids)(sorted[j]);
      IndexOfFound(ids, got[i]);
      IndexOfFound(ids, got[j]);
    }
  }

  lemma IndexOfFound<T>(s: seq<T>, x: T)
    requires x in s
    ensures IndexOf(s, x) < |s| && s[IndexOf(s, x)] == x
  {
  }

  /** The ids of the fetched rows are the served ids that are stored. */
  lemma SortedIdsMembers(hs: seq<Highlight>, ids: seq<string>, sorted: seq<Highlight>)
    requires forall h :: h in sorted <==> h in hs && h.id in ids
    ensures forall x :: x in Ids(sorted) <==> x in Present(ids, Ids(hs))
  {
    var got := Ids(sorted);
    var want := Present(ids, Ids(hs));
    forall x
      ensures x in got <==> x in want
    {
      if x in got {
        var k :| 0 <= k < |got| && got[k] == x;
        assert sorted[k] in sorted;
        var m :| 0 <= m < |hs| && hs[m] == sorted[k];
        assert Ids(hs)[m] == x;
        IndexOfFound(ids, x);
      }
      if x in want {
        var m :| 0 <= m < |Ids(hs)| && Ids(hs)[m] == x;
        assert hs[m] in hs;
        var n :| 0 <= n < |sorted| && sorted[n] == hs[m];
        assert got[n] == x;
      }
    }
  }

  // ---------------------------------------------------------------------------
  // The response

  /** One served highlight; an empty or missing text field is `null`. */
  datatype Item = Item(
    id: string,
    bookTitle: Option<string>,
    author: Option<string>,
    content: string,
    location: Option<string>,
    page: Option<string>,
    dateAdded: Option<int>)

  /** `r` is the field `v` with an empty string read as `null`. */
  predicate NullIfEmpty(r: Option<string>, v: Option<string>) {
    && (r.Some? <==> v.Some? && v.value != [])
    && (r.Some? ==> r == v)
  }

  /** `v || null` for a string field. */
  function OrNull(v: Option<string>): (r: Option<string>)
    ensures NullIfEmpty(r, v)
  {
    if v.Some? && v.value != [] then v else None
  }

  /** The served form of a stored highlight: its id, its content and date as
      stored, and each optional text field with an empty string as `null`. */
  function ItemOf(h: Highlight): (it: Item)
    ensures it.id == h.id && it.content == h.entry.content
    ensures it.dateAdded == h.entry.dateAdded
    ensures NullIfEmpty(it.bookTitle, h.entry.bookTitle) && NullIfEmpty(it.author, h.entry.author)
    ensures NullIfEmpty(it.location, h.entry.location) && NullIfEmpty(it.page, h.entry.page)
  {
    Item(h.id, OrNull(h.entry.bookTitle), OrNull(h.entry.author), h.entry.content,
         OrNull(h.entry.location), OrNull(h.entry.page), h.entry.dateAdded)
  }

  function ItemsOf(rows: seq<Highlight>): (items: seq<Item>)
    ensures |items| == |rows|
    ensures forall i | 0 <= i < |rows| :: items[i] == ItemOf(rows[i])
  {
    seq(|rows|, i requires 0 <= i < |rows| => ItemOf(rows[i]))
  }

  datatype DailyResponse = DailyResponse(
    windowKey: string,
    date: string,
    timezone: string,
    count: nat,
    highlights: seq<Item>,
    maxAge: nat)

  /** The response for a set `doc` over the stored highlights `hs`. */
  function Respond(doc: DailySet, hs: seq<Highlight>, limitParam: Option<string>, s: Settings,
                   endMs: int, nowMs: int): (r: DailyResponse)
    ensures r.windowKey == doc.key && r.date == DatePart(doc.key) && r.timezone == s.tz
    ensures r.count == |r.highlights|
    ensures r.maxAge == SecondsUntil(endMs, nowMs)
    ensures ServedIds(doc.highlightIds, EffectiveLimit(limitParam, s)) == [] ==> r.highlights == []
    ensures forall k | 0 <= k < |r.highlights| ::
              exists h | h in hs :: r.highlights[k] == ItemOf(h)
                && h.id in ServedIds(doc.highlightIds, EffectiveLimit(limitParam, s))
  {
    var served := ServedIds(doc.highlightIds, EffectiveLimit(limitParam, s));
    var maxAge := SecondsUntil(endMs, nowMs);
    if |served| == 0 then DailyResponse(doc.key, DatePart(doc.key), s.tz, 0, [], maxAge)
    else
      var rows := Reorder(Fetch(hs, served), served);
      var items := ItemsOf(rows);
      forall k | 0 <= k < |items|
        ensures exists h | h in hs :: items[k] == ItemOf(h) && h.id in served
      {
        assert rows[k] in multiset(rows);
      }
      DailyResponse(doc.key, DatePart(doc.key), s.tz, |items|, items, maxAge)
  }

  lemma {:induction false} PresentFromBound(ids: seq<string>, stored: seq<string>, i: nat)
    requires i <= |ids|
    ensures |PresentFrom(ids, stored, i)| <= |ids| - i
    decreases |ids| - i
  {
    if i < |ids| {
      PresentFromBound(ids, stored, i + 1);
    }
  }

  /** With unique ids in the table and in the set, the response lists the
      served ids that are still stored, in the order of the set, and never
      more than the limit or the configured maximum. */
  lemma RespondInSelectionOrder(doc: DailySet, hs: seq<Highlight>, limitParam: Option<string>, s: Settings,
                                endMs: int, nowMs: int)
    requires Distinct(Ids(hs)) && Distinct(doc.highlightIds)
    ensures var r := Respond(doc, hs, limitParam, s, endMs, nowMs);
            var served := ServedIds(doc.highlightIds, EffectiveLimit(limitParam, s));
            var want := Present(served, Ids(hs));
            && |r.highlights| == |want|
            && (forall k | 0 <= k < |want| :: r.highlights[k].id == want[k])
            && r.count <= Max(EffectiveLimit(limitParam, s), 0)
            && r.count <= s.maxLimit
  {
    var limit := EffectiveLimit(limitParam, s);
    var served := ServedIds(doc.highlightIds, limit);
    var want := Present(served, Ids(hs));
    var r := Respond(doc, hs, limitParam, s, endMs, nowMs);
    assert Distinct(served) by {
      PrefixDistinct(doc.highlightIds, |served|);
    }
    PresentFromBound(served, Ids(hs), 0);
    if |served| > 0 {
      ItemsFollowSelection(hs, served);
      assert r.highlights == ItemsOf(Reorder(Fetch(hs, served), served));
    } else {
      assert want == [];
    }
    assert |served| <= Max(limit, 0) <= s.maxLimit;
  }

  lemma PrefixDistinct(ids: seq<string>, n: nat)
    requires Distinct(ids) && n <= |ids|
    ensures Distinct(ids[..n])
  {
  }

  /** The items built from the reordered rows carry the reference ids. */
  lemma ItemsFollowSelection(hs: seq<Highlight>, served: seq<string>)
    requires Distinct(Ids(hs)) && Distinct(served)
    ensures var items := ItemsOf(Reorder(Fetch(hs, served), served));
            var want := Present(served, Ids(hs));
            && |items| == |want|
            && forall k | 0 <= k < |want| :: items[k].id == want[k]
  {
    var rows := Reorder(Fetch(hs, served), served);
    ReorderFollowsSelection(hs, served);
    assert forall k | 0 <= k < |rows| :: Ids(rows)[k] == rows[k].id;
  }

  // ---------------------------------------------------------------------------
  // The endpoint

  /** Every stored set lists each highlight at most once. */
  predicate SetsDistinct(db: Db) {
    forall k | k in db.sets :: Distinct(db.sets[k].highlightIds)
  }

  /** `dailyHighlights`: the database after `ensureDailySet`, and the
      response. */
  function DailyHighlights(db: Db, s: Settings, now: LocalDateTime, nowMs: int, stamp: int,
                           endMs: int, limitParam: Option<string>): (out: (Db, DailyResponse))
    requires InModelRange(now)
    ensures out.0 == EnsureDailySet(db, s, now, nowMs, stamp).db
    ensures ValidDb(db) ==> out.1.windowKey == GetWindowInfo(s.mode, now).key
    ensures out.1.count == |out.1.highlights|
  {
    var e := EnsureDailySet(db, s, now, nowMs, stamp);
    (e.db, Respond(e.doc, e.db.highlights, limitParam, s, endMs, nowMs))
  }

  /** On a consistent database the endpoint answers for the current window,
      dated by the window's calendar day, with the window's highlights in
      selection order. */
  lemma DailyHighlightsShape(db: Db, s: Settings, now: LocalDateTime, nowMs: int, stamp: int,
                             endMs: int, limitParam: Option<string>)
    requires InModelRange(now)
    requires ValidDb(db) && SetsDistinct(db)
    ensures var (db2, r) := DailyHighlights(db, s, now, nowMs, stamp, endMs, limitParam);
            var doc := EnsureDailySet(db, s, now, nowMs, stamp).doc;
            var served := ServedIds(doc.highlightIds, EffectiveLimit(limitParam, s));
            && r.date == IsoDate(now.date)
            && ValidDb(db2)
            && |r.highlights| == |Present(served, Ids(db2.highlights))|
            && (forall k | 0 <= k < |r.highlights| :: r.highlights[k].id == Present(served, Ids(db2.highlights))[k])
            && r.count <= s.maxLimit
  {
    var e := EnsureDailySet(db, s, now, nowMs, stamp);
    DatePartOfKey(s.mode, now);
    EnsurePreservesValid(db, s, now, nowMs, stamp);
    if e.window.key !in db.sets {
      NewSetShape(db, s, now, nowMs, stamp);
    }
    RespondInSelectionOrder(e.doc, e.db.highlights, limitParam, s, endMs, nowMs);
  }
}

=== FILE: selection.dfy ===
/** `ensureDailySet`: create the daily set of the current window once. If the
    window's key already has a set, that set is returned and nothing is
    written. Otherwise the candidates are the highlights not served since the
    cutoff, topped up with all the others only when there are fewer than the
    maximum. The candidates are shuffled by the window key, the first
    `PUBLIC_DAILY_MAX_LIMIT` are stored as the new set, and the picked
    highlights get `lastServedAt` stamped.

    The three clock readings are parameters: the local date-time that fixes
    the window, the instant `nowMs` the cutoff is measured from, and the
    instant `stamp` written into `lastServedAt`. Query results come back in
    the collection's natural order, which is the order of `db.highlights`. */
module Selection {
  import opened Wrappers
  import opened Collections
  import opened Models
  import opened Config
  import opened Window
  import opened Shuffle

  /** `Number.isFinite(NO_REPEAT_DAYS) ? NO_REPEAT_DAYS : 0`. */
  function RepeatWindowDays(setting: Option<int>): (days: int)
    ensures setting.None? ==> days == 0
    ensures setting.Some? ==> days == setting.value
  {
    setting.GetOr(0)
  }

  /** `now.minus({ days })` in milliseconds, for a zone without daylight
      saving time. */
  function Cutoff(nowMs: int, days: int): int {
    nowMs - days * MsPerDay
  }

  /** The preferred filter: `lastServedAt` absent, or before the cutoff. */
  predicate IsPreferred(h: Highlight, cutoff: int) {
    h.lastServedAt.None? || h.lastServedAt.value < cutoff
  }

  /** The ids of the preferred highlights, in natural order. */
  function PreferredIds(hs: seq<Highlight>, cutoff: int): (ids: seq<string>)
    ensures |ids| <= |hs|
    ensures forall x :: x in ids <==> exists i | 0 <= i < |hs| :: hs[i].id == x && IsPreferred(hs[i], cutoff)
  {
    if |hs| == 0 then []
    else
      var rest := PreferredIds(hs[1..], cutoff);
      assert forall i | 1 <= i < |hs| :: hs[1..][i - 1] == hs[i];
      if IsPreferred(hs[0], cutoff) then [hs[0].id] + rest else rest
  }

  /** The fallback query: the ids of all highlights whose id is not excluded,
      in natural order. */
  function FallbackIds(hs: seq<Highlight>, exclude: seq<string>): (ids: seq<string>)
    ensures |ids| <= |hs|
    ensures forall x :: x in ids <==> x !in exclude && exists i | 0 <= i < |hs| :: hs[i].id == x
  {
    if |hs| == 0 then []
    else
      var rest := FallbackIds(hs[1..], exclude);
      assert forall i | 1 <= i < |hs| :: hs[1..][i - 1] == hs[i];
      if hs[0].id !in exclude then [hs[0].id] + rest else rest
  }

  /** The candidate ids: the preferred ones, and the others after them only
      when the preferred ones are fewer than `max`. */
  function CandidateIds(hs: seq<Highlight>, cutoff: int, max: nat): seq<string> {
    var preferred := PreferredIds(hs, cutoff);
    if |preferred| < max then preferred + FallbackIds(hs, preferred) else preferred
  }

  /** `shuffled.slice(0, max)`. */
  function PickIds(candidates: seq<string>, key: string, max: nat): (pick: seq<string>)
    ensures |pick| == Min(max, |candidates|)
    ensures forall k | 0 <= k < |pick| :: pick[k] in candidates
    ensures Distinct(candidates) ==> Distinct(pick)
  {
    var shuffled := DeterministicShuffle(candidates, key);
    var pick := shuffled[..Min(max, |candidates|)];
    assert forall k | 0 <= k < |pick| :: pick[k] in multiset(shuffled);
    assert Distinct(candidates) ==> Distinct(shuffled) by {
      if Distinct(candidates) {
        PermutationKeepsDistinct(candidates, shuffled);
      }
    }
    pick
  }

  /** `updateMany({ _id: { $in: pickIds } }, { $set: { lastServedAt } })`:
      exactly the picked highlights get the stamp; the order, the ids and
      every other field stay as they were. */
  function MarkServed(hs: seq<Highlight>, pick: seq<string>, stamp: int): (r: seq<Highlight>)
    ensures |r| == |hs|
    ensures Ids(r) == Ids(hs)
    ensures forall i | 0 <= i < |hs| ::
              && r[i].entry == hs[i].entry
              && r[i].lastServedAt == (if hs[i].id in pick then Some(stamp) else hs[i].lastServedAt)
  {
    var r := seq(|hs|, i requires 0 <= i < |hs| =>
                   if hs[i].id in pick then hs[i].(lastServedAt := Some(stamp)) else hs[i]);
    assert forall i | 0 <= i < |hs| :: r[i].id == hs[i].id;
    r
  }

  /** What `ensureDailySet` returns: the database afterwards, the set, and
      the window. */
  datatype Ensured = Ensured(db: Db, doc: DailySet, window: WindowInfo)

  /** The set built for `key` from the highlights, and the highlights after
      stamping. */
  function BuildSet(hs: seq<Highlight>, s: Settings, key: string, nowMs: int): DailySet {
    var cutoff := Cutoff(nowMs, RepeatWindowDays(s.noRepeatDays));
    var pick := PickIds(CandidateIds(hs, cutoff, s.maxLimit), key, s.maxLimit);
    DailySet(key, s.tz, s.maxLimit, pick)
  }

  function EnsureDailySet(db: Db, s: Settings, now: LocalDateTime, nowMs: int, stamp: int): (r: Ensured)
    requires InModelRange(now)
    ensures r.window == GetWindowInfo(s.mode, now)
    ensures r.window.key !in db.sets || ValidDb(db) ==> r.doc.key == r.window.key
    ensures r.window.key in db.sets ==> r.db == db && r.doc == db.sets[r.window.key]
    ensures r.window.key !in db.sets ==>
              && r.db.sets == db.sets[r.window.key := r.doc]
              && r.doc.tz == s.tz
              && r.doc.limit == s.maxLimit
              && |r.doc.highlightIds| == Min(s.maxLimit, |CandidateIds(db.highlights, Cutoff(nowMs, RepeatWindowDays(s.noRepeatDays)), s.maxLimit)|)
              && r.db.highlights == MarkServed(db.highlights, r.doc.highlightIds, stamp)
  {
    var w := GetWindowInfo(s.mode, now);
    if w.key in db.sets then Ensured(db, db.sets[w.key], w)
    else
      var doc := BuildSet(db.highlights, s, w.key, nowMs);
      var hs := if |doc.highlightIds| > 0 then MarkServed(db.highlights, doc.highlightIds, stamp)
                else db.highlights;
      assert |doc.highlightIds| == 0 ==> hs == MarkServed(db.highlights, doc.highlightIds, stamp);
      Ensured(Db(hs, db.sets[w.key := doc]), doc, w)
  }

  // ---------------------------------------------------------------------------
  // Properties of the candidates

  /** With unique ids, an id is among the preferred ids exactly when the
      highlight that carries it is preferred. */
  lemma PreferredIdsExact(hs: seq<Highlight>, cutoff: int, i: nat)
    requires Distinct(Ids(hs))
    requires i < |hs|
    ensures hs[i].id in PreferredIds(hs, cutoff) <==> IsPreferred(hs[i], cutoff)
  {
    if hs[i].id in PreferredIds(hs, cutoff) {
      var j :| 0 <= j < |hs| && hs[j].id == hs[i].id && IsPreferred(hs[j], cutoff);
      assert Ids(hs)[i] == Ids(hs)[j];
    }
  }

  /** An id carried by some highlight of `hs` is in `Ids(hs)`. */
  lemma IdInIds(hs: seq<Highlight>, j: nat)
    requires j < |hs|
    ensures hs[j].id in Ids(hs)
  {
    assert Ids(hs)[j] == hs[j].id;
  }

  function NotPreferredIds(hs: seq<Highlight>, cutoff: int): seq<string> {
    if |hs| == 0 then []
    else
      var rest := NotPreferredIds(hs[1..], cutoff);
      if IsPreferred(hs[0], cutoff) then rest else [hs[0].id] + rest
  }

  lemma {:induction false} SplitCount(hs: seq<Highlight>, cutoff: int)
    ensures |PreferredIds(hs, cutoff)| + |NotPreferredIds(hs, cutoff)| == |hs|
  {
    if |hs| > 0 {
      SplitCount(hs[1..], cutoff);
    }
  }

  lemma {:induction false} FallbackIsNotPreferred(hs: seq<Highlight>, cutoff: int, exclude: seq<string>)
    requires forall i | 0 <= i < |hs| :: hs[i].id in exclude <==> IsPreferred(hs[i], cutoff)
    ensures FallbackIds(hs, exclude) == NotPreferredIds(hs, cutoff)
  {
    if |hs| > 0 {
      assert forall i | 1 <= i < |hs| :: hs[1..][i - 1] == hs[i];
      FallbackIsNotPreferred(hs[1..], cutoff, exclude);
    }
  }

  lemma {:induction false} IdsOfTail(hs: seq<Highlight>)
    requires |hs| > 0
    ensures Ids(hs[1..]) == Ids(hs)[1..]
  {
  }

  lemma {:induction false} PreferredIdsDistinct(hs: seq<Highlight>, cutoff: int)
    requires Distinct(Ids(hs))
    ensures Distinct(PreferredIds(hs, cutoff))
  {
    if |hs| > 0 {
      var tail := hs[1..];
      IdsOfTail(hs);
      PreferredIdsDistinct(tail, cutoff);
      var rest := PreferredIds(tail, cutoff);
      forall k | 0 <= k < |rest|
        ensures rest[k] != hs[0].id
      {
        assert rest[k] in rest;
        var j :| 0 <= j < |tail| && tail[j].id == rest[k] && IsPreferred(tail[j], cutoff);
        assert Ids(hs)[j + 1] == rest[k];
      }
      DistinctConcat([hs[0].id], rest);
    }
  }

  lemma {:induction false} FallbackIdsDistinct(hs: seq<Highlight>, exclude: seq<string>)
    requires Distinct(Ids(hs))
    ensures Distinct(FallbackIds(hs, exclude))
  {
    if |hs| > 0 {
      var tail := hs[1..];
      IdsOfTail(hs);
      FallbackIdsDistinct(tail, exclude);
      var rest := FallbackIds(tail, exclude);
      forall k | 0 <= k < |rest|
        ensures rest[k] != hs[0].id
      {
        assert rest[k] in rest;
        var j :| 0 <= j < |tail| && tail[j].id == rest[k];
        assert Ids(hs)[j + 1] == rest[k];
      }
      DistinctConcat([hs[0].id], rest);
    }
  }

  /** The candidates never repeat an id, every candidate is a stored
      highlight, and their number is the pool size when the preferred ones
      are short of `max` (otherwise the preferred count). */
  lemma CandidatesShape(hs: seq<Highlight>, cutoff: int, max: nat)
    requires Distinct(Ids(hs))
    ensures var c := CandidateIds(hs, cutoff, max);
            var p := PreferredIds(hs, cutoff);
            && Distinct(c)
            && (forall k | 0 <= k < |c| :: c[k] in Ids(hs))
            && |c| == (if |p| < max then |hs| else |p|)
            && Min(max, |c|) == Min(max, |hs|)
  {
    var p := PreferredIds(hs, cutoff);
    PreferredIdsDistinct(hs, cutoff);
    if |p| < max {
      var f := FallbackIds(hs, p);
      FallbackIdsDistinct(hs, p);
      DistinctConcat(p, f);
      forall i | 0 <= i < |hs|
        ensures hs[i].id in p <==> IsPreferred(hs[i], cutoff)
      {
        PreferredIdsExact(hs, cutoff, i);
      }
      FallbackIsNotPreferred(hs, cutoff, p);
      SplitCount(hs, cutoff);
    }
    var c := CandidateIds(hs, cutoff, max);
    forall k | 0 <= k < |c|
      ensures c[k] in Ids(hs)
    {
      assert c[k] in c;
      var i :| 0 <= i < |hs| && hs[i].id == c[k];
      IdInIds(hs, i);
    }
  }

  // ---------------------------------------------------------------------------
  // Properties of ensureDailySet

  /** A new set holds min(max, pool size) distinct ids of stored highlights;
      when at least `max` highlights are preferred, only preferred ones are
      picked; exactly the picked highlights are stamped, and nothing is
      stamped when the pick is empty. */
  lemma NewSetShape(db: Db, s: Settings, now: LocalDateTime, nowMs: int, stamp: int)
    requires ValidDb(db)
    requires InModelRange(now)
    requires GetWindowInfo(s.mode, now).key !in db.sets
    ensures var r := EnsureDailySet(db, s, now, nowMs, stamp);
            var ids := r.doc.highlightIds;
            var cutoff := Cutoff(nowMs, RepeatWindowDays(s.noRepeatDays));
            && Distinct(ids)
            && |ids| == Min(s.maxLimit, |db.highlights|)
            && (forall k | 0 <= k < |ids| :: ids[k] in Ids(db.highlights))
            && (|PreferredIds(db.highlights, cutoff)| >= s.maxLimit ==>
                  forall k | 0 <= k < |ids| :: ids[k] in PreferredIds(db.highlights, cutoff))
            && Ids(r.db.highlights) == Ids(db.highlights)
            && (forall i | 0 <= i < |db.highlights| ::
                  r.db.highlights[i].lastServedAt
                  == if db.highlights[i].id in ids then Some(stamp) else db.highlights[i].lastServedAt)
            && (ids == [] ==> r.db.highlights == db.highlights)
  {
    var cutoff := Cutoff(nowMs, RepeatWindowDays(s.noRepeatDays));
    CandidatesShape(db.highlights, cutoff, s.maxLimit);
    var r := EnsureDailySet(db, s, now, nowMs, stamp);
    if r.doc.highlightIds == [] {
      var hs := db.highlights;
      assert forall i | 0 <= i < |hs| :: r.db.highlights[i] == hs[i];
    }
  }

  /** A second call for the same window returns the same set and writes
      nothing. */
  lemma EnsureIdempotent(db: Db, s: Settings, now: LocalDateTime, nowMs: int, stamp: int,
                         nowMs2: int, stamp2: int)
    requires InModelRange(now)
    ensures var r1 := EnsureDailySet(db, s, now, nowMs, stamp);
            var r2 := EnsureDailySet(r1.db, s, now, nowMs2, stamp2);
            r2.db == r1.db && r2.doc == r1.doc
  {
  }

  /** Creating a set keeps the unique indexes: ids and hashes are untouched
      and the new set is stored under its own key. */
  lemma EnsurePreservesValid(db: Db, s: Settings, now: LocalDateTime, nowMs: int, stamp: int)
    requires ValidDb(db)
    requires InModelRange(now)
    ensures ValidDb(EnsureDailySet(db, s, now, nowMs, stamp).db)
  {
    var r := EnsureDailySet(db, s, now, nowMs, stamp);
    var hs := db.highlights;
    var hs2 := r.db.highlights;
    assert forall i | 0 <= i < |hs| :: HashIds(hs2)[i] == HashIds(hs)[i];
    assert HashIds(hs2) == HashIds(hs);
  }
}

=== FILE: shuffle.dfy ===
/** `deterministicShuffle`: a Fisher-Yates shuffle driven by `mulberry32`
    seeded with `xmur3(key)()`. For i from the last index down to 1 it draws
    j in [0, i] and swaps positions i and j of a copy of the input. */
module Shuffle {
  import opened Prng

  /** `[a[i], a[j]] = [a[j], a[i]]`. */
  function Swap<T>(a: seq<T>, i: nat, j: nat): (r: seq<T>)
    requires i < |a| && j < |a|
    ensures |r| == |a|
    ensures r[i] == a[j] && r[j] == a[i]
    ensures forall k | 0 <= k < |a| && k != i && k != j :: r[k] == a[k]
    ensures multiset(r) == multiset(a)
  {
    a[i := a[j]][j := a[i]]
  }

  /** The loop from index `i` down to 1, with the generator in state `st`. */
  function ShuffleFrom<T>(a: seq<T>, i: nat, st: bv32): (r: seq<T>)
    requires i < |a|
    ensures |r| == |a|
    ensures multiset(r) == multiset(a)
    decreases i
  {
    if i == 0 then a
    else
      var d := Mulberry32(st);
      ShuffleFrom(Swap(a, i, DrawIndex(d.u, i)), i - 1, d.state)
  }

  /** `mulberry32(xmur3(key)())`: the generator state before the first draw. */
  function InitialState(key: string): bv32 {
    Seed(key) as bv32
  }

  /** The shuffled copy: a permutation of `a` that depends only on `a` and
      `key`. Sequences of length 0 or 1 draw nothing. */
  function DeterministicShuffle<T>(a: seq<T>, key: string): (r: seq<T>)
    ensures |r| == |a|
    ensures multiset(r) == multiset(a)
  {
    if |a| <= 1 then a else ShuffleFrom(a, |a| - 1, InitialState(key))
  }

  /** Before the loop: the whole shuffle is the loop from the last index. */
  lemma ShuffleStart<T>(a: seq<T>, key: string)
    requires |a| > 1
    ensures DeterministicShuffle(a, key) == ShuffleFrom(a, |a| - 1, InitialState(key))
  {
  }

  /** One iteration of the loop: the first swap, then the rest. */
  lemma ShuffleFromStep<T>(a: seq<T>, i: nat, st: bv32)
    requires 0 < i < |a|
    ensures ShuffleFrom(a, i, st)
         == ShuffleFrom(Swap(a, i, DrawIndex(Mulberry32(st).u, i)), i - 1, Mulberry32(st).state)
  {
  }
}

=== FILE: shuffle_loop.dfy ===
/** The imperative form of `deterministicShuffle`, kept apart from the
    functional definition it is proved against. */
module ShuffleLoop {
  import opened Prng
  import opened Shuffle

  /** The loop as the source writes it, swapping on a copy of the input
      (`array.slice()`): it yields the same permutation as the functional
      definition, so the result depends only on the input and the key. */
  method ShuffleCopy<T>(input: seq<T>, key: string) returns (r: seq<T>)
    ensures r == DeterministicShuffle(input, key)
    ensures multiset(r) == multiset(input)
  {
    var a := input;
    if |a| <= 1 {
      return a;
    }
    var st := InitialState(key);
    var i := |a| - 1;
    ghost var goal := ShuffleFrom(a, i, st);
    ShuffleStart(input, key);
    while i > 0
      invariant 0 <= i < |a|
      invariant ShuffleFrom(a, i, st) == goal
      decreases i
    {
      var d := Mulberry32(st);
      var j := DrawIndex(d.u, i);
      ShuffleFromStep(a, i, st);
      a := Swap(a, i, j);
      st := d.state;
      i := i - 1;
    }
    r := a;
  }
}

=== FILE: window.dfy ===
/** `getWindowInfo`: the selection window that contains a local date-time.
    In daily mode the window is the local calendar day and its key is the ISO
    date `YYYY-MM-DD`; in half-day mode the day is cut at noon and the key is
    `YYYY-MM-DD_00` or `YYYY-MM-DD_12`. Local date-times are taken as already
    converted into the configured zone: the zone conversion is a parameter of
    the callers. */
module Window {
  import opened Wrappers
  import opened JsText

  // ---------------------------------------------------------------------------
  // Proleptic Gregorian calendar

  datatype Date = Date(year: int, month: int, day: int)

  predicate IsLeapYear(y: int) {
    y % 4 == 0 && (y % 100 != 0 || y % 400 == 0)
  }

  function DaysInMonth(y: int, m: int): (n: int)
    requires 1 <= m <= 12
    ensures 28 <= n <= 31
  {
    if m == 2 then (if IsLeapYear(y) then 29 else 28)
    else if m == 4 || m == 6 || m == 9 || m == 11 then 30
    else 31
  }

  predicate ValidDate(d: Date) {
    1 <= d.month <= 12 && 1 <= d.day <= DaysInMonth(d.year, d.month)
  }

  /** Calendar order: year, then month, then day. */
  predicate DateBefore(a: Date, b: Date) {
    || a.year < b.year
    || (a.year == b.year && a.month < b.month)
    || (a.year == b.year && a.month == b.month && a.day < b.day)
  }

  /** The day after `d`: luxon's `plus({ days: 1 })` on a calendar date. It is
      the least valid date after `d`. */
  function NextDay(d: Date): (r: Date)
    requires ValidDate(d)
    ensures ValidDate(r)
    ensures DateBefore(d, r)
    ensures forall e | ValidDate(e) && DateBefore(d, e) :: r == e || DateBefore(r, e)
  {
    if d.day < DaysInMonth(d.year, d.month) then Date(d.year, d.month, d.day + 1)
    else if d.month < 12 then Date(d.year, d.month + 1, 1)
    else Date(d.year + 1, 1, 1)
  }

  // ---------------------------------------------------------------------------
  // Local date-times

  const MsPerHour: nat := 3_600_000
  const MsPerDay: nat := 86_400_000

  /** A wall-clock instant in the configured zone: a date and the
      milliseconds since local midnight. */
  datatype LocalDateTime = LocalDateTime(date: Date, msOfDay: nat)

  predicate ValidDateTime(t: LocalDateTime) {
    ValidDate(t.date) && t.msOfDay < MsPerDay
  }

  /** luxon's `hour`. */
  function Hour(t: LocalDateTime): nat {
    t.msOfDay / MsPerHour
  }

  predicate Before(a: LocalDateTime, b: LocalDateTime) {
    DateBefore(a.date, b.date) || (a.date == b.date && a.msOfDay < b.msOfDay)
  }

  predicate AtOrBefore(a: LocalDateTime, b: LocalDateTime) {
    a == b || Before(a, b)
  }

  /** Milliseconds from `a` to `b` when `b` is on the same day or the next. */
  function ElapsedMs(a: LocalDateTime, b: LocalDateTime): int
    requires ValidDate(a.date)
    requires b.date == a.date || b.date == NextDay(a.date)
  {
    if b.date == a.date then b.msOfDay - a.msOfDay
    else MsPerDay - a.msOfDay + b.msOfDay
  }

  // ---------------------------------------------------------------------------
  // ISO dates

  function Pow10(n: nat): (p: nat)
    ensures p >= 1
  {
    if n == 0 then 1 else 10 * Pow10(n - 1)
  }

  /** `padStart(n, w, "0")` for `n < 10^w`: the last `w` decimal digits of `n`. */
  function PadDigits(n: nat, w: nat): (r: string)
    ensures |r| == w
    ensures AllDigits(r)
  {
    if w == 0 then "" else PadDigits(n / 10, w - 1) + [DigitChar(n % 10)]
  }

  /** luxon's `toISODate()` for a four-digit year. */
  function IsoDate(d: Date): (s: string)
    requires 0 <= d.year <= 9999
    requires 1 <= d.month <= 12 && 1 <= d.day <= 31
    ensures |s| == 10
  {
    PadDigits(d.year, 4) + "-" + PadDigits(d.month, 2) + "-" + PadDigits(d.day, 2)
  }

  /** Reads an ISO date back: the inverse of `IsoDate` on valid dates. */
  function ParseIsoDate(s: string): Option<Date> {
    if |s| == 10 && s[4] == '-' && s[7] == '-'
       && AllDigits(s[..4]) && AllDigits(s[5..7]) && AllDigits(s[8..])
    then
      var d := Date(DigitsValue(s[..4]), DigitsValue(s[5..7]), DigitsValue(s[8..]));
      if ValidDate(d) then Some(d) else None
    else None
  }

  lemma {:induction false} PadDigitsValue(n: nat, w: nat)
    requires n < Pow10(w)
    ensures DigitsValue(PadDigits(n, w)) == n
  {
    if w > 0 {
      var r := PadDigits(n, w);
      assert r[..|r| - 1] == PadDigits(n / 10, w - 1);
      PadDigitsValue(n / 10, w - 1);
    }
  }

  lemma {:induction false} DigitsValueBound(ds: string)
    requires AllDigits(ds)
    ensures DigitsValue(ds) < Pow10(|ds|)
  {
    if |ds| > 0 {
      DigitsValueBound(ds[..|ds| - 1]);
    }
  }

  /** A run of digits is the padded rendering of its own value. */
  lemma {:induction false} PadDigitsOfValue(ds: string)
    requires AllDigits(ds)
    ensures PadDigits(DigitsValue(ds), |ds|) == ds
  {
    if |ds| > 0 {
      var init := ds[..|ds| - 1];
      var v := DigitsValue(ds);
      var c := ds[|ds| - 1];
      assert v / 10 == DigitsValue(init) && v % 10 == DigitValue(c);
      PadDigitsOfValue(init);
      assert ds == init + [c];
    }
  }

  /** Round trip: reading an ISO date gives back the date. */
  lemma ParseIsoDateOfIsoDate(d: Date)
    requires ValidDate(d) && 0 <= d.year <= 9999
    ensures ParseIsoDate(IsoDate(d)) == Some(d)
  {
    var s := IsoDate(d);
    assert s[..4] == PadDigits(d.year, 4);
    assert s[5..7] == PadDigits(d.month, 2);
    assert s[8..] == PadDigits(d.day, 2);
    PadDigitsValue(d.year, 4);
    PadDigitsValue(d.month, 2);
    PadDigitsValue(d.day, 2);
  }

  /** The other direction: a string read as an ISO date is that date's
      rendering, so nothing else renders the same way. */
  lemma IsoDateOfParseIsoDate(s: string)
    requires ParseIsoDate(s).Some?
    ensures 0 <= ParseIsoDate(s).value.year <= 9999
    ensures IsoDate(ParseIsoDate(s).value) == s
  {
    DigitsValueBound(s[..4]);
    PadDigitsOfValue(s[..4]);
    PadDigitsOfValue(s[5..7]);
    PadDigitsOfValue(s[8..]);
    assert s == s[..4] + "-" + s[5..7] + "-" + s[8..];
  }

  lemma IsoDateInjective(a: Date, b: Date)
    requires ValidDate(a) && 0 <= a.year <= 9999
    requires ValidDate(b) && 0 <= b.year <= 9999
    ensures IsoDate(a) == IsoDate(b) <==> a == b
  {
    ParseIsoDateOfIsoDate(a);
    ParseIsoDateOfIsoDate(b);
  }

  // ---------------------------------------------------------------------------
  // Windows

  datatype WindowMode = Daily | HalfDay

  /** `DAILY_WINDOW_MODE === "halfday"`: every other setting means daily. */
  function ModeOf(setting: string): (m: WindowMode)
    ensures m == HalfDay <==> setting == "halfday"
  {
    if setting == "halfday" then HalfDay else Daily
  }

  datatype WindowInfo = WindowInfo(key: string, start: LocalDateTime, end: LocalDateTime)

  predicate InModelRange(now: LocalDateTime) {
    ValidDateTime(now) && 0 <= now.date.year <= 9999
  }

  function DayStart(d: Date): LocalDateTime {
    LocalDateTime(d, 0)
  }

  function Noon(d: Date): LocalDateTime {
    LocalDateTime(d, 12 * MsPerHour)
  }

  /** `getWindowInfo(now)`. */
  function GetWindowInfo(mode: WindowMode, now: LocalDateTime): (w: WindowInfo)
    requires InModelRange(now)
    ensures AtOrBefore(w.start, now) && Before(now, w.end)
    ensures w.start.msOfDay == 0 || w.start == Noon(now.date)
  {
    var d := now.date;
    match mode
    case HalfDay =>
      var isFirstHalf := Hour(now) < 12;
      WindowInfo(IsoDate(d) + "_" + (if isFirstHalf then "00" else "12"),
                 if isFirstHalf then DayStart(d) else Noon(d),
                 if isFirstHalf then Noon(d) else DayStart(NextDay(d)))
    case Daily =>
      WindowInfo(IsoDate(d), DayStart(d), DayStart(NextDay(d)))
  }

  /** The part of a window key before the first `_`: `key.split("_")[0]`. */
  function DatePart(key: string): string {
    Split(key, '_')[0]
  }

  /** In both modes the date part of the key is the daily key of the day;
      in daily mode the key is that ISO date and nothing more. */
  lemma DatePartOfKey(mode: WindowMode, now: LocalDateTime)
    requires InModelRange(now)
    ensures DatePart(GetWindowInfo(mode, now).key) == IsoDate(now.date)
    ensures mode == Daily ==> GetWindowInfo(mode, now).key == IsoDate(now.date)
    ensures mode == Daily ==> '_' !in GetWindowInfo(mode, now).key
  {
    var iso := IsoDate(now.date);
    assert '_' !in iso by {
      assert iso == PadDigits(now.date.year, 4) + "-" + PadDigits(now.date.month, 2)
                     + "-" + PadDigits(now.date.day, 2);
    }
    var key := GetWindowInfo(mode, now).key;
    if mode == HalfDay {
      var suffix := if Hour(now) < 12 then "00" else "12";
      assert key == iso + ['_'] + suffix;
      assert IndexOf(key, '_') == |iso| by {
        assert key[|iso|] == '_';
        assert forall k | 0 <= k < |iso| :: key[k] == iso[k];
      }
      assert key[..|iso|] == iso;
    } else {
      assert IndexOf(key, '_') == |key|;
      assert key[..|key|] == key;
    }
  }

  /** Half-day keys end in `_00` exactly before noon, and in `_12` otherwise. */
  lemma HalfDayKeySuffix(now: LocalDateTime)
    requires InModelRange(now)
    ensures var key := GetWindowInfo(HalfDay, now).key;
            |key| == 13 && key[10..] == (if Hour(now) < 12 then "_00" else "_12")
  {
  }

  /** Daily windows are one day long and half-day windows half a day. */
  lemma WindowLength(mode: WindowMode, now: LocalDateTime)
    requires InModelRange(now)
    ensures var w := GetWindowInfo(mode, now);
            && (w.end.date == w.start.date || w.end.date == NextDay(w.start.date))
            && ElapsedMs(w.start, w.end) == (if mode == Daily then MsPerDay else MsPerDay / 2)
  {
  }

  /** Two instants share a key exactly when they lie in the same window. */
  lemma KeyDeterminesWindow(mode: WindowMode, a: LocalDateTime, b: LocalDateTime)
    requires InModelRange(a) && InModelRange(b)
    ensures GetWindowInfo(mode, a).key == GetWindowInfo(mode, b).key
            <==> GetWindowInfo(mode, a) == GetWindowInfo(mode, b)
  {
    var ka := GetWindowInfo(mode, a).key;
    var kb := GetWindowInfo(mode, b).key;
    if ka == kb {
      var ia := IsoDate(a.date);
      var ib := IsoDate(b.date);
      assert ka[..10] == ia && kb[..10] == ib;
      IsoDateInjective(a.date, b.date);
      if mode == HalfDay {
        assert ka[11..] == (if Hour(a) < 12 then "00" else "12");
        assert kb[11..] == (if Hour(b) < 12 then "00" else "12");
      }
    }
  }
}

=== FILE: wrappers.dfy ===
/** Optional values: the model's rendering of JavaScript's `null` / `undefined`
    and of `NaN` results, which the source handles as ordinary inputs. */
module Wrappers {

  datatype Option<+T> = None | Some(value: T) {

    /** The value, or `default` when absent (JavaScript's `x || default`
        for values that are never falsy when present). */
    function GetOr(default: T): T {
      match this
      case Some(v) => v
      case None => default
    }
  }
}
